=== FILE: README.md ===
# Loto Happy, modelled in Dafny

Loto Happy is a lottery front end. Players pick numbers for a draw, and a
bet type decides how the stake is paid out. The draw's results settle every
ticket of that draw, credit the winners and write the draw's totals. Accounts
live in named browser-storage lists. They are players, resellers who credit
players from a token balance, and administrators with roles.

This project models the core of that system in Dafny 4:

- the payout rule of the nine bet types and the settlement of a draw
  (`src/utils/draws.ts`, `src/utils/games.ts`);
- the account ledger, the phone and Mobile Money validators, and the
  administrator roster (`src/utils/auth.ts`);
- the withdrawal requests (`src/utils/withdrawals.ts`);
- the user-interface state machines and checks:
  - the withdrawal wizard;
  - the bet slip;
  - the admin panel's access rules;
  - top-level navigation;
  - the win announcements;
  - the registration form;
- the phone-number migration (`src/utils/migrateData.ts`);
- the source-dump script (`create_frontend_dump.py`).

Each storage key becomes a `seq` field of a class (`DrawStore`,
`TicketStore`, `AccountStore`, `WithdrawalQueue`). The operations that change
them are methods. Each method is specified by a pure function, and lemmas
state the function's properties. Loops in the source are loops here, each
with its invariants:

- the pair generator;
- the operator search;
- the settlement loop;
- the grouping of tickets;
- the migration `forEach`;
- the seen-wins merge;
- the directory walk.

Files, one module each:

| file | module | models |
|---|---|---|
| common.dfy | `Common` | JavaScript built-ins on sequences and strings (`filter`, `findIndex`, `trim`, `parseInt`, `split`/`join`, …) |
| games.dfy | `Games` | bet types, the configuration tables, pairs, inversion, the draw list |
| payout.dfy | `Payout` | tickets, number parsing, `calculateAdvancedWinAmount` |
| draws.dfy | `Draws` | settlement, notifications, crediting winnings, ticket creation |
| stats.dfy | `DrawStats` | bet history, risk levels, combination statistics |
| auth.dfy | `Auth` | validators, balances, credits, registration, the admin roster |
| withdrawals.dfy | `Withdrawals` | withdrawal requests |
| withdraw_modal.dfy | `WithdrawModal` | the three-step withdrawal wizard |
| game_screen.dfy | `GameScreen` | the bet slip of the advanced game screen |
| admin_panel.dfy | `AdminPanel` | menu access, start screen, rendering |
| app.dfy | `App` | home screen routing and navigation |
| win_notification.dfy | `WinNotification` | unread wins and the seen list |
| registration.dfy | `Registration` | the registration checks and prefill |
| migrate_data.dfy | `Migration` | stripping `+` from stored phones |
| frontend_dump.dfy | `FrontendDump` | the dump script over an abstract directory tree |

## Model

| member | source | states |
|---|---|---|
| Games.BetTypeFromName | src/utils/games.ts:6-15 | a stored identifier maps back only to the bet type stored under it |
| Games.BetTypeNameRoundTrip | src/utils/games.ts:6-15 | reading back a bet type's identifier gives the same bet type |
| Games.Config | src/utils/games.ts:134-219 | `BET_TYPES_CONFIG`: every type has 1 ≤ minNumbers ≤ maxNumbers and a positive multiplier; only CHANCE_PLUS needs a position, only BANKA a base, only PERMUTATION generates combinations |
| Games.AllBetTypesComplete | src/utils/games.ts:6-15 | the configured list holds all nine bet types |
| Games.DefaultMultipliers | src/utils/games.ts:449-461 | `getDefaultMultipliers` maps every bet type to its configured default |
| Games.DefaultMultiplierValues | src/utils/games.ts:134-219 | the defaults are NAP1 10, NAP2 500, NAP3 2500, NAP4 10000, NAP5 100000, PERMUTATION 500, BANKA 500, CHANCE_PLUS 90, ANAGRAMME 10 |
| Games.OperatorById | src/utils/games.ts:223-225 | the first configured operator with the id, or none exactly when no operator has it |
| Games.GenerateNap2Combinations | src/utils/games.ts:263-271 | the nested loops produce exactly the pairs of positions `i < j` in lexicographic order |
| Games.Nap2PairsCount | src/utils/games.ts:250-271 | the generator yields n(n−1)/2 pairs, agreeing with `calculatePermutationCombinations` |
| Games.PermutationCostPairs | src/utils/games.ts:257-260 | `calculatePermutationCost` is one per-combination stake for each generated pair |
| Games.Nap2PairsAt | src/utils/games.ts:263-271 | the pair of positions (a, b) is `[s[a], s[b]]` at its computed place |
| Games.PairIndexOrdered | src/utils/games.ts:263-271 | pairs appear in increasing lexicographic order of their positions |
| Games.Nap2PairsOnly | src/utils/games.ts:263-271 | every generated pair is `[s[i], s[j]]` for some `i < j` |
| Games.InvertNumber | src/utils/games.ts:274-279 | a one-digit number has no inversion, and an inversion is never above 90 |
| Games.InvertTwoDigits | src/utils/games.ts:274-279 | a two-digit number inverts to its digits swapped when that is at most 90, otherwise to none |
| Games.InvertExamples | src/utils/games.ts:274-279 | 12 inverts to 21, 10 to 1, 19 to none |
| Games.InvertInvolution | src/utils/games.ts:274-279 | inverting twice gives the number back when neither digit is zero and the inversion exists |
| Games.MergeDrawLaws | src/utils/games.ts:376 | merging an update is idempotent and the empty update changes nothing |
| Games.MergeDraw | src/utils/games.ts:376 | each of the nine fields an update may carry takes the update's value when present and keeps the draw's otherwise; the empty update changes nothing; the statistics are never touched |
| Games.RemoveDraw | src/utils/games.ts:385 | the list never grows, and no kept draw has the removed id |
| Games.RemoveDrawSpec | src/utils/games.ts:383-391 | removal shortens the list exactly when some draw has the id, and keeps exactly the draws with other ids |
| Games.RemoveDrawAppend | src/utils/games.ts:385 | removal keeps the order: it distributes over concatenation |
| Games.DrawStore.constructor | src/utils/games.ts:331-339 | the stored draw list starts empty |
| Games.DrawStore.CreateDraw | src/utils/games.ts:342-367 | exactly one upcoming draw with no winning numbers and the given fields is appended; earlier draws are unchanged |
| Games.DrawStore.UpdateDraw | src/utils/games.ts:370-380 | an absent id returns none and changes nothing; otherwise only the first draw with the id receives the merged update, which is returned |
| Games.DrawStore.DeleteDraw | src/utils/games.ts:383-391 | false exactly when no draw has the id; on true every draw with the id is removed and the rest keep their order |
| Payout.ParseNumbers | src/utils/draws.ts:251 | splitting on ',' always yields at least one entry |
| Payout.ParseFormatNumbers | src/utils/draws.ts:251 | numbers written with `join(',')` parse back one by one |
| Payout.NapPayout | src/utils/draws.ts:245-259 | NAP pays stake × multiplier exactly when every chosen number was drawn, else 0 |
| Payout.PermutationPayout | src/utils/draws.ts:261-278 | with at least one stored pair: the fully drawn pairs times the stake times the multiplier, divided by the number of pairs and rounded down; 0 when no pair was fully drawn, including an empty list; never negative and never above stake × multiplier |
| Payout.PermutationAllPairsDrawn | src/utils/draws.ts:261-278 | when every stored pair was drawn the whole stake × multiplier is paid |
| Payout.BankaPayout | src/utils/draws.ts:280-298 | 0 unless the base is set, non-zero and drawn and some associated number is drawn; otherwise the stake × multiplier share of the drawn associated numbers; never above stake × multiplier |
| Payout.ChancePlusPayout | src/utils/draws.ts:300-312 | pays stake × multiplier or 0; pays only when the number is the first winning number for position first, or the last one for position last, and always then |
| Payout.AnagrammePayout | src/utils/draws.ts:314-323 | pays stake × multiplier or 0; pays exactly when the number, or its non-zero inversion, was drawn |
| Payout.WinAmount | src/utils/draws.ts:234-248 | a ticket without a usable bet type wins 0 |
| Payout.WinAmountBounded | src/utils/draws.ts:234-328 | the payout lies between 0 and stake × multiplier when that product is not negative |
| Payout.CountMatches | src/utils/draws.ts:226-229 | never more than the ticket's numbers; all of them exactly when every number was drawn; 0 when none was |
| Games.MultiplierFor | src/utils/draws.ts:240 | the draw's own multiplier for the type when it has one (even 0), otherwise the type's default from `getDefaultMultipliers` |
| Payout.MissingBetTypeIsNap2 | src/utils/draws.ts:235-240 | a ticket without a bet type is settled as NAP2 with the draw's NAP2 multiplier or the default |
| Payout.NapWinsIffAllDrawn | src/utils/draws.ts:245-259 | a NAP ticket wins stake × multiplier exactly when all its parsed numbers were drawn, else 0 |
| Payout.NapSelectionWins | src/utils/draws.ts:245-259 | a NAP ticket made of selected numbers wins exactly when all of them were drawn |
| Draws.DrawTickets | src/utils/draws.ts:174-176 | exactly the stored tickets of the draw |
| Draws.CompletedDraw | src/utils/draws.ts:477-489 | the written draw is completed with the given participants, winners, total bets and total winnings, and profit total bets minus total winnings; its id, operator, date, time, multipliers, winning numbers and creation fields are kept |
| Draws.ParticipantsGrow | src/utils/draws.ts:212-221 | adding a ticket raises its draw's participant count by one |
| Draws.SettledTickets | src/utils/draws.ts:428-475 | each ticket of the draw is won with its payout or lost; tickets of other draws are unchanged |
| Draws.SettlementMarksTickets | src/utils/draws.ts:428-475 | with distinct ticket ids the settlement loop produces exactly that outcome |
| Draws.MarkTickets | src/utils/draws.ts:431-470 | the stored ticket list keeps its length |
| Draws.MarkTicketsKeepsOthers | src/utils/draws.ts:431-470 | every stored ticket keeps its id and draw, and one whose id no settled ticket has is left as it was |
| Draws.SettledStatsAgree | src/utils/draws.ts:428-489 | after settlement the tickets marked won are the draw's winners, and their amounts sum to its total winnings |
| Draws.NextNotificationId | src/utils/draws.ts:396-406 | above every existing id and one more than the largest, or 1 |
| Draws.AddWinNotification | src/utils/draws.ts:396-406 | appends one unread notification whose id exceeds every earlier one |
| Draws.NotifyTickets | src/utils/draws.ts:446-458 | none is removed and at most one is added per settled ticket |
| Draws.NotifyTicketsSpec | src/utils/draws.ts:446-458 | settlement adds exactly one unread notification per winner after the existing ones; ids keep increasing |
| Draws.WinNotificationsFor | src/utils/draws.ts:496-505 | all notifications with no user, otherwise exactly that user's |
| Draws.UnreadWinNotifications | src/utils/draws.ts:507-509 | exactly the unread notifications of the user (of everyone with no user) |
| Draws.MarkRead | src/utils/draws.ts:511-519 | an unknown id changes nothing; otherwise only the first notification with the id becomes read |
| Draws.MarkAllRead | src/utils/draws.ts:521-527 | exactly the user's notifications become read and nothing else changes |
| Draws.MarkAllReadClears | src/utils/draws.ts:521-527 | afterwards the user has nothing unread and every other user's unread list is as before |
| Draws.MarkAllReadOthers | src/utils/draws.ts:521-527 | another user's notifications are unchanged |
| Draws.CreditWinnings | src/utils/draws.ts:355-366 | the winnings balance grows by the amount, a WIN entry with the new balance heads the history, and nothing else changes |
| Draws.CreditLedger | src/utils/draws.ts:342-393 | an unknown user id changes nothing; otherwise the first stored user with the id becomes its `CreditWinnings` record (winnings grown by the amount, the WIN entry with the new balance in front of the history) and no other stored user changes; the list lengths never change |
| Draws.CreditLedgerBalance | src/utils/draws.ts:342-351 | with distinct ids, every stored user keeps its id, the credited user's winnings balance grows by the amount and every other user's winnings balance is unchanged |
| Draws.CreditLedgerCopies | src/utils/draws.ts:369-391 | the session, when it is the credited user, and the first player with the id take the credited record's winnings balance and history; a session of another user, and the players when none has the id, are unchanged |
| Draws.CreditTickets | src/utils/draws.ts:460-461 | no user is added or removed, and without a winner nothing changes |
| Draws.CreditTicketsBalance | src/utils/draws.ts:431-463 | after settlement every stored user's winnings grew by exactly what that user's winning tickets paid |
| Draws.CreditKeepsSynced | src/utils/draws.ts:342-393 | crediting a player keeps the merged list equal to the players followed by the resellers |
| Draws.CreditWinningsToPlayer | src/utils/draws.ts:342-393 | the stored accounts become the credited ledger; resellers and administrators are untouched |
| Draws.TotalsStep | src/utils/draws.ts:431-463 | one more ticket adds its stake to the bets, and its payout and one winner when it wins |
| Draws.TicketStore.constructor | src/utils/draws.ts:125-128 | the ticket and notification lists start empty |
| Draws.TicketStore.CreateTicket | src/utils/draws.ts:135-171 | one pending ticket is appended and its draw, when it exists, counts the draw's tickets again |
| Draws.TicketStore.SettleDrawTicket | src/utils/draws.ts:431-471 | one pass marks the stored ticket, and notifies and credits a winner |
| Draws.TicketStore.SettleTickets | src/utils/draws.ts:418-471 | the loop's totals are the stakes, payouts and winners of the draw's tickets; tickets, notifications and accounts are the settled ones |
| Draws.TicketStore.SubmitDrawResults | src/utils/draws.ts:409-492 | an unknown draw changes nothing; otherwise tickets, notifications and winnings are settled and the draw is written completed with its totals |
| Draws.TicketStore.MarkNotificationAsRead | src/utils/draws.ts:511-519 | the notifications become `MarkRead` of the old ones; tickets are unchanged |
| Draws.TicketStore.MarkAllNotificationsAsRead | src/utils/draws.ts:521-527 | the notifications become `MarkAllRead` of the old ones; tickets are unchanged |
| DrawStats.FindDraw | src/utils/draws.ts:184 | a found draw has the id and is stored; none exactly when no draw has the id |
| DrawStats.HistoryStatus | src/utils/draws.ts:190-192 | won or lost only for a completed draw (won exactly for a won ticket), otherwise the draw's own status |
| DrawStats.BetHistory | src/utils/draws.ts:179-209 | one history entry per ticket of the user whose draw exists |
| DrawStats.BetHistorySources | src/utils/draws.ts:179-209 | every entry comes from one of the user's tickets whose draw exists |
| DrawStats.BetHistoryComplete | src/utils/draws.ts:179-209 | every ticket of the user whose draw exists has its entry |
| DrawStats.RiskLevelOf | src/utils/draws.ts:547-552 | critical above 5,000,000, high above 2,000,000, medium above 500,000, low otherwise, each as an exact range |
| DrawStats.RiskLevelMonotone | src/utils/draws.ts:547-552 | a larger potential payout never has a lower risk level |
| DrawStats.LexLessIrreflexive | src/utils/draws.ts:610 | no date string comes after itself |
| DrawStats.LexLessTransitive | src/utils/draws.ts:610 | the string order is transitive |
| DrawStats.LexLessTotal | src/utils/draws.ts:610 | of two different strings one comes first |
| DrawStats.SortNumbers | src/utils/draws.ts:602 | the parsed numbers ascending, the same numbers |
| DrawStats.InsertNumberAscending | src/utils/draws.ts:602 | insertion keeps the numbers ascending |
| DrawStats.AscendingUnique | src/utils/draws.ts:602 | an ascending arrangement of given numbers is unique |
| DrawStats.ComboIgnoresOrder | src/utils/draws.ts:602-603 | the order the numbers were written in does not change the combination key |
| DrawStats.GroupTickets | src/utils/draws.ts:601-622 | the `forEach` fills the groups as `Groups` defines them |
| DrawStats.GroupSummary | src/utils/draws.ts:601-622 | each group counts its draw and combination's tickets and sums their stakes |
| DrawStats.LatestStep | src/utils/draws.ts:610-612 | the date a group keeps stays the latest when a ticket joins |
| DrawStats.GroupLastPlayed | src/utils/draws.ts:601-622 | a group's last-played date is the latest purchase date of its tickets |
| DrawStats.GroupKeysDistinct | src/utils/draws.ts:601-622 | no two groups share a key |
| DrawStats.GroupTotals | src/utils/draws.ts:601-622 | the group counts sum to the number of tickets and the amounts to the total stake |
| DrawStats.StatsOf | src/utils/draws.ts:627-651 | one statistic per group whose draw is found, each reporting a group: its numbers, count, amount, date, estimate, risk level and its draw's operator id and name, 'Inconnu' for an unknown operator |
| DrawStats.StatsOfComplete | src/utils/draws.ts:627-651 | every group whose draw is found is reported by some statistic |
| DrawStats.SortByPayout | src/utils/draws.ts:654 | the statistics in descending potential payout, as a permutation |
| DrawStats.InsertStatDescending | src/utils/draws.ts:654 | insertion keeps the order descending |
| DrawStats.SortKeepsStats | src/utils/draws.ts:654 | sorting keeps the length and neither adds nor drops a statistic |
| DrawStats.SortKeepsReports | src/utils/draws.ts:654 | sorting keeps every statistic reporting a group |
| DrawStats.SortKeepsReported | src/utils/draws.ts:654 | a group reported before sorting is still reported after |
| DrawStats.OpenTickets | src/utils/draws.ts:585-590 | exactly the tickets of upcoming or pending draws |
| DrawStats.GroupsHaveDraws | src/utils/draws.ts:585-629 | every group of open tickets has its draw, so none is dropped |
| DrawStats.GetCombinationStats | src/utils/draws.ts:580-657 | the statistics are the sorted reports of the groups of the open tickets |
| DrawStats.CombinationStatsSpec | src/utils/draws.ts:580-657 | most exposed first, as many statistics as groups, each reporting a group with its operator and every group reported, counts summing to the open tickets and amounts to their stakes |
| Auth.CleanPhone | src/utils/auth.ts:183 | no space, '-' or '.' remains in the cleaned number |
| Auth.StartsWithAny | src/utils/auth.ts:233-235 | true exactly when some prefix starts the string |
| Auth.IsResellerNumber | src/utils/auth.ts:181-187 | true exactly when the cleaned number ends with one of the reseller numbers |
| Auth.FirstServingIn | src/utils/auth.ts:196-207 | the first operator in list order that serves the country with a matching prefix |
| Auth.FindServingOperator | src/utils/auth.ts:197-205 | the search loop returns that first serving operator, or none |
| Auth.FirstServingAt | src/utils/auth.ts:196-207 | a serving operator with none serving before it is the one found |
| Auth.DetectOperatorFromNumber | src/utils/auth.ts:190-208 | the first configured operator serving the cleaned number, or none |
| Auth.OperatorById | src/utils/auth.ts:219 | the first Mobile Money operator with the id, or none exactly when no operator has it |
| Auth.ValidateNumberForOperator | src/utils/auth.ts:211-246 | valid exactly when the operator exists, serves the country and a prefix starts the cleaned number |
| Auth.OperatorIdsDistinct | src/utils/auth.ts:112-169 | the operator ids are distinct |
| Auth.DetectedOperatorValidates | src/utils/auth.ts:190-246 | the detected operator passes validation for the same number and country |
| Auth.OperatorsForCountry | src/utils/auth.ts:249-253 | exactly the operators serving the country, in order |
| Auth.PhoneFormatFor | src/utils/auth.ts:94-100 | the format of the country code, none for an unknown code |
| Auth.ValidatePhoneNumber | src/utils/auth.ts:256-295 | reseller numbers pass; otherwise an unknown code, a non-digit and a wrong length are refused, in that order |
| Auth.PhoneFormatLengths | src/utils/auth.ts:94-100 | 8 digits for Togo, Bénin and Burkina Faso, 9 for Ghana, 10 for Côte d'Ivoire |
| Auth.HashPassword | src/utils/auth.ts:298-300 | the hash is a seven-character prefix followed by the password itself |
| Auth.HashPasswordInjective | src/utils/auth.ts:298-300 | different passwords never share a hash |
| Auth.PushHistory | src/utils/auth.ts:945-950 | the newest entry first, the older ones after it in order, at most 100 entries |
| Auth.ConvertWinnings | src/utils/auth.ts:848-862 | refused when winnings are below the amount; otherwise the sum of both balances is kept |
| Auth.DeductBet | src/utils/auth.ts:865-878 | refused when the game balance is below the amount; otherwise it drops by exactly the amount |
| Auth.ConvertThenBet | src/utils/auth.ts:848-878 | converting then betting the same amount spends the winnings and leaves the game balance as it was |
| Auth.ProviderName | src/utils/auth.ts:1310-1313 | a known id is shown by its operator's name, an id no operator has as it is |
| Auth.Withdrawn | src/utils/auth.ts:1220-1238 | the game balance drops by the amount and a WITHDRAWAL entry of −amount with the new balance heads the capped history |
| Auth.Withdraw | src/utils/auth.ts:1188-1266 | non-players, amounts under 500 and amounts above the game balance are refused; otherwise the account is `Withdrawn` |
| Auth.AddOrUpdateByPhone | src/utils/auth.ts:632-645 | the first record with the phone is replaced, or the record is appended |
| Auth.SearchPlayer | src/utils/auth.ts:977-995 | the first player matching the trimmed, '+'-free term by phone or by username ignoring case |
| Auth.SearchBlankTerm | src/utils/auth.ts:977-995 | a blank term matches the first player |
| Auth.Credit | src/utils/auth.ts:1017-1073 | the player gains what the reseller's tokens lose; the reseller's daily total and count grow |
| Auth.CreditPlayer | src/utils/auth.ts:998-1085 | refused unless the caller is a reseller with enough tokens and the player is found, checked in that order |
| Auth.RegistrationError | src/utils/auth.ts:648-722 | a taken phone is refused first; no refusal exactly when phone, email and username are all free |
| Auth.NewPlayer | src/utils/auth.ts:648-722 | cleaned identifiers, hashed password, 1000 game balance and the welcome bonus as only history entry |
| Auth.RegisterTwiceRefused | src/utils/auth.ts:540-554 | registering the same phone again is refused, whatever '+' signs it carries |
| Auth.FreshPhoneAppends | src/utils/auth.ts:632-645 | a phone that passed the check is appended, not replacing anyone |
| Auth.InsertKeepsPhonesDistinct | src/utils/auth.ts:632-645 | inserting a record with a new phone keeps the phones pairwise distinct |
| Auth.RegisterKeepsPhonesDistinct | src/utils/auth.ts:648-722 | a successful registration keeps players' and resellers' phones pairwise distinct |
| Auth.NewReseller | src/utils/auth.ts:430-491 | the reseller record with its opening token balance |
| Auth.ResellerError | src/utils/auth.ts:430-491 | only resellers are consulted: the phone exactly, then the email ignoring case |
| Auth.ToggledStatus | src/utils/auth.ts:1396-1418 | an absent status counts as active and is flipped |
| Auth.ToggleTwice | src/utils/auth.ts:1396-1418 | toggling twice restores the effective status |
| Auth.ToggleStatusIn | src/utils/auth.ts:1396-1418 | the first record with the phone is flipped; none when no record has it |
| Auth.AddAdmin | src/utils/auth.ts:1496-1524 | refused for an exactly equal email; otherwise one active administrator is appended |
| Auth.UpdateAdminIn | src/utils/auth.ts:1527-1550 | succeeds exactly when the id is known and the update does not bring a new non-empty email another administrator has; an unknown id and a taken email each get their message; on success only the first match is updated |
| Auth.ToggleAdminIn | src/utils/auth.ts:1553-1574 | succeeds exactly when the id is known and the match is not the only active Super Admin; each refusal has its message; on success only the first match flips status |
| Auth.DeleteAdminIn | src/utils/auth.ts:1577-1597 | succeeds exactly when the id is known and the match is not the only Super Admin; each refusal has its message; on success the first match is spliced out and the others keep their order |
| Auth.ToggleKeepsActiveSuperAdmin | src/utils/auth.ts:1553-1574 | toggling never leaves the roster without an active Super Admin when it had one |
| Auth.DeleteKeepsSuperAdmin | src/utils/auth.ts:1577-1597 | deleting never leaves the roster without a Super Admin when it had one |
| Auth.DeleteCanRemoveLastActiveSuperAdmin | src/utils/auth.ts:1577-1597 | the guard counts inactive Super Admins too, so the only active one can be deleted |
| Auth.TouchLastLogin | src/utils/auth.ts:1600-1608 | the first administrator with that exact email gets the new date and every other entry stays; with no such administrator the roster is unchanged |
| Auth.IsBuiltInAdmin | src/utils/auth.ts:1323-1328 | the stripped identifier is or ends with twelve zeros and the built-in password is given |
| Auth.IsRosterAdmin | src/utils/auth.ts:1330-1355 | the first administrator with the email ignoring case is active and has the password's hash |
| Auth.IsAdminCredentials | src/utils/auth.ts:1322-1355 | the built-in administrator, or else an active roster administrator |
| Auth.AdminPhoneSuffix | src/utils/auth.ts:1323-1325 | the built-in identifier is recognised by its end whatever precedes it |
| Auth.AdminPhoneKeepsDashes | src/utils/auth.ts:1323 | the character class keeps dashes, so a dash before the last digit defeats the check |
| Auth.CurrentAdminRole | src/utils/auth.ts:1611-1624 | none exactly when no administrator is signed in; otherwise the role of the first administrator with that exact email, Super Admin when there is none |
| Auth.ReplaceByPhone | src/utils/auth.ts:1046-1051 | the first record with the phone is replaced; the list is kept when none has it |
| Auth.ReplaceByPhoneFound | src/utils/auth.ts:1046-1051 | replacing a record that is in the list puts the new one in |
| Auth.AccountStore.constructor | src/utils/auth.ts:389-405 | no session, no players, the default resellers and administrators, lists in sync |
| Auth.AccountStore.Commit | src/utils/auth.ts:820-831 | the session holds the user; a player is also written back and the lists re-synchronised |
| Auth.AccountStore.ConvertWinningsToGame | src/utils/auth.ts:848-862 | false and no change without a user or enough winnings; otherwise the session becomes the converted user |
| Auth.AccountStore.DeductBetCost | src/utils/auth.ts:865-878 | false and no change without a user or enough game balance; otherwise the session becomes the debited user |
| Auth.AccountStore.UpdateGameBalance | src/utils/auth.ts:820-831 | a signed-in user's game balance grows by the amount, unchecked |
| Auth.AccountStore.UpdateWinningsBalance | src/utils/auth.ts:834-845 | a signed-in user's winnings balance grows by the amount |
| Auth.AccountStore.AddPlayerTransaction | src/utils/auth.ts:926-955 | only for a signed-in player, whose capped history gets the entry in front |
| Auth.AccountStore.WithdrawMoney | src/utils/auth.ts:1188-1266 | the result and new session are `Withdraw`'s; on success one pending request heads the request list |
| Auth.AccountStore.CreditPlayerAccount | src/utils/auth.ts:998-1085 | on success the credited player and the debited reseller replace their records and the reseller is the session |
| Auth.AccountStore.SaveCredit | src/utils/auth.ts:1045-1079 | the player replaces its record, the reseller becomes the session and replaces its record |
| Auth.AccountStore.CreateUser | src/utils/auth.ts:648-722 | refused as `RegistrationError` says; otherwise the new player is signed in and appended |
| Auth.AccountStore.CreateReseller | src/utils/auth.ts:430-491 | refused as `ResellerError` says; otherwise the reseller is appended |
| Auth.AccountStore.ToggleUserStatus | src/utils/auth.ts:1396-1418 | players searched first, then resellers; false when neither has the phone |
| Auth.AccountStore.ApplyAdmins | src/utils/auth.ts:1491-1493 | a successful roster result is stored, a refusal keeps the roster; accounts and session are untouched |
| Auth.AccountStore.CreateAdmin | src/utils/auth.ts:1496-1524 | the roster becomes `AddAdmin`'s result; a refusal changes nothing |
| Auth.AccountStore.UpdateAdmin | src/utils/auth.ts:1527-1550 | the roster becomes `UpdateAdminIn`'s result; a refusal changes nothing |
| Auth.AccountStore.ToggleAdminStatus | src/utils/auth.ts:1553-1574 | the roster becomes `ToggleAdminIn`'s result and keeps an active Super Admin |
| Auth.AccountStore.DeleteAdmin | src/utils/auth.ts:1577-1597 | the roster becomes `DeleteAdminIn`'s result and keeps a Super Admin |
| Auth.AccountStore.UpdateAdminLastLogin | src/utils/auth.ts:1600-1608 | the roster becomes `TouchLastLogin`'s result |
| Withdrawals.Process | src/utils/withdrawals.ts:48-75 | none exactly for an unknown id; otherwise the length is kept and only the first match gets the status and date |
| Withdrawals.ProcessIdempotent | src/utils/withdrawals.ts:48-75 | processing twice with the same decision leaves the same statuses as once |
| Withdrawals.ProcessOverwrites | src/utils/withdrawals.ts:52-56 | no guard on the current status: a processed request can be overwritten |
| Withdrawals.UserRequests | src/utils/withdrawals.ts:78-80 | exactly the requests of the user |
| Withdrawals.PendingRequests | src/utils/withdrawals.ts:83-85 | exactly the pending requests |
| Withdrawals.UserRequestsNewestFirst | src/utils/withdrawals.ts:41 | a new request in front is first among the user's requests, the others keep their order |
| Withdrawals.WithdrawalQueue.constructor | src/utils/withdrawals.ts:8-11 | the request list starts empty |
| Withdrawals.WithdrawalQueue.CreateWithdrawalRequest | src/utils/withdrawals.ts:19-45 | exactly one pending request with the given fields is put in front |
| Withdrawals.WithdrawalQueue.ApproveWithdrawalRequest | src/utils/withdrawals.ts:48-60 | true exactly when the id exists; then the list is `Process`ed to approved, else unchanged |
| Withdrawals.WithdrawalQueue.RejectWithdrawalRequest | src/utils/withdrawals.ts:63-75 | true exactly when the id exists; then the list is `Process`ed to rejected, else unchanged |
| WithdrawModal.CountryCode | src/components/WithdrawModal.tsx:42-44 | '+228' without a stored phone; otherwise '+' and the phone's first three characters |
| WithdrawModal.LocalNumber | src/components/WithdrawModal.tsx:53 | the stored phone without its first three characters |
| WithdrawModal.SplitPhoneRoundTrip | src/components/WithdrawModal.tsx:42-53 | the country code's digits followed by the local number give the stored phone back |
| WithdrawModal.AvailableQuickAmounts | src/components/WithdrawModal.tsx:247 | exactly the quick amounts not above the balance |
| WithdrawModal.AmountError | src/components/WithdrawModal.tsx:82-101 | accepted exactly when 500 ≤ amount ≤ balance; empty or non-positive, then below 500, then above the balance refused in order |
| WithdrawModal.PhoneError | src/components/WithdrawModal.tsx:110-122 | accepted exactly when the phone has at least 8 characters and the operator validates it |
| WithdrawModal.PrefillPassesPhoneCheck | src/components/WithdrawModal.tsx:50-122 | a prefilled local number of 8 characters passes the step-3 check |
| WithdrawModal.DigitsOnly | src/components/WithdrawModal.tsx:357 | only digits are kept; an all-digit text is unchanged |
| WithdrawModal.Wizard.constructor | src/components/WithdrawModal.tsx:30-35 | empty fields at step 1 |
| WithdrawModal.Wizard.EnterAmount | src/components/WithdrawModal.tsx:77-79 | only the amount changes |
| WithdrawModal.Wizard.ChooseProvider | src/components/WithdrawModal.tsx:31 | only the operator changes |
| WithdrawModal.Wizard.EnterPhone | src/components/WithdrawModal.tsx:357 | only the phone changes, to its digits |
| WithdrawModal.Wizard.Continue | src/components/WithdrawModal.tsx:81-135 | each step moves on only past its check; step 3 submits and clears; a refusal keeps the step; amount, operator, phone and pre-fill flag change only on a submission; the step stays within 1..3 |
| WithdrawModal.Wizard.Clear | src/components/WithdrawModal.tsx:128-132 | back at step 1 with every field empty |
| WithdrawModal.Wizard.Back | src/components/WithdrawModal.tsx:137-141 | one step back, never below 1 |
| WithdrawModal.Wizard.Close | src/components/WithdrawModal.tsx:143-148 | amount and operator cleared and step 1; the phone and prefill flag kept |
| WithdrawModal.Wizard.PrefillEffect | src/components/WithdrawModal.tsx:50-75 | at step 3, once, the local number is kept only when valid for the operator; before step 3 the flag resets |
| WithdrawModal.Wizard.Prefill | src/components/WithdrawModal.tsx:58-68 | the phone and detected operator set as the fit decides, and the flag raised |
| GameScreen.InsertAscending | src/components/GameScreenAdvanced.tsx:92 | the number joins the multiset of the selection |
| GameScreen.InsertAscendingOrdered | src/components/GameScreenAdvanced.tsx:92 | insertion keeps the selection ascending |
| GameScreen.InsertAscendingStrict | src/components/GameScreenAdvanced.tsx:92 | inserting an absent number keeps it strictly ascending |
| GameScreen.InsertAscendingLast | src/components/GameScreenAdvanced.tsx:92 | a number not below any element is appended |
| GameScreen.SortAscending | src/components/GameScreenAdvanced.tsx:92 | the sorted selection is ascending with the same numbers |
| GameScreen.SortAscendingSorted | src/components/GameScreenAdvanced.tsx:92 | sorting a sorted selection leaves it as it is |
| GameScreen.Toggle | src/components/GameScreenAdvanced.tsx:88-96 | a selected number is removed; a new one added only below the maximum; otherwise nothing changes |
| GameScreen.FilterKeepsStrict | src/components/GameScreenAdvanced.tsx:90 | removing numbers keeps the selection strictly ascending |
| GameScreen.ToggleKeepsSelectionOk | src/components/GameScreenAdvanced.tsx:88-96 | the selection stays sorted, duplicate-free and within the maximum |
| GameScreen.TotalCost | src/components/GameScreenAdvanced.tsx:111-117 | one stake for every type but PERMUTATION; a PERMUTATION of fewer than two numbers costs nothing; never negative for a non-negative stake |
| GameScreen.PermutationCostPerPair | src/components/GameScreenAdvanced.tsx:111-117 | PERMUTATION costs one stake per generated pair |
| GameScreen.PermutationShareIsStake | src/components/GameScreenAdvanced.tsx:111-117 | from two numbers on, the per-pair share the payout takes back is the chosen stake |
| GameScreen.PotentialWin | src/components/GameScreenAdvanced.tsx:85-119 | the stake times the draw's multiplier for the type, or times the type's default when the draw has none |
| GameScreen.NapTicketPaysPotentialWin | src/components/GameScreenAdvanced.tsx:85-119 | a winning NAP ticket from the screen pays exactly the potential win shown |
| GameScreen.PlaceBetCheck | src/components/GameScreenAdvanced.tsx:121-139 | submitted exactly when enough numbers are selected and the cost fits the balance; the request carries the joined numbers and total cost |
| GameScreen.PlacedNumbersReadBack | src/components/GameScreenAdvanced.tsx:137 | the submitted numbers parse back to the selection |
| GameScreen.CustomBet | src/components/GameScreenAdvanced.tsx:186 | the stake changes only to a parsed non-negative integer |
| GameScreen.CustomBetDigits | src/components/GameScreenAdvanced.tsx:186 | a stake typed as plain digits is taken as is |
| GameScreen.BetSlip.constructor | src/components/GameScreenAdvanced.tsx:44-45 | no selection, stake 100 |
| GameScreen.BetSlip.ToggleNumber | src/components/GameScreenAdvanced.tsx:88-96 | the selection becomes `Toggle`'s and stays sorted, duplicate-free and within the maximum |
| GameScreen.BetSlip.ChooseStake | src/components/GameScreenAdvanced.tsx:184 | the stake and its text both set |
| GameScreen.BetSlip.EditCustomBet | src/components/GameScreenAdvanced.tsx:186 | the text as typed and the stake per `CustomBet` |
| GameScreen.BetSlip.PlaceBet | src/components/GameScreenAdvanced.tsx:121-131 | the outcome is `PlaceBetCheck`'s; a balance refusal opens the recharge dialog |
| AdminPanel.RoleNamesAreAdminRoles | src/components/AdminPanel.tsx:44-46 | the role texts are the roster roles' names |
| AdminPanel.SuperAdminMentionsAdmin | src/components/AdminPanel.tsx:38 | "Super Admin" mentions "admin" |
| AdminPanel.FinancierMentionsAdmin | src/components/AdminPanel.tsx:38 | "Admin Financier" mentions "admin" |
| AdminPanel.GameAdminMentionsAdmin | src/components/AdminPanel.tsx:38 | "Admin du Jeu" mentions "admin" |
| AdminPanel.SupportDoesNotMentionAdmin | src/components/AdminPanel.tsx:38 | "Support Client" does not mention "admin" |
| AdminPanel.HasAccessToMenu | src/components/AdminPanel.tsx:50-59 | nothing without a role or with the empty one; everything for Super Admin; administrators only for Super Admin; dashboard for any role; otherwise only each role's own sections |
| AdminPanel.DefaultScreenAsWritten | src/components/AdminPanel.tsx:38-47 | as written: denied without a role mentioning "admin"; any other start screen is granted |
| AdminPanel.SupportClientLockedOut | src/components/AdminPanel.tsx:38-57 | as written, "Support Client" is denied although granted players and resellers |
| AdminPanel.DefaultScreen | src/components/AdminPanel.tsx:38-47 | denied without a role; never a section the role is not granted; the same as the code for every role but "Support Client" |
| AdminPanel.DefaultScreenAdmitsGrantedRoles | src/components/AdminPanel.tsx:38-59 | every role granted some section besides the dashboard starts on a section, each on its own |
| AdminPanel.MenuItems | src/components/AdminPanel.tsx:62-73 | only granted entries; administrators exactly for Super Admin |
| AdminPanel.MenuListsGrantedSections | src/components/AdminPanel.tsx:62-73 | every granted section is in the menu |
| AdminPanel.RenderedSection | src/components/AdminPanel.tsx:81-138 | a section renders only when granted (administrators only for Super Admin), and always then |
| AdminPanel.PanelState.constructor | src/components/AdminPanel.tsx:26-27 | closed sidebar on the dashboard |
| AdminPanel.PanelState.RoleChanged | src/components/AdminPanel.tsx:34-48 | the screen becomes the role's start screen under the corrected rule (a "Support Client" opens the players section, not the denial page); the sidebar is kept |
| AdminPanel.PanelState.MenuClick | src/components/AdminPanel.tsx:75-78 | the screen is set and the sidebar closed |
| AdminPanel.PanelState.SetSidebar | src/components/AdminPanel.tsx:97 | only the sidebar changes |
| App.HomeScreen | src/App.tsx:24-37 | the admin panel exactly for a role mentioning "admin", the reseller dashboard exactly for "reseller", the player dashboard otherwise |
| App.ResellerNotAdmin | src/App.tsx:29-33 | "reseller" does not mention "admin", so the first test takes nothing from the second |
| App.HomeScreensByRole | src/App.tsx:24-37 | resellers, three administrator roles and "Support Client" land where stated |
| App.Navigation.constructor | src/App.tsx:42-44 | login screen, no identifier, no game |
| App.Navigation.SessionChanged | src/App.tsx:50-61 | after loading, the user's home screen or login; during loading nothing changes |
| App.Navigation.NavigateToPassword | src/App.tsx:68-71 | the identifier is stored and the password screen shown |
| App.Navigation.NavigateToRegistration | src/App.tsx:73-76 | the identifier is stored and the registration screen shown |
| App.Navigation.BackToLogin | src/App.tsx:78-81 | the identifier is cleared and login shown |
| App.Navigation.BackToDashboard | src/App.tsx:83-85 | the player dashboard is shown |
| App.Navigation.NavigateToGame | src/App.tsx:87-90 | the draw id is recorded and the game screen shown |
| App.Navigation.Open | src/App.tsx:92-94 | the profile, resellers or results screen is shown |
| App.Renders | src/App.tsx:97-182 | nothing but the loading text while the session loads; afterwards login, password, registration and results always render, every screen renders with a user, and the others never without one |
| WinNotification.UnreadWins | src/components/WinNotification.tsx:19-27 | exactly the won tickets with a positive amount whose id is not seen |
| WinNotification.MarkSeen | src/components/WinNotification.tsx:38-45 | the seen list grows only by the shown wins' ids, and holds all of them |
| WinNotification.MarkSeenNoDuplicates | src/components/WinNotification.tsx:38-45 | no id is stored twice |
| WinNotification.MarkSeenIdempotent | src/components/WinNotification.tsx:38-45 | closing the same wins again changes nothing |
| WinNotification.MarkSeenAllPresent | src/components/WinNotification.tsx:38-45 | closing wins that were all seen already changes nothing |
| WinNotification.ClosedWinsStayRead | src/components/WinNotification.tsx:24-45 | a closed win is never announced again |
| WinNotification.Panel.constructor | src/components/WinNotification.tsx:13-14 | no pending wins, index 0 |
| WinNotification.Panel.CheckWins | src/components/WinNotification.tsx:19-29 | the unread wins replace the pending ones when there are any |
| WinNotification.Panel.Close | src/components/WinNotification.tsx:38-48 | the seen list is merged with the pending wins, which are emptied, index 0 |
| WinNotification.Panel.Next | src/components/WinNotification.tsx:50-56 | advances below the last win, otherwise closes |
| WinNotification.Panel.CurrentWin | src/components/WinNotification.tsx:58-59 | a pending win exactly when the index is in range |
| Registration.Submit | src/components/RegistrationScreen.tsx:53-85 | each refusal exactly when its check is the first to fail; submitted exactly when all pass, with country code + phone and role player |
| Registration.SubmittedPhoneLength | src/components/RegistrationScreen.tsx:63-77 | the submitted phone is at least the code plus eight characters |
| Registration.ReplaceFirstPlus | src/components/RegistrationScreen.tsx:47 | only the first '+' is removed |
| Registration.PrefilledForm | src/components/RegistrationScreen.tsx:28-50 | an identifier with '@' fills the email; otherwise the phone without its first '+' |
| Registration.PrefillDropsLeadingPlus | src/components/RegistrationScreen.tsx:47 | an international number loses exactly its leading '+' |
| Registration.PrefilledEmailPassesCheck | src/components/RegistrationScreen.tsx:41-62 | a prefilled email passes the email check |
| Registration.Screen.constructor | src/components/RegistrationScreen.tsx:28-50 | the mounted screen holds the prefilled form |
| Registration.Screen.Prefill | src/components/RegistrationScreen.tsx:40-50 | only the email or only the phone field changes |
| Migration.Migrated | src/utils/migrateData.ts:11-12 | no '+' remains, a record without '+' is unchanged, only the phone changes |
| Migration.StripPlusLength | src/utils/migrateData.ts:30 | stripping drops exactly the '+' characters |
| Migration.MigratedAll | src/utils/migrateData.ts:28-33 | every record migrated, ids in place, clean records unchanged |
| Migration.MigratedAllNoop | src/utils/migrateData.ts:35-40 | a list with nothing to migrate is left as it is |
| Migration.MigrationIdempotent | src/utils/migrateData.ts:29-31 | a second run finds and changes nothing |
| Migration.MigrateRecords | src/utils/migrateData.ts:26-33 | the records become migrated and the counter is the number that needed it |
| Migration.Store.constructor | src/utils/migrateData.ts:7-8 | the stored records as given, nothing written |
| Migration.Store.MigrateList | src/utils/migrateData.ts:25-33 | the migrated list and its counter |
| Migration.Store.MigrateStored | src/utils/migrateData.ts:22-44 | an absent list stays absent; a list is written back only when a record changed |
| Migration.Store.MigratePhoneNumbers | src/utils/migrateData.ts:3-74 | user, players and resellers migrated; exactly the changed keys written, in order |
| FrontendDump.KeptDirs | create_frontend_dump.py:54 | exactly the subdirectories not excluded, in order |
| FrontendDump.FileItems | create_frontend_dump.py:56-60 | every item is a selected file of the directory, and every selected file of it is an item |
| FrontendDump.Emitted | create_frontend_dump.py:52-60 | every emitted file is selected and lies under the directory, with no excluded directory on its path |
| FrontendDump.SubdirItems | create_frontend_dump.py:52-60 | the kept subdirectories' files are selected, under the directory, with no excluded directory on their path |
| FrontendDump.FileIsEmitted | create_frontend_dump.py:60 | a selected file in a directory is emitted |
| FrontendDump.SubdirIsWalked | create_frontend_dump.py:54 | everything a kept subdirectory emits is emitted by its parent |
| FrontendDump.SubdirContains | create_frontend_dump.py:52-54 | everything one kept subdirectory emits is among the subdirectories' items |
| FrontendDump.ReplaceChar | create_frontend_dump.py:61 | every occurrence of the separator replaced, length kept |
| FrontendDump.DisplayPath | create_frontend_dump.py:57-61 | as long as the joined path, with no separator left unless it is '/' |
| FrontendDump.DisplayPathUsesSlashes | create_frontend_dump.py:57-61 | with separator-free names the displayed path is the names joined by '/' |
| FrontendDump.BlockHead | create_frontend_dump.py:66-68 | the head's exact length |
| FrontendDump.BlockLayout | create_frontend_dump.py:66-78 | the rule first, the path at its fixed place, the content after the head, two closing newlines |
| FrontendDump.RenderAppend | create_frontend_dump.py:65-78 | writing two runs of files one after the other writes their blocks one after the other |
| FrontendDump.Dumper.constructor | create_frontend_dump.py:47-48 | the output truncated to the header, counter 0 |
| FrontendDump.Dumper.EmitFile | create_frontend_dump.py:61-78 | the file's block appended; the counter grows only for a successful read |
| FrontendDump.Dumper.WalkFiles | create_frontend_dump.py:56-78 | the blocks of the selected files appended and the readable ones counted |
| FrontendDump.Dumper.WalkDir | create_frontend_dump.py:52-78 | the blocks of everything the directory emits, counted the same way |
| FrontendDump.Dumper.WalkSubdirs | create_frontend_dump.py:52-54 | the kept subdirectories walked in order |
| FrontendDump.Dump | create_frontend_dump.py:40-82 | the header followed by every emitted block; the count is the successfully read files |

## Left out

- Clock and random ids: `Date.now()`, `new Date()` and `Math.random()` ids are parameters (`id`, `txId`, `now`).
- Period filtering (`filterTicketsByPeriod`, `filterTicketsByDate`) and `updateDrawStatuses` need the wall clock. `getCombinationStats` is modelled as if the period were `'all'`.
- `getRiskSummary`, `getDashboardStats`, `getLast7DaysRevenue`, `getOperatorStats`, `formatDrawDisplay` and the upcoming-draw getters are left out. They are clock-driven aggregation or locale formatting.
- `quickPick` is left out because it draws random numbers.
- HTTP wrappers, React contexts and presentational components are not part of this model.
- Toasts and `console` output are not modelled. A refusal's message is returned as data instead.
- `JSON.parse`/`stringify` and their error fallbacks are not modelled. Each storage key is an in-memory list and is always well formed.
- `loginUser`, `loginAsAdmin`, `logoutUser`, `changePassword`, `updateUserProfile`, `simulateWin`, `adminAdjustBalance` and the Google sign-in functions of `src/utils/auth.ts` are not part of this model.
- Numbers are unbounded integers. JavaScript doubles, `NaN` and rounding are not modelled, except where a rule needs them:
  - `parseInt`'s NaN is `None`;
  - the withdrawal wizard's amount is `Option<real>`, and `None` stands for an empty or unparsable field.
- Payout.PermutationPayout: the share is computed exactly as `(wins × bet × mult) / |combos|` in integers. The source computes `bet / |combos|` as a double and then floors, so the two can differ in the last unit.
- DrawStats.SortByPayout: the contract states the order and the permutation but not stability (statistics with equal payouts keeping their relative order), which JavaScript's sort guarantees.
- `toLowerCase` is modelled on ASCII letters only. `trim` and `\s` use JavaScript's white-space and line-terminator set (`Common.IsSpace`).
- Common.ParseInt: `parseInt` is called without a radix, so a `0x` or `0X` prefix is read as hexadecimal; the model reads every string in base 10.
- The order given to unparsable numbers when a combination is sorted is a modelling choice: NaN entries are put first. A comparator returning NaN leaves their place to the JavaScript engine.
- AdminPanel.PanelState.RoleChanged uses the corrected start-screen rule `AdminPanel.DefaultScreen` (see Findings), so a "Support Client" opens the players section; the code as written shows the denial page, which `AdminPanel.DefaultScreenAsWritten` models.
- String comparison (`LexLess`) compares characters. It does not model UTF-16 code units.
- Registration.Submit: the length checks count characters (Unicode scalar values), while JavaScript's `.length` counts UTF-16 code units. A name of two emoji has length 2 here and 4 in the source, so the model refuses names the source accepts.
- WithdrawModal.CountryCode and WithdrawModal.LocalNumber: `substring` positions are counted in characters rather than UTF-16 code units; the two differ only for characters outside the Basic Multilingual Plane.
- The dump script's file system is an abstract tree:
  - a file carries the outcome of reading it;
  - `os.walk`'s listing order is the order of the tree's entries;
  - the `print` progress lines are left out.
- Games.PermutationCombinations and Games.PermutationCost carry no ensures of their own. Games.Nap2PairsCount and Games.PermutationCostPairs state their meaning.
- Input handlers that only store a field (`setUsername`, `setPassword`, …) are plain field assignments and carry no row.
- getAllOperators, getOperatorsByCountry, getAllCountries, getAvailableBetTypes and getBetTypeConfig are left out: they are plain table reads of the modelled configuration.

## Findings

| source | as written | input that shows it | evidently intended | confidence | as-written member | corrected member |
|---|---|---|---|---|---|---|
| src/components/AdminPanel.tsx:38-46 | the role effect denies every role whose text does not contain "admin" before it looks at "Support Client", so the players branch for that role can never run | role "Support Client": the panel shows the denial page, yet `hasAccessToMenu` grants that role the players and resellers sections | "Support Client" starts on the players section, like the branch at line 46 says | high (not executed) | AdminPanel.SupportClientLockedOut | AdminPanel.DefaultScreen |

=== FILE: admin_panel.dfy ===
/**
 * The administration panel's access rules (src/components/AdminPanel.tsx):
 * which sections a role may open, the section shown first, the menu built
 * from those rules and the section actually rendered. The role is the
 * signed-in user's role text, `None` when there is no user.
 */
module AdminPanel {
  import opened Common
  import opened Auth

  datatype AdminScreen =
    DashboardTab | PlayersTab | ResellersTab | GamesTab | FinanceTab | AdministratorsTab | AccessDenied

  const SuperAdminName: string := "Super Admin"
  const FinancierName: string := "Admin Financier"
  const GameAdminName: string := "Admin du Jeu"
  const SupportName: string := "Support Client"
  const AdminWord: string := "admin"

  /** The role texts are the administrator roles' names. */
  lemma RoleNamesAreAdminRoles()
    ensures SuperAdminName == AdminRoleName(SuperAdmin) && FinancierName == AdminRoleName(AdminFinancier)
    ensures GameAdminName == AdminRoleName(AdminDuJeu) && SupportName == AdminRoleName(SupportClient)
  {
  }

  /** `role.toLowerCase().includes('admin')`. */
  predicate MentionsAdmin(role: string)
  {
    Contains(ToLower(role), AdminWord)
  }

  /** Of the four administrator roles, only "Support Client" does not
      mention "admin". */
  lemma SuperAdminMentionsAdmin()
    ensures MentionsAdmin(SuperAdminName)
  {
    var lower := ToLower(SuperAdminName);
    assert lower[6..11] == AdminWord;
    ContainsAt(lower, AdminWord, 6);
  }

  lemma FinancierMentionsAdmin()
    ensures MentionsAdmin(FinancierName)
  {
    var lower := ToLower(FinancierName);
    assert lower[0..5] == AdminWord;
    ContainsAt(lower, AdminWord, 0);
  }

  lemma GameAdminMentionsAdmin()
    ensures MentionsAdmin(GameAdminName)
  {
    var lower := ToLower(GameAdminName);
    assert lower[0..5] == AdminWord;
    ContainsAt(lower, AdminWord, 0);
  }

  lemma SupportDoesNotMentionAdmin()
    ensures !MentionsAdmin(SupportName)
  {
    var lower := ToLower(SupportName);
    assert forall i :: 0 <= i < |lower| ==> lower[i] != 'a';
    if Contains(lower, AdminWord) {
      ContainsFirst(lower, AdminWord);
      assert false;
    }
  }

  /** `hasAccessToMenu`: no role, or the empty one, is refused everything. */
  function HasAccessToMenu(role: Option<string>, menu: AdminScreen): (r: bool)
    ensures role.None? || role == Some("") ==> !r
    ensures role == Some(SuperAdminName) ==> r
    ensures menu == AdministratorsTab ==> (r <==> role == Some(SuperAdminName))
    ensures role.Some? && role.value != "" && menu == DashboardTab ==> r
    ensures r && role != Some(SuperAdminName) && menu != DashboardTab ==>
              (role == Some(FinancierName) && menu == FinanceTab) ||
              (role == Some(GameAdminName) && menu == GamesTab) ||
              (role == Some(SupportName) && (menu == PlayersTab || menu == ResellersTab))
  {
    if role.None? || role.value == "" then false
    else if role.value == SuperAdminName then true
    else if menu == AdministratorsTab then role.value == SuperAdminName
    else if menu == DashboardTab then true
    else if role.value == FinancierName then menu == FinanceTab
    else if role.value == GameAdminName then menu == GamesTab
    else if role.value == SupportName then menu == PlayersTab || menu == ResellersTab
    else false
  }

  /** The role effect as written: no role, or one not mentioning "admin",
      is denied; then finance, games or players for the three specialised
      roles and the dashboard for any other. */
  function DefaultScreenAsWritten(role: Option<string>): (r: AdminScreen)
    ensures role.None? || !MentionsAdmin(role.value) ==> r == AccessDenied
    ensures r != AccessDenied ==> HasAccessToMenu(role, r)
  {
    if role.None? || !MentionsAdmin(role.value) then AccessDenied
    else if role.value == FinancierName then FinanceTab
    else if role.value == GameAdminName then GamesTab
    else if role.value == SupportName then PlayersTab
    else DashboardTab
  }

  /** As written, a "Support Client" is denied the panel although
      `hasAccessToMenu` grants that role the players and resellers
      sections, and the branch sending it to the players section is never
      taken. */
  lemma SupportClientLockedOut()
    ensures DefaultScreenAsWritten(Some(SupportName)) == AccessDenied
    ensures HasAccessToMenu(Some(SupportName), PlayersTab)
    ensures HasAccessToMenu(Some(SupportName), ResellersTab)
  {
    SupportDoesNotMentionAdmin();
  }

  /** The role effect with "Support Client" admitted, so that its branch is
      reachable. */
  function DefaultScreen(role: Option<string>): (r: AdminScreen)
    ensures role.None? || role == Some("") ==> r == AccessDenied
    ensures r != AccessDenied ==> HasAccessToMenu(role, r)
    ensures role.Some? && role.value != SupportName ==> r == DefaultScreenAsWritten(role)
  {
    if role.None? || (!MentionsAdmin(role.value) && role.value != SupportName) then AccessDenied
    else if role.value == FinancierName then FinanceTab
    else if role.value == GameAdminName then GamesTab
    else if role.value == SupportName then PlayersTab
    else DashboardTab
  }

  /** Every role that may open a section besides the dashboard starts on a
      section, never on the denial page, and each administrator role starts
      on its own section. */
  lemma DefaultScreenAdmitsGrantedRoles(role: Option<string>, menu: AdminScreen)
    requires menu != DashboardTab && HasAccessToMenu(role, menu)
    ensures DefaultScreen(role) != AccessDenied
    ensures role == Some(SuperAdminName) ==> DefaultScreen(role) == DashboardTab
    ensures role == Some(FinancierName) ==> DefaultScreen(role) == FinanceTab
    ensures role == Some(GameAdminName) ==> DefaultScreen(role) == GamesTab
    ensures role == Some(SupportName) ==> DefaultScreen(role) == PlayersTab
  {
    SuperAdminMentionsAdmin();
    FinancierMentionsAdmin();
    GameAdminMentionsAdmin();
  }

  /** The menu entries before the administrators entry. */
  const AllMenuItems: seq<AdminScreen> := [DashboardTab, PlayersTab, ResellersTab, GamesTab, FinanceTab]

  /** `menuItems`: the granted entries in their fixed order, then the
      administrators entry for a Super Admin. */
  function MenuItems(role: Option<string>): (r: seq<AdminScreen>)
    ensures forall i :: 0 <= i < |r| ==> HasAccessToMenu(role, r[i])
    ensures AccessDenied !in r
    ensures AdministratorsTab in r <==> role == Some(SuperAdminName)
  {
    var granted := Filter(AllMenuItems, (m: AdminScreen) => HasAccessToMenu(role, m));
    if role == Some(SuperAdminName) then granted + [AdministratorsTab] else granted
  }

  /** Every section the role may open, other than the denial page, is in
      its menu. */
  lemma MenuListsGrantedSections(role: Option<string>, m: AdminScreen)
    requires m != AccessDenied && HasAccessToMenu(role, m)
    ensures m in MenuItems(role)
  {
    if m != AdministratorsTab {
      var k := match m
        case DashboardTab => 0
        case PlayersTab => 1
        case ResellersTab => 2
        case GamesTab => 3
        case _ => 4;
      assert AllMenuItems[k] == m;
    }
  }

  /** The section rendered: none without a user or on the denial page,
      otherwise the current one when it is granted (the administrators
      section also checking for a Super Admin). */
  function RenderedSection(role: Option<string>, current: AdminScreen): (r: Option<AdminScreen>)
    ensures r.Some? ==> r.value == current && HasAccessToMenu(role, current)
    ensures r.Some? && current == AdministratorsTab ==> role == Some(SuperAdminName)
    ensures role.Some? && current != AccessDenied && HasAccessToMenu(role, current) ==> r == Some(current)
  {
    if role.None? || current == AccessDenied then None
    else if current == AdministratorsTab then
      (if HasAccessToMenu(role, current) && role.value == SuperAdminName then Some(current) else None)
    else if HasAccessToMenu(role, current) then Some(current)
    else None
  }

  /** The panel's state. */
  class PanelState {
    var sidebarOpen: bool
    var currentScreen: AdminScreen

    constructor ()
      ensures !sidebarOpen && currentScreen == DashboardTab
    {
      sidebarOpen := false;
      currentScreen := DashboardTab;
    }

    /** The effect run when the role changes. */
    method RoleChanged(role: Option<string>)
      modifies this
      ensures currentScreen == DefaultScreen(role) && sidebarOpen == old(sidebarOpen)
    {
      currentScreen := DefaultScreen(role);
    }

    /** `handleMenuClick`. */
    method MenuClick(screen: AdminScreen)
      modifies this
      ensures currentScreen == screen && !sidebarOpen
    {
      currentScreen := screen;
      sidebarOpen := false;
    }

    method SetSidebar(open: bool)
      modifies this
      ensures sidebarOpen == open && currentScreen == old(currentScreen)
    {
      sidebarOpen := open;
    }
  }
}

=== FILE: app.dfy ===
/**
 * Top-level navigation (src/App.tsx): the home screen a signed-in user is
 * sent to, the routing effect once the session has loaded, and the
 * handlers that switch screens. The session's user role and loading flag
 * are parameters.
 */
module App {
  import opened Common
  import opened Auth
  import opened AdminPanel

  datatype Screen =
    Login | Password | Registration | Dashboard | ResellerDashboard | AdminPanelScreen |
    Game | Profile | Resellers | Results

  const ResellerRole: string := "reseller"

  /** `getHomeScreenForUser`: the admin panel for any role mentioning
      "admin" in any letter case, the reseller dashboard for exactly
      "reseller", the player dashboard otherwise. */
  function HomeScreen(role: string): (r: Screen)
    ensures r == AdminPanelScreen <==> MentionsAdmin(role)
    ensures r == ResellerDashboard <==> role == ResellerRole
    ensures r == Dashboard <==> !MentionsAdmin(role) && role != ResellerRole
  {
    ResellerNotAdmin();
    if MentionsAdmin(role) then AdminPanelScreen
    else if role == ResellerRole then ResellerDashboard
    else Dashboard
  }

  /** "reseller" does not mention "admin", so the admin test coming first
      takes nothing from the reseller branch. */
  lemma ResellerNotAdmin()
    ensures !MentionsAdmin(ResellerRole)
  {
    var lower := ToLower(ResellerRole);
    assert forall i :: 0 <= i < |lower| ==> lower[i] != 'a';
    if Contains(lower, AdminWord) {
      ContainsFirst(lower, AdminWord);
      assert false;
    }
  }

  /** Where each account kind lands: resellers on their dashboard, three of
      the four administrator roles on the admin panel, and a "Support
      Client" on the player dashboard. */
  lemma HomeScreensByRole()
    ensures HomeScreen(ResellerRole) == ResellerDashboard
    ensures HomeScreen(SuperAdminName) == AdminPanelScreen
    ensures HomeScreen(FinancierName) == AdminPanelScreen
    ensures HomeScreen(GameAdminName) == AdminPanelScreen
    ensures HomeScreen(SupportName) == Dashboard
  {
    ResellerNotAdmin();
    SuperAdminMentionsAdmin();
    FinancierMentionsAdmin();
    GameAdminMentionsAdmin();
    SupportDoesNotMentionAdmin();
  }

  /** The application's navigation state. */
  class Navigation {
    var currentScreen: Screen
    var authIdentifier: string
    var selectedGame: string

    constructor ()
      ensures currentScreen == Login && authIdentifier == "" && selectedGame == ""
    {
      currentScreen := Login;
      authIdentifier := "";
      selectedGame := "";
    }

    /** The effect on the session: once loading is over, the user's home
        screen, or the login screen without a user. */
    method SessionChanged(userRole: Option<string>, isLoading: bool)
      modifies this
      ensures !isLoading && userRole.Some? ==> currentScreen == HomeScreen(userRole.value)
      ensures !isLoading && userRole.None? ==> currentScreen == Login
      ensures isLoading ==> currentScreen == old(currentScreen)
      ensures authIdentifier == old(authIdentifier) && selectedGame == old(selectedGame)
    {
      if !isLoading {
        if userRole.Some? {
          currentScreen := HomeScreen(userRole.value);
        } else {
          currentScreen := Login;
        }
      }
    }

    method NavigateToPassword(identifier: string)
      modifies this
      ensures authIdentifier == identifier && currentScreen == Password
      ensures selectedGame == old(selectedGame)
    {
      authIdentifier := identifier;
      currentScreen := Password;
    }

    method NavigateToRegistration(identifier: string)
      modifies this
      ensures authIdentifier == identifier && currentScreen == Registration
      ensures selectedGame == old(selectedGame)
    {
      authIdentifier := identifier;
      currentScreen := Registration;
    }

    method BackToLogin()
      modifies this
      ensures authIdentifier == "" && currentScreen == Login
      ensures selectedGame == old(selectedGame)
    {
      authIdentifier := "";
      currentScreen := Login;
    }

    method BackToDashboard()
      modifies this
      ensures currentScreen == Dashboard
      ensures authIdentifier == old(authIdentifier) && selectedGame == old(selectedGame)
    {
      currentScreen := Dashboard;
    }

    method NavigateToGame(drawId: string)
      modifies this
      ensures selectedGame == drawId && currentScreen == Game
      ensures authIdentifier == old(authIdentifier)
    {
      selectedGame := drawId;
      currentScreen := Game;
    }

    /** The profile, resellers and results links. */
    method Open(screen: Screen)
      requires screen == Profile || screen == Resellers || screen == Results
      modifies this
      ensures currentScreen == screen
      ensures authIdentifier == old(authIdentifier) && selectedGame == old(selectedGame)
    {
      currentScreen := screen;
    }
  }

  /** Whether a screen renders: while the session loads only the loading
      text is shown; afterwards the login, password, registration and
      results screens always render, the others only with a signed-in user. */
  function Renders(screen: Screen, signedIn: bool, isLoading: bool): (r: bool)
    ensures isLoading ==> !r
    ensures !isLoading && screen in {Login, Password, Registration, Results} ==> r
    ensures !signedIn && screen !in {Login, Password, Registration, Results} ==> !r
    ensures !isLoading && signedIn ==> r
  {
    !isLoading && (signedIn || screen in {Login, Password, Registration, Results})
  }
}

=== FILE: auth.dfy ===
/**
 * Accounts and wallets (src/utils/auth.ts): the phone-number and Mobile
 * Money validators, the user, transaction and administrator records, the
 * balance operations (conversion, bet deduction, withdrawal, reseller
 * credit), account creation with its uniqueness checks, and the
 * administrator roster.  The stored lists (`lottoHappyUser`,
 * `lottoHappyAllPlayers`, `lottoHappyAllResellers`, `loto_happy_users`,
 * `lottoHappyAdmins`) are the fields of `AccountStore`.
 */
module Auth {
  import opened Common
  import opened Withdrawals

  // ---------------------------------------------------------------------
  // Phone numbers and Mobile Money operators
  // ---------------------------------------------------------------------

  datatype PhoneFormat = PhoneFormat(code: string, length: nat, name: string)

  const PhoneFormats: seq<PhoneFormat> := [
    PhoneFormat("+228", 8, "Togo"),
    PhoneFormat("+229", 8, "Bénin"),
    PhoneFormat("+225", 10, "Côte d'Ivoire"),
    PhoneFormat("+233", 9, "Ghana"),
    PhoneFormat("+226", 8, "Burkina Faso")
  ]

  /** An operator; its icon and colour are display-only and not kept. */
  datatype MobileMoneyOperator = MobileMoneyOperator(
    id: string, name: string, prefixes: seq<string>, countries: seq<string>)

  const MobileMoneyOperators: seq<MobileMoneyOperator> := [
    MobileMoneyOperator("yas", "Yas Togo (ex T-Money)", ["90", "70", "73", "93", "91"], ["+228"]),
    MobileMoneyOperator("moov-togo", "Moov Money Togo", ["98", "78", "79", "99", "97"], ["+228"]),
    MobileMoneyOperator("mtn-togo", "MTN Mobile Money", ["92", "93", "94", "95", "96"],
                        ["+228", "+229", "+225", "+233", "+226"]),
    MobileMoneyOperator("moov-benin", "Moov Money Bénin", ["96", "97", "61", "62", "63"], ["+229"]),
    MobileMoneyOperator("orange", "Orange Money", ["07", "08", "09", "57", "58", "59", "67", "68", "69"],
                        ["+225", "+226", "+229"]),
    MobileMoneyOperator("wave", "Wave", ["91", "92", "93", "94", "95"], ["+221", "+225", "+229"]),
    MobileMoneyOperator("flooz", "Flooz (Moov)", ["96", "97", "98", "99"], ["+228"])
  ]

  /** Local numbers of the five resellers, matched as suffixes. */
  const ResellerNumbers: seq<string> := ["990102030", "660102030", "070102030", "240102030", "550102030"]

  /** The characters `/[\s\-\.]/g` removes. */
  predicate IsSeparator(c: char)
  {
    IsSpace(c) || c == '-' || c == '.'
  }

  function CleanPhone(phone: string): (r: string)
    ensures forall i :: 0 <= i < |r| ==> !IsSeparator(r[i])
  {
    RemoveWhere(phone, IsSeparator)
  }

  /** `prefixes.some(x => s.startsWith(x))`. */
  function StartsWithAny(s: string, prefixes: seq<string>): (r: bool)
    ensures r <==> exists k :: 0 <= k < |prefixes| && StartsWith(s, prefixes[k])
  {
    if prefixes == [] then false
    else StartsWith(s, prefixes[0]) || StartsWithAny(s, prefixes[1..])
  }

  /** `isResellerNumber`: the cleaned number ends with a reseller's number. */
  function IsResellerNumber(phone: string): (r: bool)
    ensures r <==> exists k :: 0 <= k < |ResellerNumbers| && EndsWith(CleanPhone(phone), ResellerNumbers[k])
  {
    EndsWithAny(CleanPhone(phone), ResellerNumbers)
  }

  /** An operator serving `countryCode` whose prefix starts the cleaned number. */
  predicate Serves(op: MobileMoneyOperator, cleanNumber: string, countryCode: string)
  {
    countryCode in op.countries && StartsWithAny(cleanNumber, op.prefixes)
  }

  /** The first operator of `ops`, in list order, that serves the number. */
  function FirstServingIn(ops: seq<MobileMoneyOperator>, cleanNumber: string, countryCode: string)
    : (r: Option<MobileMoneyOperator>)
    ensures r.Some? ==> r.value in ops && Serves(r.value, cleanNumber, countryCode)
    ensures r.None? <==> forall k :: 0 <= k < |ops| ==> !Serves(ops[k], cleanNumber, countryCode)
  {
    match FirstIndex(ops, (op: MobileMoneyOperator) => Serves(op, cleanNumber, countryCode))
    case None => None
    case Some(k) => Some(ops[k])
  }

  /** The operator `detectOperatorFromNumber` settles on. */
  function FirstServing(cleanNumber: string, countryCode: string): Option<MobileMoneyOperator>
  {
    FirstServingIn(MobileMoneyOperators, cleanNumber, countryCode)
  }

  /** The search loop of `detectOperatorFromNumber` over a list of
      operators: for each one that serves the country, its prefixes in
      order, returning on the first match. */
  method FindServingOperator(ops: seq<MobileMoneyOperator>, cleanNumber: string, countryCode: string)
    returns (r: Option<MobileMoneyOperator>)
    ensures r == FirstServingIn(ops, cleanNumber, countryCode)
  {
    var i := 0;
    while i < |ops|
      invariant 0 <= i <= |ops|
      invariant forall j :: 0 <= j < i ==> !Serves(ops[j], cleanNumber, countryCode)
    {
      var op := ops[i];
      if countryCode in op.countries {
        var p := 0;
        while p < |op.prefixes|
          invariant 0 <= p <= |op.prefixes|
          invariant forall q :: 0 <= q < p ==> !StartsWith(cleanNumber, op.prefixes[q])
        {
          if StartsWith(cleanNumber, op.prefixes[p]) {
            assert Serves(op, cleanNumber, countryCode);
            FirstServingAt(ops, cleanNumber, countryCode, i);
            return Some(op);
          }
          p := p + 1;
        }
      }
      i := i + 1;
    }
    r := None;
  }

  /** An operator that serves the number, with none serving it before, is
      the one found. */
  lemma FirstServingAt(ops: seq<MobileMoneyOperator>, cleanNumber: string, countryCode: string, i: nat)
    requires i < |ops| && Serves(ops[i], cleanNumber, countryCode)
    requires forall j :: 0 <= j < i ==> !Serves(ops[j], cleanNumber, countryCode)
    ensures FirstServingIn(ops, cleanNumber, countryCode) == Some(ops[i])
  {
    var p := (op: MobileMoneyOperator) => Serves(op, cleanNumber, countryCode);
    FirstIndexAt(ops, p, i);
  }

  /** `detectOperatorFromNumber`: the first configured operator that serves
      the cleaned number, or none. */
  method DetectOperatorFromNumber(phoneNumber: string, countryCode: string)
    returns (r: Option<MobileMoneyOperator>)
    ensures r.Some? ==> r.value in MobileMoneyOperators && Serves(r.value, CleanPhone(phoneNumber), countryCode)
    ensures r.None? <==> forall k :: 0 <= k < |MobileMoneyOperators| ==>
                           !Serves(MobileMoneyOperators[k], CleanPhone(phoneNumber), countryCode)
    ensures r == FirstServing(CleanPhone(phoneNumber), countryCode)
  {
    var cleanNumber := CleanPhone(phoneNumber);
    r := FindServingOperator(MobileMoneyOperators, cleanNumber, countryCode);
  }

  function OperatorById(operatorId: string): (r: Option<MobileMoneyOperator>)
    ensures r.Some? ==> r.value in MobileMoneyOperators && r.value.id == operatorId
    ensures r.None? <==> forall k :: 0 <= k < |MobileMoneyOperators| ==> MobileMoneyOperators[k].id != operatorId
  {
    match FirstIndex(MobileMoneyOperators, (op: MobileMoneyOperator) => op.id == operatorId)
    case None => None
    case Some(k) => Some(MobileMoneyOperators[k])
  }

  datatype Validation = Valid | Invalid(message: string)

  /** `validateNumberForOperator`: valid exactly when the operator exists,
      serves the country and one of its prefixes starts the cleaned number. */
  function ValidateNumberForOperator(phoneNumber: string, countryCode: string, operatorId: string)
    : (r: Validation)
    ensures r == Valid <==>
      OperatorById(operatorId).Some? && Serves(OperatorById(operatorId).value, CleanPhone(phoneNumber), countryCode)
    ensures OperatorById(operatorId).None? ==> r == Invalid("Opérateur non reconnu")
  {
    match OperatorById(operatorId)
    case None => Invalid("Opérateur non reconnu")
    case Some(op) =>
      if countryCode !in op.countries then
        Invalid(op.name + " n'est pas disponible dans ce pays")
      else if !StartsWithAny(CleanPhone(phoneNumber), op.prefixes) then
        Invalid("Pour " + op.name + ", le numéro doit commencer par : " + Join(op.prefixes, ", "))
      else Valid
  }

  /** The operator ids are distinct (their lengths already differ). */
  lemma OperatorIdsDistinct()
    ensures forall i, j ::
              (0 <= i < |MobileMoneyOperators| && 0 <= j < |MobileMoneyOperators| &&
               MobileMoneyOperators[i].id == MobileMoneyOperators[j].id) ==> i == j
  {
    var lengths := [3, 9, 8, 10, 6, 4, 5];
    forall k | 0 <= k < |MobileMoneyOperators|
      ensures |MobileMoneyOperators[k].id| == lengths[k]
    {
    }
  }

  /** The operator `detectOperatorFromNumber` finds passes
      `validateNumberForOperator` for the same number and country. */
  lemma DetectedOperatorValidates(phoneNumber: string, countryCode: string)
    requires FirstServing(CleanPhone(phoneNumber), countryCode).Some?
    ensures ValidateNumberForOperator(phoneNumber, countryCode,
              FirstServing(CleanPhone(phoneNumber), countryCode).value.id) == Valid
  {
    var op := FirstServing(CleanPhone(phoneNumber), countryCode).value;
    var k :| 0 <= k < |MobileMoneyOperators| && MobileMoneyOperators[k] == op;
    var found := OperatorById(op.id);
    assert found.Some?;
    var i :| 0 <= i < |MobileMoneyOperators| && MobileMoneyOperators[i] == found.value;
    OperatorIdsDistinct();
    assert i == k;
  }

  /** `getOperatorsForCountry`. */
  function OperatorsForCountry(countryCode: string): (r: seq<MobileMoneyOperator>)
    ensures forall i :: 0 <= i < |r| ==> r[i] in MobileMoneyOperators && countryCode in r[i].countries
    ensures forall k :: 0 <= k < |MobileMoneyOperators| && countryCode in MobileMoneyOperators[k].countries ==>
              MobileMoneyOperators[k] in r
  {
    Filter(MobileMoneyOperators, (op: MobileMoneyOperator) => countryCode in op.countries)
  }

  function PhoneFormatFor(countryCode: string): (r: Option<PhoneFormat>)
    ensures r.Some? ==> r.value in PhoneFormats && r.value.code == countryCode
    ensures r.None? <==> forall k :: 0 <= k < |PhoneFormats| ==> PhoneFormats[k].code != countryCode
  {
    match FirstIndex(PhoneFormats, (f: PhoneFormat) => f.code == countryCode)
    case None => None
    case Some(k) => Some(PhoneFormats[k])
  }

  /** `/^\d+$/`. */
  predicate OnlyDigits(s: string)
  {
    |s| > 0 && AllDigits(s)
  }

  /** `validatePhoneNumber`: reseller numbers pass; otherwise an unknown
      country code, a non-digit character and a wrong digit count are
      rejected, in that order. */
  function ValidatePhoneNumber(phoneNumber: string, countryCode: string): (r: Validation)
    ensures IsResellerNumber(phoneNumber) ==> r == Valid
    ensures !IsResellerNumber(phoneNumber) ==>
      (PhoneFormatFor(countryCode).None? ==> r == Invalid("Indicatif pays non reconnu")) &&
      (PhoneFormatFor(countryCode).Some? && !OnlyDigits(CleanPhone(phoneNumber)) ==>
         r == Invalid("Le numéro ne doit contenir que des chiffres"))
    ensures r == Valid <==>
      IsResellerNumber(phoneNumber) ||
      (PhoneFormatFor(countryCode).Some? && OnlyDigits(CleanPhone(phoneNumber)) &&
       |CleanPhone(phoneNumber)| == PhoneFormatFor(countryCode).value.length)
  {
    var cleanNumber := CleanPhone(phoneNumber);
    if IsResellerNumber(phoneNumber) then Valid
    else match PhoneFormatFor(countryCode)
      case None => Invalid("Indicatif pays non reconnu")
      case Some(format) =>
        if !OnlyDigits(cleanNumber) then Invalid("Le numéro ne doit contenir que des chiffres")
        else if |cleanNumber| != format.length then
          Invalid("Le numéro " + format.name + " doit contenir " + NatToString(format.length) +
                  " chiffres (" + NatToString(|cleanNumber|) + " saisis)")
        else Valid
  }

  /** The digit count each country expects. */
  lemma PhoneFormatLengths(countryCode: string)
    requires countryCode in {"+228", "+229", "+225", "+233", "+226"}
    ensures PhoneFormatFor(countryCode).Some?
    ensures countryCode == "+225" ==> PhoneFormatFor(countryCode).value.length == 10
    ensures countryCode == "+233" ==> PhoneFormatFor(countryCode).value.length == 9
    ensures countryCode in {"+228", "+229", "+226"} ==> PhoneFormatFor(countryCode).value.length == 8
  {
    var codes := seq(|PhoneFormats|, k requires 0 <= k < |PhoneFormats| => PhoneFormats[k].code);
    assert codes == ["+228", "+229", "+225", "+233", "+226"];
  }

  /** `hashPassword`: a fixed prefix in front of the password, which can be
      read back from the hash. */
  function HashPassword(password: string): (r: string)
    ensures |r| == |password| + 7 && r[7..] == password
  {
    "hashed_" + password
  }

  /** Different passwords never share a hash. */
  lemma HashPasswordInjective(a: string, b: string)
    ensures HashPassword(a) == HashPassword(b) ==> a == b
  {
    if HashPassword(a) == HashPassword(b) {
      assert a == HashPassword(a)[7..];
    }
  }

  // ---------------------------------------------------------------------
  // Records
  // ---------------------------------------------------------------------

  datatype UserRole = Player | Reseller | Admin

  datatype AccountStatus = Active | Suspended

  datatype TransactionType = Recharge | Bet | Conversion | Win | Withdrawal

  /** An entry of a player's history; `metadata` holds the optional
      `gameName`, `resellerName`, `provider`, `phoneNumber`, ... keys. */
  datatype PlayerTransaction = PlayerTransaction(
    id: string,
    kind: TransactionType,
    description: string,
    amount: int,
    balanceAfter: int,
    date: string,
    metadata: map<string, string>)

  /** An entry of a reseller's history. */
  datatype ResellerTransaction = ResellerTransaction(
    id: string, playerNumber: string, playerUsername: string, amount: int, date: string)

  /** A player, reseller or admin session.  An absent history is the empty
      one (the source creates it as `[]` before the first insertion); the
      optional reseller counters and the status stay optional. */
  datatype User = User(
    id: string,
    isLoggedIn: bool,
    username: string,
    phoneNumber: string,
    email: string,
    password: string,
    role: UserRole,
    balanceGame: int,
    balanceWinnings: int,
    tokenBalance: Option<int>,
    dailyRechargeTotal: Option<int>,
    dailyTransactionsCount: Option<int>,
    transactionHistory: seq<ResellerTransaction>,
    playerTransactionHistory: seq<PlayerTransaction>,
    status: Option<AccountStatus>)

  /** `x || 0` on an optional number. */
  function OrZero(x: Option<int>): int
  {
    if x.Some? then x.value else 0
  }

  // ---------------------------------------------------------------------
  // Balances and histories
  // ---------------------------------------------------------------------

  const HistoryLimit: nat := 100

  /** `unshift` followed by `slice(0, 100)` when the history grew past 100:
      the newest entry first, the older ones after it in order, and never
      more than 100 entries. */
  function PushHistory(history: seq<PlayerTransaction>, tx: PlayerTransaction): (r: seq<PlayerTransaction>)
    ensures |r| == if |history| < HistoryLimit then |history| + 1 else HistoryLimit
    ensures r[0] == tx
    ensures forall i :: 1 <= i < |r| ==> r[i] == history[i - 1]
    ensures r[1..] == history[..|r| - 1]
  {
    var h := [tx] + history;
    if |h| > HistoryLimit then h[..HistoryLimit] else h
  }

  /** `convertWinningsToGame` on the current user. */
  function ConvertWinnings(u: User, amount: int): (r: Option<User>)
    ensures r.None? <==> u.balanceWinnings < amount
    ensures r.Some? ==>
      r.value.balanceWinnings == u.balanceWinnings - amount && r.value.balanceWinnings >= 0 &&
      r.value.balanceGame + r.value.balanceWinnings == u.balanceGame + u.balanceWinnings &&
      r.value.(balanceGame := u.balanceGame, balanceWinnings := u.balanceWinnings) == u
  {
    if u.balanceWinnings < amount then None
    else Some(u.(balanceWinnings := u.balanceWinnings - amount, balanceGame := u.balanceGame + amount))
  }

  /** `deductBetCost` on the current user. */
  function DeductBet(u: User, amount: int): (r: Option<User>)
    ensures r.None? <==> u.balanceGame < amount
    ensures r.Some? ==>
      r.value.balanceGame == u.balanceGame - amount && r.value.balanceGame >= 0 &&
      r.value.(balanceGame := u.balanceGame) == u
  {
    if u.balanceGame < amount then None
    else Some(u.(balanceGame := u.balanceGame - amount))
  }

  /** A conversion followed by a bet of the same amount spends exactly what
      the winnings held, and leaves the game balance where it was. */
  lemma ConvertThenBet(u: User, amount: int)
    requires u.balanceGame >= 0 && ConvertWinnings(u, amount).Some?
    ensures DeductBet(ConvertWinnings(u, amount).value, amount).Some?
    ensures DeductBet(ConvertWinnings(u, amount).value, amount).value ==
            u.(balanceWinnings := u.balanceWinnings - amount)
  {
  }

  const MinWithdrawal: int := 500

  /** `getProviderName`: the operator's name, or the id itself. */
  function ProviderName(provider: string): (r: string)
    ensures OperatorById(provider).None? ==> r == provider
    ensures OperatorById(provider).Some? ==> r == OperatorById(provider).value.name
  {
    match OperatorById(provider)
    case None => provider
    case Some(op) => op.name
  }

  function WithdrawalEntry(txId: string, amount: int, balanceAfter: int, provider: string,
                           phoneNumber: string, now: string): PlayerTransaction
  {
    PlayerTransaction(txId, Withdrawal, "Retrait via " + ProviderName(provider), -amount, balanceAfter, now,
                      map["provider" := provider, "phoneNumber" := phoneNumber])
  }

  /** The account after a withdrawal the checks allowed: the game balance
      goes down by the amount and a withdrawal entry heads the history. */
  function Withdrawn(u: User, amount: int, provider: string, phoneNumber: string, txId: string, now: string)
    : (v: User)
    requires MinWithdrawal <= amount <= u.balanceGame
    ensures v.balanceGame == u.balanceGame - amount && v.balanceGame >= 0
    ensures 0 < |v.playerTransactionHistory| <= HistoryLimit &&
      v.playerTransactionHistory[0].kind == Withdrawal &&
      v.playerTransactionHistory[0].amount == -amount &&
      v.playerTransactionHistory[0].balanceAfter == v.balanceGame
    ensures |v.playerTransactionHistory| - 1 <= |u.playerTransactionHistory| &&
      v.playerTransactionHistory[1..] == u.playerTransactionHistory[..|v.playerTransactionHistory| - 1]
    ensures v.(balanceGame := u.balanceGame, playerTransactionHistory := u.playerTransactionHistory) == u
  {
    var balance := u.balanceGame - amount;
    var entry := WithdrawalEntry(txId, amount, balance, provider, phoneNumber, now);
    u.(balanceGame := balance, playerTransactionHistory := PushHistory(u.playerTransactionHistory, entry))
  }

  /** The account side of `withdrawMoney` for a signed-in user. */
  function Withdraw(u: User, amount: int, provider: string, phoneNumber: string, txId: string, now: string)
    : (r: Outcome<User>)
    ensures u.role != Player ==> r == Failure("Non autorisé")
    ensures u.role == Player && amount < MinWithdrawal ==>
              r == Failure("Le montant minimum de retrait est 500 F CFA")
    ensures u.role == Player && amount >= MinWithdrawal && u.balanceGame < amount ==>
              r == Failure("Solde insuffisant")
    ensures r.Success? <==> u.role == Player && MinWithdrawal <= amount <= u.balanceGame
    ensures r.Success? ==> r.value == Withdrawn(u, amount, provider, phoneNumber, txId, now)
  {
    if u.role != Player then Failure("Non autorisé")
    else if amount < MinWithdrawal then Failure("Le montant minimum de retrait est 500 F CFA")
    else if u.balanceGame < amount then Failure("Solde insuffisant")
    else Success(Withdrawn(u, amount, provider, phoneNumber, txId, now))
  }

  // ---------------------------------------------------------------------
  // Player lists
  // ---------------------------------------------------------------------

  /** `addOrUpdatePlayerInList` / `addOrUpdateResellerInList`: the first
      record with the same phone number is replaced, or the record is
      appended when there is none. */
  function AddOrUpdateByPhone(list: seq<User>, u: User): (r: seq<User>)
    ensures u in r
    ensures forall k :: 0 <= k < |list| && list[k].phoneNumber != u.phoneNumber ==> k < |r| && r[k] == list[k]
    ensures (exists k :: 0 <= k < |list| && list[k].phoneNumber == u.phoneNumber) ==>
              |r| == |list| && forall k :: 0 <= k < |list| && r[k] != list[k] ==> r[k] == u
    ensures (forall k :: 0 <= k < |list| ==> list[k].phoneNumber != u.phoneNumber) ==> r == list + [u]
  {
    match FirstIndex(list, (p: User) => p.phoneNumber == u.phoneNumber)
    case None => list + [u]
    case Some(k) =>
      var r := list[k := u];
      assert r[k] == u;
      r
  }

  /** What `searchPlayer` accepts for a cleaned search term. */
  predicate PlayerMatches(p: User, term: string)
  {
    p.role == Player &&
    (p.phoneNumber == term || Contains(p.phoneNumber, term) ||
     ToLower(p.username) == ToLower(term) || Contains(ToLower(p.username), ToLower(term)))
  }

  /** `searchPlayer`: the first player whose phone number contains the term,
      or whose username contains it ignoring case, after trimming the term
      and removing its `+` signs. */
  function SearchPlayer(players: seq<User>, searchTerm: string): (r: Option<User>)
    ensures r.Some? ==> r.value in players && PlayerMatches(r.value, StripPlus(Trim(searchTerm)))
    ensures r.None? <==> forall k :: 0 <= k < |players| ==> !PlayerMatches(players[k], StripPlus(Trim(searchTerm)))
  {
    var term := StripPlus(Trim(searchTerm));
    match FirstIndex(players, (p: User) => PlayerMatches(p, term))
    case None => None
    case Some(k) => Some(players[k])
  }

  /** A blank search term (spaces and `+` signs only) matches every player,
      so it selects the first one. */
  lemma {:induction false} SearchBlankTerm(players: seq<User>, searchTerm: string)
    requires StripPlus(Trim(searchTerm)) == ""
    ensures (exists k :: 0 <= k < |players| && players[k].role == Player) ==> SearchPlayer(players, searchTerm).Some?
    ensures forall k :: 0 <= k < |players| ==>
              (PlayerMatches(players[k], StripPlus(Trim(searchTerm))) <==> players[k].role == Player)
  {
    forall k | 0 <= k < |players|
      ensures PlayerMatches(players[k], "") <==> players[k].role == Player
    {
      assert StartsWith(players[k].phoneNumber, "");
    }
  }

  /** `!tokenBalance || tokenBalance < amount` is the refusal. */
  predicate HasTokens(reseller: User, amount: int)
  {
    reseller.tokenBalance.Some? && reseller.tokenBalance.value != 0 && reseller.tokenBalance.value >= amount
  }

  /** The transfer `creditPlayerAccount` makes once its checks pass: the
      player gains what the reseller's tokens lose, both histories get the
      new entry in front, and the reseller's daily counters grow. */
  function Credit(reseller: User, player: User, amount: int,
                  playerTxId: string, resellerTxId: string, now: string): (r: (User, User))
    requires HasTokens(reseller, amount)
    ensures var (p, s) := r;
      p.balanceGame == player.balanceGame + amount &&
      s.tokenBalance == Some(reseller.tokenBalance.value - amount) &&
      s.tokenBalance.value >= 0 &&
      p.balanceGame + s.tokenBalance.value == player.balanceGame + reseller.tokenBalance.value &&
      s.dailyRechargeTotal == Some(OrZero(reseller.dailyRechargeTotal) + amount) &&
      s.dailyTransactionsCount == Some(OrZero(reseller.dailyTransactionsCount) + 1)
    ensures r.0.phoneNumber == player.phoneNumber
    ensures var p := r.0;
      0 < |p.playerTransactionHistory| <= HistoryLimit &&
      p.playerTransactionHistory[0].kind == Recharge &&
      p.playerTransactionHistory[0].amount == amount &&
      p.playerTransactionHistory[0].balanceAfter == p.balanceGame &&
      p.(balanceGame := player.balanceGame, playerTransactionHistory := player.playerTransactionHistory) == player
    ensures var s := r.1;
      s.transactionHistory ==
        [ResellerTransaction(resellerTxId, player.phoneNumber, player.username, amount, now)] +
        reseller.transactionHistory &&
      s.(tokenBalance := reseller.tokenBalance, dailyRechargeTotal := reseller.dailyRechargeTotal,
         dailyTransactionsCount := reseller.dailyTransactionsCount,
         transactionHistory := reseller.transactionHistory) == reseller
  {
    var balance := player.balanceGame + amount;
    var entry := PlayerTransaction(playerTxId, Recharge, "Rechargement par " + reseller.username, amount,
                                   balance, now, map["resellerName" := reseller.username]);
    var p := player.(balanceGame := balance,
                     playerTransactionHistory := PushHistory(player.playerTransactionHistory, entry));
    var s := reseller.(tokenBalance := Some(reseller.tokenBalance.value - amount),
                       dailyRechargeTotal := Some(OrZero(reseller.dailyRechargeTotal) + amount),
                       dailyTransactionsCount := Some(OrZero(reseller.dailyTransactionsCount) + 1),
                       transactionHistory := [ResellerTransaction(resellerTxId, player.phoneNumber,
                                                                   player.username, amount, now)] +
                                             reseller.transactionHistory);
    (p, s)
  }

  /** `creditPlayerAccount`: the current user must be a reseller with
      enough tokens and the search must find a player, checked in that
      order. */
  function CreditPlayer(current: Option<User>, players: seq<User>, searchTerm: string, amount: int,
                        playerTxId: string, resellerTxId: string, now: string)
    : (r: Outcome<(User, User)>)
    ensures current.None? || current.value.role != Reseller ==> r == Failure("Non autorisé")
    ensures current.Some? && current.value.role == Reseller && !HasTokens(current.value, amount) ==>
              r == Failure("Solde de jetons insuffisant")
    ensures current.Some? && current.value.role == Reseller && HasTokens(current.value, amount) &&
            SearchPlayer(players, searchTerm).None? ==>
              r == Failure("Joueur introuvable. Vérifiez le numéro ou le username.")
    ensures r.Success? <==>
      current.Some? && current.value.role == Reseller && HasTokens(current.value, amount) &&
      SearchPlayer(players, searchTerm).Some?
    ensures r.Success? ==>
      HasTokens(current.value, amount) && SearchPlayer(players, searchTerm).Some? &&
      r.value == Credit(current.value, SearchPlayer(players, searchTerm).value, amount, playerTxId, resellerTxId, now)
  {
    if current.None? || current.value.role != Reseller then Failure("Non autorisé")
    else if !HasTokens(current.value, amount) then Failure("Solde de jetons insuffisant")
    else match SearchPlayer(players, searchTerm)
      case None => Failure("Joueur introuvable. Vérifiez le numéro ou le username.")
      case Some(player) => Success(Credit(current.value, player, amount, playerTxId, resellerTxId, now))
  }

  // ---------------------------------------------------------------------
  // Registration
  // ---------------------------------------------------------------------

  predicate HasPhone(list: seq<User>, phoneNumber: string)
  {
    exists k :: 0 <= k < |list| && list[k].phoneNumber == phoneNumber
  }

  /** Some record's email, lower-cased, is `clean`. */
  predicate HasEmail(list: seq<User>, clean: string)
  {
    exists k :: 0 <= k < |list| && ToLower(list[k].email) == clean
  }

  predicate AdminHasEmail(admins: seq<AdminUser>, clean: string)
  {
    exists k :: 0 <= k < |admins| && ToLower(admins[k].email) == clean
  }

  predicate HasUsername(list: seq<User>, clean: string)
  {
    exists k :: 0 <= k < |list| && ToLower(list[k].username) == clean
  }

  /** `userExistsWithPhone`: a player or reseller has the number once its
      `+` signs are removed. */
  predicate PhoneTaken(players: seq<User>, resellers: seq<User>, phoneNumber: string)
  {
    HasPhone(players, StripPlus(phoneNumber)) || HasPhone(resellers, StripPlus(phoneNumber))
  }

  /** `userExistsWithEmail`: a player, reseller or administrator has the
      address, ignoring case and surrounding spaces of the one looked up. */
  predicate EmailTaken(players: seq<User>, resellers: seq<User>, admins: seq<AdminUser>, email: string)
  {
    var clean := Trim(ToLower(email));
    HasEmail(players, clean) || HasEmail(resellers, clean) || AdminHasEmail(admins, clean)
  }

  /** `userExistsWithUsername`, ignoring case. */
  predicate UsernameTaken(players: seq<User>, resellers: seq<User>, username: string)
  {
    var clean := Trim(ToLower(username));
    HasUsername(players, clean) || HasUsername(resellers, clean)
  }

  const PhoneTakenMessage: string :=
    "Ce numéro de téléphone est déjà utilisé. Veuillez vous connecter ou utiliser un autre numéro."
  const EmailTakenMessage: string :=
    "Cette adresse email est déjà utilisée. Veuillez vous connecter ou utiliser un autre email."
  const UsernameTakenMessage: string :=
    "Ce nom d'utilisateur est déjà pris. Veuillez en choisir un autre."

  /** The refusal `createUser` gives, checked in order phone, email,
      username on the cleaned inputs; `None` when the account can be made. */
  function RegistrationError(players: seq<User>, resellers: seq<User>, admins: seq<AdminUser>,
                             username: string, phoneNumber: string, email: string): (r: Option<string>)
    ensures PhoneTaken(players, resellers, StripPlus(phoneNumber)) ==>
              r == Some(PhoneTakenMessage)
    ensures r.None? <==>
      !PhoneTaken(players, resellers, StripPlus(phoneNumber)) &&
      !EmailTaken(players, resellers, admins, Trim(ToLower(email))) &&
      !UsernameTaken(players, resellers, Trim(username))
  {
    if PhoneTaken(players, resellers, StripPlus(phoneNumber)) then
      Some(PhoneTakenMessage)
    else if EmailTaken(players, resellers, admins, Trim(ToLower(email))) then
      Some(EmailTakenMessage)
    else if UsernameTaken(players, resellers, Trim(username)) then
      Some(UsernameTakenMessage)
    else None
  }

  const WelcomeBonus: int := 1000

  /** The player `createUser` records: cleaned identifiers, the hashed
      password, 1000 on the game balance and the welcome bonus as the only
      history entry. */
  function NewPlayer(id: string, username: string, phoneNumber: string, email: string, password: string,
                     txId: string, now: string): (u: User)
    ensures u.role == Player && u.isLoggedIn && u.status == Some(Active)
    ensures u.phoneNumber == StripPlus(phoneNumber) && u.password == HashPassword(password)
    ensures u.balanceGame == WelcomeBonus && u.balanceWinnings == 0
    ensures |u.playerTransactionHistory| == 1 && u.playerTransactionHistory[0].amount == WelcomeBonus &&
            u.playerTransactionHistory[0].balanceAfter == u.balanceGame
  {
    User(id, true, Trim(username), StripPlus(phoneNumber), Trim(ToLower(email)), HashPassword(password), Player,
         WelcomeBonus, 0, None, None, None, [],
         [PlayerTransaction(txId, Recharge, "Bonus de bienvenue", WelcomeBonus, WelcomeBonus, now, map[])],
         Some(Active))
  }

  /** Registering the same phone number a second time is refused, whatever
      `+` signs it is written with. */
  lemma RegisterTwiceRefused(players: seq<User>, resellers: seq<User>, admins: seq<AdminUser>,
                             id: string, username: string, phoneNumber: string, email: string,
                             password: string, txId: string, now: string, phoneAgain: string)
    requires StripPlus(phoneAgain) == StripPlus(phoneNumber)
    ensures var u := NewPlayer(id, username, phoneNumber, email, password, txId, now);
            RegistrationError(players + [u], resellers, admins, username, phoneAgain, email).Some?
  {
    var u := NewPlayer(id, username, phoneNumber, email, password, txId, now);
    RemoveWhereIdempotent(phoneNumber, IsPlus);
    assert StripPlus(StripPlus(phoneAgain)) == u.phoneNumber;
    assert (players + [u])[|players|] == u;
  }

  /** A number that passed the phone check is on no player, so the new
      player is appended. */
  lemma FreshPhoneAppends(players: seq<User>, resellers: seq<User>, phoneNumber: string, u: User)
    requires !PhoneTaken(players, resellers, StripPlus(phoneNumber))
    requires u.phoneNumber == StripPlus(phoneNumber)
    ensures AddOrUpdateByPhone(players, u) == players + [u]
  {
    RemoveWhereIdempotent(phoneNumber, IsPlus);
  }

  /** Inserting a record whose phone number no other record has keeps the
      numbers pairwise distinct. */
  lemma {:induction false} InsertKeepsPhonesDistinct(players: seq<User>, resellers: seq<User>, u: User)
    requires DistinctBy(players + resellers, (v: User) => v.phoneNumber)
    requires forall v :: v in players + resellers ==> v.phoneNumber != u.phoneNumber
    ensures DistinctBy(players + [u] + resellers, (v: User) => v.phoneNumber)
  {
    var before := players + resellers;
    var all := players + [u] + resellers;
    forall i, j | 0 <= i < |all| && 0 <= j < |all| && i != j
      ensures all[i].phoneNumber != all[j].phoneNumber
    {
      var i' := if i < |players| then i else i - 1;
      var j' := if j < |players| then j else j - 1;
      if i == |players| {
        assert all[j] == before[j'];
      } else if j == |players| {
        assert all[i] == before[i'];
      } else {
        assert all[i] == before[i'] && all[j] == before[j'];
      }
    }
  }

  /** A registration that passes the phone check keeps the phone numbers
      of players and resellers pairwise distinct. */
  lemma RegisterKeepsPhonesDistinct(players: seq<User>, resellers: seq<User>,
                                    id: string, username: string, phoneNumber: string, email: string,
                                    password: string, txId: string, now: string)
    requires DistinctBy(players + resellers, (u: User) => u.phoneNumber)
    requires !PhoneTaken(players, resellers, StripPlus(phoneNumber))
    ensures var u := NewPlayer(id, username, phoneNumber, email, password, txId, now);
            DistinctBy(players + [u] + resellers, (v: User) => v.phoneNumber)
  {
    var u := NewPlayer(id, username, phoneNumber, email, password, txId, now);
    RemoveWhereIdempotent(phoneNumber, IsPlus);
    var before := players + resellers;
    forall v | v in before
      ensures v.phoneNumber != u.phoneNumber
    {
      var k :| 0 <= k < |before| && before[k] == v;
      if k < |players| {
        assert v == players[k];
      } else {
        assert v == resellers[k - |players|];
      }
    }
    InsertKeepsPhonesDistinct(players, resellers, u);
  }

  /** The reseller `createReseller` records, with its opening token balance. */
  function NewReseller(id: string, username: string, phoneNumber: string, email: string, password: string,
                       tokenBalance: int): (u: User)
    ensures u.role == Reseller && !u.isLoggedIn && u.status == Some(Active)
    ensures u.tokenBalance == Some(tokenBalance) && u.dailyRechargeTotal == Some(0) &&
            u.dailyTransactionsCount == Some(0)
    ensures u.balanceGame == 0 && u.balanceWinnings == 0 && u.password == HashPassword(password)
  {
    User(id, false, username, phoneNumber, email, HashPassword(password), Reseller, 0, 0,
         Some(tokenBalance), Some(0), Some(0), [], [], Some(Active))
  }

  /** The refusal `createReseller` gives: only the resellers are consulted,
      the phone number exactly and the email ignoring case. */
  function ResellerError(resellers: seq<User>, phoneNumber: string, email: string): (r: Option<string>)
    ensures (exists k :: 0 <= k < |resellers| && resellers[k].phoneNumber == phoneNumber) ==>
              r == Some("Un revendeur avec ce numéro de téléphone existe déjà")
    ensures r.None? <==>
      forall k :: 0 <= k < |resellers| ==>
        resellers[k].phoneNumber != phoneNumber && ToLower(resellers[k].email) != ToLower(email)
  {
    if exists k :: 0 <= k < |resellers| && resellers[k].phoneNumber == phoneNumber then
      Some("Un revendeur avec ce numéro de téléphone existe déjà")
    else if exists k :: 0 <= k < |resellers| && ToLower(resellers[k].email) == ToLower(email) then
      Some("Un revendeur avec cet email existe déjà")
    else None
  }

  /** `toggleUserStatus` on one record: an absent status counts as active. */
  function ToggledStatus(status: Option<AccountStatus>): (r: AccountStatus)
    ensures r == Active <==> status == Some(Suspended)
  {
    match status
    case None => Suspended
    case Some(Active) => Suspended
    case Some(Suspended) => Active
  }

  /** Toggling twice gives back the status the record effectively had. */
  lemma ToggleTwice(status: Option<AccountStatus>)
    ensures ToggledStatus(Some(ToggledStatus(status))) == (if status.None? then Active else status.value)
  {
  }

  /** `toggleUserStatus` on one list: the first record with the number has
      its status flipped; `None` when no record has it. */
  function ToggleStatusIn(list: seq<User>, phoneNumber: string): (r: Option<seq<User>>)
    ensures r.None? <==> forall k :: 0 <= k < |list| ==> list[k].phoneNumber != phoneNumber
    ensures r.Some? ==>
      |r.value| == |list| &&
      exists k :: 0 <= k < |list| && list[k].phoneNumber == phoneNumber &&
        r.value[k] == list[k].(status := Some(ToggledStatus(list[k].status))) &&
        forall j :: 0 <= j < |list| && j != k ==> r.value[j] == list[j]
  {
    match FirstIndex(list, (u: User) => u.phoneNumber == phoneNumber)
    case None => None
    case Some(k) => Some(list[k := list[k].(status := Some(ToggledStatus(list[k].status)))])
  }

  // ---------------------------------------------------------------------
  // Administrators
  // ---------------------------------------------------------------------

  datatype AdminRole = SuperAdmin | AdminFinancier | AdminDuJeu | SupportClient

  function AdminRoleName(role: AdminRole): string
  {
    match role
    case SuperAdmin => "Super Admin"
    case AdminFinancier => "Admin Financier"
    case AdminDuJeu => "Admin du Jeu"
    case SupportClient => "Support Client"
  }

  datatype AdminStatus = Actif | Desactive

  datatype AdminUser = AdminUser(
    id: string,
    username: string,
    email: string,
    password: string,
    role: AdminRole,
    status: AdminStatus,
    lastLogin: string,
    createdAt: string)

  predicate IsSuperAdmin(a: AdminUser)
  {
    a.role == SuperAdmin
  }

  predicate IsActiveSuperAdmin(a: AdminUser)
  {
    a.role == SuperAdmin && a.status == Actif
  }

  function AdminIndex(admins: seq<AdminUser>, id: string): Option<nat>
  {
    FirstIndex(admins, (a: AdminUser) => a.id == id)
  }

  /** `createAdmin`: refused when an administrator has exactly the same
      email (letter case counts); otherwise the new, active administrator is
      appended. */
  function AddAdmin(admins: seq<AdminUser>, id: string, username: string, email: string, password: string,
                    role: AdminRole, now: string): (r: Outcome<seq<AdminUser>>)
    ensures r.Failure? <==> exists k :: 0 <= k < |admins| && admins[k].email == email
    ensures r.Failure? ==> r.message == "Cet email est déjà utilisé"
    ensures r.Success? ==>
      |r.value| == |admins| + 1 && r.value[..|admins|] == admins &&
      r.value[|admins|].email == email && r.value[|admins|].status == Actif &&
      r.value[|admins|].role == role && r.value[|admins|].password == HashPassword(password)
  {
    if exists k :: 0 <= k < |admins| && admins[k].email == email then Failure("Cet email est déjà utilisé")
    else Success(admins + [AdminUser(id, username, email, HashPassword(password), role, Actif,
                                     "Jamais connecté", now)])
  }

  /** The fields a `Partial<AdminUser>` update may carry. */
  datatype AdminPatch = AdminPatch(
    id: Option<string>,
    username: Option<string>,
    email: Option<string>,
    password: Option<string>,
    role: Option<AdminRole>,
    status: Option<AdminStatus>,
    lastLogin: Option<string>,
    createdAt: Option<string>)

  function Or<T>(x: Option<T>, default: T): T
  {
    if x.Some? then x.value else default
  }

  /** `{ ...admin, ...updates }`. */
  function MergeAdmin(a: AdminUser, p: AdminPatch): AdminUser
  {
    AdminUser(Or(p.id, a.id), Or(p.username, a.username), Or(p.email, a.email), Or(p.password, a.password),
              Or(p.role, a.role), Or(p.status, a.status), Or(p.lastLogin, a.lastLogin),
              Or(p.createdAt, a.createdAt))
  }

  /** `updateAdmin`: an unknown id is refused; a new non-empty email that
      another administrator already has is refused; otherwise the first
      administrator with the id receives the update.  No roster rule is
      checked here. */
  function UpdateAdminIn(admins: seq<AdminUser>, id: string, patch: AdminPatch): (r: Outcome<seq<AdminUser>>)
    ensures AdminIndex(admins, id).None? ==> r == Failure("Administrateur non trouvé")
    ensures r.Success? <==>
      AdminIndex(admins, id).Some? &&
      !(patch.email.Some? && patch.email.value != "" &&
        patch.email.value != admins[AdminIndex(admins, id).value].email &&
        exists j :: 0 <= j < |admins| && admins[j].email == patch.email.value && admins[j].id != id)
    ensures r.Failure? && AdminIndex(admins, id).Some? ==> r.message == "Cet email est déjà utilisé"
    ensures r.Success? ==>
      var k := AdminIndex(admins, id).value;
      |r.value| == |admins| && r.value[k] == MergeAdmin(admins[k], patch) &&
      (forall j :: 0 <= j < |admins| && j != k ==> r.value[j] == admins[j]) &&
      (patch.email.Some? && patch.email.value != "" && patch.email.value != admins[k].email ==>
         forall j :: 0 <= j < |admins| && admins[j].id != id ==> admins[j].email != patch.email.value)
  {
    match AdminIndex(admins, id)
    case None => Failure("Administrateur non trouvé")
    case Some(k) =>
      if patch.email.Some? && patch.email.value != "" && patch.email.value != admins[k].email &&
         exists j :: 0 <= j < |admins| && admins[j].email == patch.email.value && admins[j].id != id
      then Failure("Cet email est déjà utilisé")
      else Success(admins[k := MergeAdmin(admins[k], patch)])
  }

  function FlipAdminStatus(s: AdminStatus): AdminStatus
  {
    if s == Actif then Desactive else Actif
  }

  /** `toggleAdminStatus`: an unknown id is refused, so is deactivating the
      only active Super Admin; otherwise the first administrator with the id
      changes status. */
  function ToggleAdminIn(admins: seq<AdminUser>, id: string): (r: Outcome<seq<AdminUser>>)
    ensures AdminIndex(admins, id).None? ==> r == Failure("Administrateur non trouvé")
    ensures AdminIndex(admins, id).Some? && IsActiveSuperAdmin(admins[AdminIndex(admins, id).value]) &&
            Count(admins, IsActiveSuperAdmin) == 1 ==>
              r == Failure("Impossible de désactiver le dernier Super Admin actif")
    ensures r.Success? <==>
      AdminIndex(admins, id).Some? &&
      !(IsActiveSuperAdmin(admins[AdminIndex(admins, id).value]) && Count(admins, IsActiveSuperAdmin) == 1)
    ensures r.Success? ==>
      var k := AdminIndex(admins, id).value;
      |r.value| == |admins| && r.value[k] == admins[k].(status := FlipAdminStatus(admins[k].status)) &&
      forall j :: 0 <= j < |admins| && j != k ==> r.value[j] == admins[j]
  {
    match AdminIndex(admins, id)
    case None => Failure("Administrateur non trouvé")
    case Some(k) =>
      if IsActiveSuperAdmin(admins[k]) && Count(admins, IsActiveSuperAdmin) == 1 then
        Failure("Impossible de désactiver le dernier Super Admin actif")
      else Success(admins[k := admins[k].(status := FlipAdminStatus(admins[k].status))])
  }

  /** `deleteAdmin`: an unknown id is refused, so is deleting the only
      Super Admin; otherwise the first administrator with the id is spliced
      out and the others keep their order. */
  function DeleteAdminIn(admins: seq<AdminUser>, id: string): (r: Outcome<seq<AdminUser>>)
    ensures AdminIndex(admins, id).None? ==> r == Failure("Administrateur non trouvé")
    ensures AdminIndex(admins, id).Some? && IsSuperAdmin(admins[AdminIndex(admins, id).value]) &&
            Count(admins, IsSuperAdmin) == 1 ==>
              r == Failure("Impossible de supprimer le dernier Super Admin")
    ensures r.Success? <==>
      AdminIndex(admins, id).Some? &&
      !(IsSuperAdmin(admins[AdminIndex(admins, id).value]) && Count(admins, IsSuperAdmin) == 1)
    ensures r.Success? ==>
      var k := AdminIndex(admins, id).value;
      admins[k].id == id && r.value == admins[..k] + admins[k + 1..]
  {
    match AdminIndex(admins, id)
    case None => Failure("Administrateur non trouvé")
    case Some(k) =>
      if IsSuperAdmin(admins[k]) && Count(admins, IsSuperAdmin) == 1 then
        Failure("Impossible de supprimer le dernier Super Admin")
      else Success(admins[..k] + admins[k + 1..])
  }

  /** Toggling never leaves the roster without an active Super Admin when it
      had one. */
  lemma ToggleKeepsActiveSuperAdmin(admins: seq<AdminUser>, id: string)
    requires Count(admins, IsActiveSuperAdmin) >= 1
    requires ToggleAdminIn(admins, id).Success?
    ensures Count(ToggleAdminIn(admins, id).value, IsActiveSuperAdmin) >= 1
  {
    var k := AdminIndex(admins, id).value;
    CountUpdate(admins, k, admins[k].(status := FlipAdminStatus(admins[k].status)), IsActiveSuperAdmin);
  }

  /** Deleting never leaves the roster without a Super Admin when it had
      one. */
  lemma DeleteKeepsSuperAdmin(admins: seq<AdminUser>, id: string)
    requires Count(admins, IsSuperAdmin) >= 1
    requires DeleteAdminIn(admins, id).Success?
    ensures Count(DeleteAdminIn(admins, id).value, IsSuperAdmin) >= 1
  {
    var k := AdminIndex(admins, id).value;
    CountRemove(admins, k, IsSuperAdmin);
  }

  /** The deletion guard counts every Super Admin, active or not: deleting
      the only active one is allowed while a deactivated one remains, and
      leaves no active Super Admin. */
  lemma DeleteCanRemoveLastActiveSuperAdmin(a: AdminUser, b: AdminUser)
    requires IsActiveSuperAdmin(a) && b.role == SuperAdmin && b.status == Desactive && a.id != b.id
    ensures DeleteAdminIn([a, b], a.id) == Success([b])
    ensures Count([a, b], IsActiveSuperAdmin) == 1 && Count([b], IsActiveSuperAdmin) == 0
  {
    assert [a, b][..1] == [a];
    assert [b][..0] == [];
    assert AdminIndex([a, b], a.id) == Some(0);
    assert Count([a, b], IsSuperAdmin) == 2;
    assert [a, b][..0] + [a, b][1..] == [b];
  }

  /** `updateAdminLastLogin`: the first administrator with exactly that
      email gets the new date. */
  function TouchLastLogin(admins: seq<AdminUser>, email: string, now: string): (r: seq<AdminUser>)
    ensures |r| == |admins|
    ensures forall j :: 0 <= j < |admins| ==> r[j] == admins[j] || (admins[j].email == email && r[j] == admins[j].(lastLogin := now))
    ensures (forall j :: 0 <= j < |admins| ==> admins[j].email != email) ==> r == admins
    ensures forall k :: 0 <= k < |admins| && admins[k].email == email &&
                        (forall j :: 0 <= j < k ==> admins[j].email != email) ==>
              r[k] == admins[k].(lastLogin := now) &&
              forall j :: 0 <= j < |admins| && j != k ==> r[j] == admins[j]
  {
    match FirstIndex(admins, (a: AdminUser) => a.email == email)
    case None => admins
    case Some(k) => admins[k := admins[k].(lastLogin := now)]
  }

  const AdminPhone: string := "000000000000"
  const AdminPassword: string := "adminlotto"

  /** The characters `/[\\s\\-\\.+]/g` removes: the backslash, the letter
      `s`, the dot and the plus sign (the doubled escapes turn `\s` and `\-`
      into literal characters). */
  predicate IsAdminStripped(c: char)
  {
    c == '\\' || c == 's' || c == '.' || c == '+'
  }

  /** The built-in administrator: the stripped identifier is, or ends
      with, twelve zeros, and the built-in password is given. */
  function IsBuiltInAdmin(phoneOrEmail: string, password: string): (r: bool)
    ensures r <==> EndsWith(RemoveWhere(phoneOrEmail, IsAdminStripped), AdminPhone) && password == AdminPassword
  {
    var cleanNumber := RemoveWhere(phoneOrEmail, IsAdminStripped);
    EndsWithItself(AdminPhone);
    (cleanNumber == AdminPhone || EndsWith(cleanNumber, AdminPhone)) && password == AdminPassword
  }

  /** The first administrator whose email matches ignoring case is active
      and has the password's hash. */
  function IsRosterAdmin(admins: seq<AdminUser>, phoneOrEmail: string, password: string): (r: bool)
    ensures r <==>
      exists k :: 0 <= k < |admins| && ToLower(admins[k].email) == ToLower(phoneOrEmail) &&
        (forall j :: 0 <= j < k ==> ToLower(admins[j].email) != ToLower(phoneOrEmail)) &&
        admins[k].status == Actif && admins[k].password == HashPassword(password)
  {
    match FirstIndex(admins, (a: AdminUser) => ToLower(a.email) == ToLower(phoneOrEmail))
    case None => false
    case Some(k) => admins[k].status != Desactive && HashPassword(password) == admins[k].password
  }

  /** `isAdminCredentials`: the built-in administrator, or else an active
      administrator from the roster. */
  function IsAdminCredentials(admins: seq<AdminUser>, phoneOrEmail: string, password: string): (r: bool)
    ensures r <==> IsBuiltInAdmin(phoneOrEmail, password) || IsRosterAdmin(admins, phoneOrEmail, password)
    ensures !IsBuiltInAdmin(phoneOrEmail, password) && admins == [] ==> !r
  {
    if IsBuiltInAdmin(phoneOrEmail, password) then true
    else IsRosterAdmin(admins, phoneOrEmail, password)
  }

  /** The built-in administrator is recognised by the end of the
      identifier alone, whatever comes before it. */
  lemma AdminPhoneSuffix(admins: seq<AdminUser>, prefix: string)
    ensures IsAdminCredentials(admins, prefix + AdminPhone, AdminPassword)
  {
    assert forall i :: 0 <= i < |AdminPhone| ==> AdminPhone[i] == '0';
    RemoveWhereKeepsTail(prefix, AdminPhone, IsAdminStripped);
  }

  /** The character class keeps dashes: an identifier ending in a dash
      and a digit is never the built-in administrator's. */
  lemma AdminPhoneKeepsDashes(prefix: string, d: char)
    requires IsDigit(d)
    ensures !EndsWith(RemoveWhere(prefix + ['-', d], IsAdminStripped), AdminPhone)
  {
    RemoveWhereAppend(prefix, ['-', d], IsAdminStripped);
    var clean := RemoveWhere(prefix + ['-', d], IsAdminStripped);
    assert RemoveWhere(['-', d], IsAdminStripped) == ['-', d];
    assert clean[|clean| - 2] == '-';
  }

  /** `getCurrentAdminRole`: nothing unless an admin is signed in; then the
      role of the administrator with exactly that email, Super Admin when
      there is none. */
  function CurrentAdminRole(current: Option<User>, admins: seq<AdminUser>): (r: Option<AdminRole>)
    ensures current.None? || current.value.role != Admin <==> r.None?
    ensures r.Some? && r.value != SuperAdmin ==>
              exists k :: 0 <= k < |admins| && admins[k].email == current.value.email && admins[k].role == r.value
    ensures r.Some? && (forall j :: 0 <= j < |admins| ==> admins[j].email != current.value.email) ==>
              r == Some(SuperAdmin)
    ensures r.Some? ==>
              forall k :: 0 <= k < |admins| && admins[k].email == current.value.email &&
                          (forall j :: 0 <= j < k ==> admins[j].email != current.value.email) ==>
                r == Some(admins[k].role)
  {
    if current.None? || current.value.role != Admin then None
    else match FirstIndex(admins, (a: AdminUser) => a.email == current.value.email)
      case None => Some(SuperAdmin)
      case Some(k) => Some(admins[k].role)
  }

  /** `allPlayers[findIndex(same phone)] = player`, saved only when found. */
  function ReplaceByPhone(list: seq<User>, u: User): (r: seq<User>)
    ensures |r| == |list|
    ensures forall k :: 0 <= k < |list| ==> r[k] == list[k] || (list[k].phoneNumber == u.phoneNumber && r[k] == u)
    ensures (exists k :: 0 <= k < |list| && list[k].phoneNumber == u.phoneNumber) ==> u in r
  {
    match FirstIndex(list, (p: User) => p.phoneNumber == u.phoneNumber)
    case None => list
    case Some(k) =>
      var r := list[k := u];
      assert r[k] == u;
      r
  }

  /** Replacing a record that is in the list puts the new one in. */
  lemma ReplaceByPhoneFound(list: seq<User>, found: User, u: User)
    requires found in list && found.phoneNumber == u.phoneNumber
    ensures exists k :: 0 <= k < |list| && list[k].phoneNumber == u.phoneNumber
  {
    var k :| 0 <= k < |list| && list[k] == found;
    assert list[k].phoneNumber == u.phoneNumber;
  }

  // ---------------------------------------------------------------------
  // The stored lists
  // ---------------------------------------------------------------------

  /** The signed-in user (`lottoHappyUser`), the players
      (`lottoHappyAllPlayers`), the resellers (`lottoHappyAllResellers`), the
      merged list the draws read (`loto_happy_users`) and the
      administrators (`lottoHappyAdmins`). */
  class AccountStore {
    var currentUser: Option<User>
    var players: seq<User>
    var resellers: seq<User>
    var users: seq<User>
    var admins: seq<AdminUser>

    /** `syncToUnifiedUserStore` has run: the merged list is the players
        followed by the resellers. */
    ghost predicate Synced()
      reads this
    {
      users == players + resellers
    }

    /** The first start: no session, no players, the default resellers and
        administrators given. */
    constructor (defaultResellers: seq<User>, defaultAdmins: seq<AdminUser>)
      ensures currentUser == None && players == [] && resellers == defaultResellers
      ensures admins == defaultAdmins && Synced()
    {
      currentUser := None;
      players := [];
      resellers := defaultResellers;
      users := defaultResellers;
      admins := defaultAdmins;
    }

    /** The session now holds `u`; a player is also written back to the
        player list, which is re-synchronised. */
    twostate predicate Committed(u: User)
      reads this
    {
      currentUser == Some(u) && resellers == old(resellers) && admins == old(admins) &&
      if u.role == Player then players == AddOrUpdateByPhone(old(players), u) && users == players + resellers
      else players == old(players) && users == old(users)
    }

    method Commit(u: User)
      modifies this
      ensures Committed(u)
    {
      currentUser := Some(u);
      if u.role == Player {
        players := AddOrUpdateByPhone(players, u);
        users := players + resellers;
      }
    }

    method ConvertWinningsToGame(amount: int) returns (ok: bool)
      modifies this
      ensures ok <==> old(currentUser).Some? && ConvertWinnings(old(currentUser).value, amount).Some?
      ensures ok ==> Committed(ConvertWinnings(old(currentUser).value, amount).value)
      ensures !ok ==> unchanged(this)
    {
      if currentUser.None? {
        return false;
      }
      var r := ConvertWinnings(currentUser.value, amount);
      if r.None? {
        return false;
      }
      Commit(r.value);
      ok := true;
    }

    method DeductBetCost(amount: int) returns (ok: bool)
      modifies this
      ensures ok <==> old(currentUser).Some? && DeductBet(old(currentUser).value, amount).Some?
      ensures ok ==> Committed(DeductBet(old(currentUser).value, amount).value)
      ensures !ok ==> unchanged(this)
    {
      if currentUser.None? {
        return false;
      }
      var r := DeductBet(currentUser.value, amount);
      if r.None? {
        return false;
      }
      Commit(r.value);
      ok := true;
    }

    /** `updateGameBalance`: no check at all, the amount is simply added. */
    method UpdateGameBalance(amount: int)
      modifies this
      ensures old(currentUser).None? ==> unchanged(this)
      ensures old(currentUser).Some? ==>
        Committed(old(currentUser).value.(balanceGame := old(currentUser).value.balanceGame + amount))
    {
      if currentUser.Some? {
        var u := currentUser.value;
        Commit(u.(balanceGame := u.balanceGame + amount));
      }
    }

    /** `updateWinningsBalance`. */
    method UpdateWinningsBalance(amount: int)
      modifies this
      ensures old(currentUser).None? ==> unchanged(this)
      ensures old(currentUser).Some? ==>
        Committed(old(currentUser).value.(balanceWinnings := old(currentUser).value.balanceWinnings + amount))
    {
      if currentUser.Some? {
        var u := currentUser.value;
        Commit(u.(balanceWinnings := u.balanceWinnings + amount));
      }
    }

    /** `addPlayerTransaction`: only for a signed-in player, whose history
        gets the entry in front, capped at 100. */
    method AddPlayerTransaction(kind: TransactionType, description: string, amount: int, balanceAfter: int,
                                metadata: map<string, string>, id: string, now: string)
      modifies this
      ensures old(currentUser).None? || old(currentUser).value.role != Player ==> unchanged(this)
      ensures old(currentUser).Some? && old(currentUser).value.role == Player ==>
        var u := old(currentUser).value;
        Committed(u.(playerTransactionHistory := PushHistory(u.playerTransactionHistory,
          PlayerTransaction(id, kind, description, amount, balanceAfter, now, metadata))))
    {
      if currentUser.None? || currentUser.value.role != Player {
        return;
      }
      var u := currentUser.value;
      var tx := PlayerTransaction(id, kind, description, amount, balanceAfter, now, metadata);
      Commit(u.(playerTransactionHistory := PushHistory(u.playerTransactionHistory, tx)));
    }

    /** `withdrawMoney`: the checks and the debit of `Withdraw`, then a
        pending request in front of the request list. */
    method WithdrawMoney(amount: int, provider: string, phoneNumber: string, txId: string,
                         requestId: string, now: string, queue: WithdrawalQueue)
      returns (r: Outcome<User>)
      modifies this, queue
      ensures old(currentUser).None? ==> r == Failure("Non autorisé")
      ensures old(currentUser).Some? ==> r == Withdraw(old(currentUser).value, amount, provider, phoneNumber, txId, now)
      ensures r.Failure? ==> unchanged(this) && unchanged(queue)
      ensures r.Success? ==>
        var u := old(currentUser).value;
        Committed(r.value) &&
        queue.requests == [WithdrawalRequest(requestId, u.id, u.username, u.phoneNumber, amount, provider,
                                             phoneNumber, Pending, now, None)] + old(queue.requests)
    {
      if currentUser.None? {
        return Failure("Non autorisé");
      }
      var u := currentUser.value;
      r := Withdraw(u, amount, provider, phoneNumber, txId, now);
      if r.Failure? {
        return;
      }
      Commit(r.value);
      var _ := queue.CreateWithdrawalRequest(requestId, u.id, u.username, u.phoneNumber, amount, provider,
                                             phoneNumber, now);
    }

    /** `creditPlayerAccount`: on success the credited player replaces its
        record in the player list, and the debited reseller becomes the
        session and replaces its record in the reseller list.  (The source's
        update of the session for a signed-in player is unreachable here:
        the session holds the reseller.) */
    method CreditPlayerAccount(searchTerm: string, amount: int, playerTxId: string, resellerTxId: string,
                               now: string)
      returns (r: Outcome<(User, User)>)
      modifies this
      ensures r == CreditPlayer(old(currentUser), old(players), searchTerm, amount, playerTxId, resellerTxId, now)
      ensures r.Failure? ==> unchanged(this)
      ensures r.Success? ==>
        r.value.0 in players &&
        players == ReplaceByPhone(old(players), r.value.0) &&
        currentUser == Some(r.value.1) &&
        resellers == AddOrUpdateByPhone(old(resellers), r.value.1) &&
        admins == old(admins) && Synced()
    {
      r := CreditPlayer(currentUser, players, searchTerm, amount, playerTxId, resellerTxId, now);
      if r.Failure? {
        return;
      }
      ReplaceByPhoneFound(players, SearchPlayer(players, searchTerm).value, r.value.0);
      SaveCredit(r.value.0, r.value.1);
    }

    /** The storing half of `creditPlayerAccount`: the player replaces its
        record, the reseller becomes the session and replaces its record. */
    method SaveCredit(player: User, reseller: User)
      requires exists k :: 0 <= k < |players| && players[k].phoneNumber == player.phoneNumber
      modifies this
      ensures player in players && players == ReplaceByPhone(old(players), player)
      ensures currentUser == Some(reseller) && resellers == AddOrUpdateByPhone(old(resellers), reseller)
      ensures admins == old(admins) && Synced()
    {
      players := ReplaceByPhone(players, player);
      currentUser := Some(reseller);
      resellers := AddOrUpdateByPhone(resellers, reseller);
      users := players + resellers;
    }

    /** `createUser`: the checks of `RegistrationError`, then the new player
        is signed in and appended to the player list. */
    method CreateUser(username: string, phoneNumber: string, email: string, password: string,
                      id: string, txId: string, now: string)
      returns (r: Outcome<User>)
      modifies this
      ensures r.Failure? <==> RegistrationError(old(players), old(resellers), old(admins), username,
                                                phoneNumber, email).Some?
      ensures r.Failure? ==>
        r.message == RegistrationError(old(players), old(resellers), old(admins), username, phoneNumber, email).value &&
        unchanged(this)
      ensures r.Success? ==>
        r.value == NewPlayer(id, username, phoneNumber, email, password, txId, now) &&
        currentUser == Some(r.value) && players == old(players) + [r.value] &&
        resellers == old(resellers) && admins == old(admins) && Synced()
    {
      var error := RegistrationError(players, resellers, admins, username, phoneNumber, email);
      if error.Some? {
        return Failure(error.value);
      }
      var u := NewPlayer(id, username, phoneNumber, email, password, txId, now);
      FreshPhoneAppends(players, resellers, phoneNumber, u);
      currentUser := Some(u);
      players := AddOrUpdateByPhone(players, u);
      users := players + resellers;
      r := Success(u);
    }

    /** `createReseller`: the checks of `ResellerError`, then the reseller is
        appended. */
    method CreateReseller(username: string, phoneNumber: string, email: string, password: string,
                          tokenBalance: int, id: string)
      returns (r: Outcome<User>)
      modifies this
      ensures r.Failure? <==> ResellerError(old(resellers), phoneNumber, email).Some?
      ensures r.Failure? ==> r.message == ResellerError(old(resellers), phoneNumber, email).value && unchanged(this)
      ensures r.Success? ==>
        r.value == NewReseller(id, username, phoneNumber, email, password, tokenBalance) &&
        resellers == old(resellers) + [r.value] && players == old(players) &&
        currentUser == old(currentUser) && admins == old(admins) && Synced()
    {
      var error := ResellerError(resellers, phoneNumber, email);
      if error.Some? {
        return Failure(error.value);
      }
      var u := NewReseller(id, username, phoneNumber, email, password, tokenBalance);
      resellers := resellers + [u];
      users := players + resellers;
      r := Success(u);
    }

    /** `toggleUserStatus`: the players are searched first, then the
        resellers. */
    method ToggleUserStatus(phoneNumber: string) returns (ok: bool)
      modifies this
      ensures ok <==> ToggleStatusIn(old(players), phoneNumber).Some? || ToggleStatusIn(old(resellers), phoneNumber).Some?
      ensures ToggleStatusIn(old(players), phoneNumber).Some? ==>
        players == ToggleStatusIn(old(players), phoneNumber).value && resellers == old(resellers)
      ensures ToggleStatusIn(old(players), phoneNumber).None? && ToggleStatusIn(old(resellers), phoneNumber).Some? ==>
        resellers == ToggleStatusIn(old(resellers), phoneNumber).value && players == old(players)
      ensures ok ==> Synced() && currentUser == old(currentUser) && admins == old(admins)
      ensures !ok ==> unchanged(this)
    {
      var p := ToggleStatusIn(players, phoneNumber);
      if p.Some? {
        players := p.value;
        users := players + resellers;
        return true;
      }
      var q := ToggleStatusIn(resellers, phoneNumber);
      if q.Some? {
        resellers := q.value;
        users := players + resellers;
        return true;
      }
      ok := false;
    }

    /** Applies a roster change; a refusal changes nothing. */
    method ApplyAdmins(r: Outcome<seq<AdminUser>>)
      modifies this
      ensures r.Success? ==> admins == r.value
      ensures r.Failure? ==> admins == old(admins)
      ensures currentUser == old(currentUser) && players == old(players) && resellers == old(resellers)
      ensures users == old(users)
    {
      if r.Success? {
        admins := r.value;
      }
    }

    method CreateAdmin(username: string, email: string, password: string, role: AdminRole, id: string,
                       now: string)
      returns (r: Outcome<seq<AdminUser>>)
      modifies this
      ensures r == AddAdmin(old(admins), id, username, email, password, role, now)
      ensures r.Success? ==> admins == r.value
      ensures r.Failure? ==> admins == old(admins)
      ensures currentUser == old(currentUser) && players == old(players) && resellers == old(resellers)
      ensures users == old(users)
    {
      r := AddAdmin(admins, id, username, email, password, role, now);
      ApplyAdmins(r);
    }

    method UpdateAdmin(adminId: string, updates: AdminPatch) returns (r: Outcome<seq<AdminUser>>)
      modifies this
      ensures r == UpdateAdminIn(old(admins), adminId, updates)
      ensures r.Success? ==> admins == r.value
      ensures r.Failure? ==> admins == old(admins)
      ensures currentUser == old(currentUser) && players == old(players) && resellers == old(resellers)
      ensures users == old(users)
    {
      r := UpdateAdminIn(admins, adminId, updates);
      ApplyAdmins(r);
    }

    method ToggleAdminStatus(adminId: string) returns (r: Outcome<seq<AdminUser>>)
      modifies this
      ensures r == ToggleAdminIn(old(admins), adminId)
      ensures r.Success? ==> admins == r.value
      ensures r.Failure? ==> admins == old(admins)
      ensures Count(old(admins), IsActiveSuperAdmin) >= 1 ==> Count(admins, IsActiveSuperAdmin) >= 1
      ensures currentUser == old(currentUser) && players == old(players) && resellers == old(resellers)
      ensures users == old(users)
    {
      r := ToggleAdminIn(admins, adminId);
      if r.Success? && Count(admins, IsActiveSuperAdmin) >= 1 {
        ToggleKeepsActiveSuperAdmin(admins, adminId);
      }
      ApplyAdmins(r);
    }

    method DeleteAdmin(adminId: string) returns (r: Outcome<seq<AdminUser>>)
      modifies this
      ensures r == DeleteAdminIn(old(admins), adminId)
      ensures r.Success? ==> admins == r.value
      ensures r.Failure? ==> admins == old(admins)
      ensures Count(old(admins), IsSuperAdmin) >= 1 ==> Count(admins, IsSuperAdmin) >= 1
      ensures currentUser == old(currentUser) && players == old(players) && resellers == old(resellers)
      ensures users == old(users)
    {
      r := DeleteAdminIn(admins, adminId);
      if r.Success? && Count(admins, IsSuperAdmin) >= 1 {
        DeleteKeepsSuperAdmin(admins, adminId);
      }
      ApplyAdmins(r);
    }

    method UpdateAdminLastLogin(email: string, now: string)
      modifies this
      ensures admins == TouchLastLogin(old(admins), email, now)
      ensures currentUser == old(currentUser) && players == old(players) && resellers == old(resellers)
      ensures users == old(users)
    {
      admins := TouchLastLogin(admins, email, now);
    }
  }
}

=== FILE: common.dfy ===
/**
 * Helpers shared by every module: an Option type, counting, filtering and
 * summing over sequences (the JavaScript `filter`, `findIndex`, `reduce`
 * idioms), the string predicates the application uses (`startsWith`,
 * `endsWith`, `includes`, `toLowerCase`, `split`, `join`, `replace`), and a
 * model of `parseInt` and of decimal formatting of integers.
 */
module Common {

  datatype Option<T> = None | Some(value: T)

  /** The `{ success, message }` results: a value on success, the message
      shown to the user on failure. */
  datatype Outcome<T> = Success(value: T) | Failure(message: string)

  // ---------------------------------------------------------------------
  // Sequences
  // ---------------------------------------------------------------------

  /** `s.filter(p).length`. Defined from the back so that a loop over a
      prefix `s[..i]` can extend it one element at a time. */
  function Count<T>(s: seq<T>, p: T -> bool): (n: nat)
    ensures n <= |s|
  {
    if s == [] then 0
    else Count(s[..|s| - 1], p) + (if p(s[|s| - 1]) then 1 else 0)
  }

  /** `s.filter(p)`: the elements satisfying `p`, in their original order. */
  function Filter<T>(s: seq<T>, p: T -> bool): (r: seq<T>)
    ensures |r| == Count(s, p)
    ensures forall i :: 0 <= i < |r| ==> r[i] in s && p(r[i])
    ensures forall i :: 0 <= i < |s| && p(s[i]) ==> s[i] in r
  {
    if s == [] then []
    else Filter(s[..|s| - 1], p) + (if p(s[|s| - 1]) then [s[|s| - 1]] else [])
  }

  /** `s.reduce((acc, x) => acc + f(x), 0)`. */
  function Sum<T>(s: seq<T>, f: T -> int): int
  {
    if s == [] then 0 else Sum(s[..|s| - 1], f) + f(s[|s| - 1])
  }

  /** `s.findIndex(p)`, with `None` for -1. */
  function FirstIndex<T>(s: seq<T>, p: T -> bool): (r: Option<nat>)
    ensures r.Some? ==> r.value < |s| && p(s[r.value])
    ensures r.Some? ==> forall j :: 0 <= j < r.value ==> !p(s[j])
    ensures r.None? <==> forall j :: 0 <= j < |s| ==> !p(s[j])
  {
    if s == [] then None
    else if p(s[0]) then Some(0)
    else match FirstIndex(s[1..], p)
      case None => None
      case Some(k) => Some(k + 1)
  }

  /** Every element of `s` satisfies `p` exactly when all of them are counted. */
  lemma {:induction false} CountAll<T>(s: seq<T>, p: T -> bool)
    ensures Count(s, p) == |s| <==> forall i :: 0 <= i < |s| ==> p(s[i])
  {
    if s != [] {
      var init := s[..|s| - 1];
      CountAll(init, p);
      assert forall i :: 0 <= i < |init| ==> init[i] == s[i];
    }
  }

  /** No element of `s` satisfies `p` exactly when the count is zero. */
  lemma {:induction false} CountNone<T>(s: seq<T>, p: T -> bool)
    ensures Count(s, p) == 0 <==> forall i :: 0 <= i < |s| ==> !p(s[i])
  {
    if s != [] {
      var init := s[..|s| - 1];
      CountNone(init, p);
      assert forall i :: 0 <= i < |init| ==> init[i] == s[i];
    }
  }

  /** Filtering distributes over concatenation: it keeps the relative order. */
  lemma {:induction false} FilterAppend<T>(a: seq<T>, b: seq<T>, p: T -> bool)
    ensures Filter(a + b, p) == Filter(a, p) + Filter(b, p)
  {
    if b != [] {
      var b' := b[..|b| - 1];
      FilterAppend(a, b', p);
      assert (a + b)[..|a + b| - 1] == a + b';
    } else {
      assert a + b == a;
    }
  }

  /** Filtering a sequence whose elements all pass changes nothing. */
  lemma {:induction false} FilterAllPass<T>(s: seq<T>, p: T -> bool)
    requires forall i :: 0 <= i < |s| ==> p(s[i])
    ensures Filter(s, p) == s
  {
    if s != [] {
      FilterAllPass(s[..|s| - 1], p);
    }
  }

  lemma {:induction false} SumAppend<T>(a: seq<T>, b: seq<T>, f: T -> int)
    ensures Sum(a + b, f) == Sum(a, f) + Sum(b, f)
  {
    if b != [] {
      var b' := b[..|b| - 1];
      SumAppend(a, b', f);
      assert (a + b)[..|a + b| - 1] == a + b';
    } else {
      assert a + b == a;
    }
  }

  lemma {:induction false} CountAppend<T>(a: seq<T>, b: seq<T>, p: T -> bool)
    ensures Count(a + b, p) == Count(a, p) + Count(b, p)
  {
    if b != [] {
      var b' := b[..|b| - 1];
      CountAppend(a, b', p);
      assert (a + b)[..|a + b| - 1] == a + b';
    } else {
      assert a + b == a;
    }
  }

  /** Counting after removing the element at `k` (`splice(k, 1)`). */
  lemma CountRemove<T>(s: seq<T>, k: nat, p: T -> bool)
    requires k < |s|
    ensures Count(s[..k] + s[k + 1..], p) == Count(s, p) - (if p(s[k]) then 1 else 0)
  {
    var a, x, b := s[..k], s[k], s[k + 1..];
    assert s == a + ([x] + b);
    CountAppend(a, [x] + b, p);
    CountAppend([x], b, p);
    CountAppend(a, b, p);
    assert [x][..0] == [];
  }

  /** Counting after replacing the element at `k`. */
  lemma CountUpdate<T>(s: seq<T>, k: nat, x: T, p: T -> bool)
    requires k < |s|
    ensures Count(s[k := x], p) == Count(s, p) - (if p(s[k]) then 1 else 0) + (if p(x) then 1 else 0)
  {
    CountRemove(s, k, p);
    var t := s[k := x];
    CountRemove(t, k, p);
    assert t[..k] + t[k + 1..] == s[..k] + s[k + 1..];
  }

  /** Summing after replacing the element at `k`. */
  lemma SumUpdate<T>(s: seq<T>, k: nat, x: T, f: T -> int)
    requires k < |s|
    ensures Sum(s[k := x], f) == Sum(s, f) - f(s[k]) + f(x)
  {
    var t := s[k := x];
    assert s == s[..k] + [s[k]] + s[k + 1..];
    assert t == s[..k] + [x] + s[k + 1..];
    SumAppend(s[..k] + [s[k]], s[k + 1..], f);
    SumAppend(s[..k], [s[k]], f);
    SumAppend(s[..k] + [x], s[k + 1..], f);
    SumAppend(s[..k], [x], f);
    assert [s[k]][..0] == [] && [x][..0] == [];
  }

  /** The first index is the one before which nothing satisfies `p`. */
  lemma FirstIndexAt<T>(s: seq<T>, p: T -> bool, k: nat)
    requires k < |s| && p(s[k])
    requires forall j :: 0 <= j < k ==> !p(s[j])
    ensures FirstIndex(s, p) == Some(k)
  {
    var r := FirstIndex(s, p);
    assert r.Some?;
  }

  /** Distinct elements under a key (ids in the stored lists). */
  ghost predicate DistinctBy<T, K>(s: seq<T>, key: T -> K)
  {
    forall i, j :: 0 <= i < |s| && 0 <= j < |s| && i != j ==> key(s[i]) != key(s[j])
  }

  // ---------------------------------------------------------------------
  // Strings
  // ---------------------------------------------------------------------

  predicate StartsWith(s: string, prefix: string)
  {
    |prefix| <= |s| && s[..|prefix|] == prefix
  }

  predicate EndsWith(s: string, suffix: string)
  {
    |suffix| <= |s| && s[|s| - |suffix|..] == suffix
  }

  /** `suffixes.some(x => s.endsWith(x))`. */
  function EndsWithAny(s: string, suffixes: seq<string>): (r: bool)
    ensures r <==> exists k :: 0 <= k < |suffixes| && EndsWith(s, suffixes[k])
  {
    if suffixes == [] then false
    else EndsWith(s, suffixes[0]) || EndsWithAny(s, suffixes[1..])
  }

  lemma EndsWithItself(s: string)
    ensures EndsWith(s, s)
  {
    assert s[0..] == s;
  }

  /** A tail with nothing to remove survives at the end of the result. */
  lemma RemoveWhereKeepsTail(prefix: string, tail: string, drop: char -> bool)
    requires forall i :: 0 <= i < |tail| ==> !drop(tail[i])
    ensures EndsWith(RemoveWhere(prefix + tail, drop), tail)
  {
    RemoveWhereAppend(prefix, tail, drop);
    var clean := RemoveWhere(prefix + tail, drop);
    assert clean[|clean| - |tail|..] == tail;
  }

  /** `s.includes(sub)`. */
  predicate Contains(s: string, sub: string)
    decreases |s|
  {
    StartsWith(s, sub) || (|s| > 0 && Contains(s[1..], sub))
  }

  lemma {:induction false} ContainsChar(s: string, c: char)
    ensures Contains(s, [c]) <==> c in s
  {
    if |s| > 0 {
      ContainsChar(s[1..], c);
      assert c in s <==> s[0] == c || c in s[1..];
    }
  }

  /** A string containing `sub` contains its first character. */
  lemma {:induction false} ContainsFirst(s: string, sub: string)
    requires |sub| > 0 && Contains(s, sub)
    ensures sub[0] in s
    decreases |s|
  {
    if !StartsWith(s, sub) {
      ContainsFirst(s[1..], sub);
    } else {
      assert s[0] == sub[0];
    }
  }

  /** A `sub` occurring at a known position is found. */
  lemma {:induction false} ContainsAt(s: string, sub: string, i: nat)
    requires i + |sub| <= |s| && s[i..i + |sub|] == sub
    ensures Contains(s, sub)
    decreases i
  {
    if i > 0 {
      assert s[1..][i - 1..i - 1 + |sub|] == s[i..i + |sub|];
      ContainsAt(s[1..], sub, i - 1);
    }
  }

  /** The white-space and line-terminator characters `trim` and `\s`
      remove: the ASCII ones, the no-break space, the byte-order mark and
      the Unicode space separators. */
  predicate IsSpace(c: char)
  {
    c == ' ' || c == '\t' || c == '\n' || c == '\r' || c == '\U{000B}' || c == '\U{000C}' ||
    c == '\U{00A0}' || c == '\U{FEFF}' || c == '\U{1680}' || ('\U{2000}' <= c <= '\U{200A}') ||
    c == '\U{2028}' || c == '\U{2029}' || c == '\U{202F}' || c == '\U{205F}' || c == '\U{3000}'
  }

  /** Leading white space removed: what is left is a suffix of `s` (see
      `TrimStartSuffix`) that does not start with a space. */
  function TrimStart(s: string): (r: string)
    ensures |r| <= |s|
    ensures r == [] || !IsSpace(r[0])
  {
    if s != [] && IsSpace(s[0]) then TrimStart(s[1..]) else s
  }

  /** Trailing white space removed: what is left is a prefix of `s` (see
      `TrimEndPrefix`) that does not end with a space. */
  function TrimEnd(s: string): (r: string)
    ensures |r| <= |s|
    ensures r == [] || !IsSpace(r[|r| - 1])
  {
    if s != [] && IsSpace(s[|s| - 1]) then TrimEnd(s[..|s| - 1]) else s
  }

  lemma {:induction false} TrimStartSuffix(s: string)
    ensures TrimStart(s) == s[|s| - |TrimStart(s)|..]
    ensures forall i :: 0 <= i < |s| - |TrimStart(s)| ==> IsSpace(s[i])
  {
    if s != [] && IsSpace(s[0]) {
      TrimStartSuffix(s[1..]);
    }
  }

  lemma {:induction false} TrimEndPrefix(s: string)
    ensures TrimEnd(s) == s[..|TrimEnd(s)|]
    ensures forall i :: |TrimEnd(s)| <= i < |s| ==> IsSpace(s[i])
  {
    if s != [] && IsSpace(s[|s| - 1]) {
      TrimEndPrefix(s[..|s| - 1]);
    }
  }

  /** `s.trim()`. */
  function Trim(s: string): string
  {
    TrimEnd(TrimStart(s))
  }

  /** `s.replace(/[...]/g, '')`: every character matching `drop` removed. */
  function RemoveWhere(s: string, drop: char -> bool): (r: string)
    ensures forall i :: 0 <= i < |r| ==> !drop(r[i])
    ensures (forall i :: 0 <= i < |s| ==> !drop(s[i])) ==> r == s
    ensures |r| <= |s|
  {
    if s == [] then []
    else (if drop(s[0]) then [] else [s[0]]) + RemoveWhere(s[1..], drop)
  }

  /** Removing the same characters a second time changes nothing. */
  lemma RemoveWhereIdempotent(s: string, drop: char -> bool)
    ensures RemoveWhere(RemoveWhere(s, drop), drop) == RemoveWhere(s, drop)
  {
  }

  lemma {:induction false} RemoveWhereAppend(a: string, b: string, drop: char -> bool)
    ensures RemoveWhere(a + b, drop) == RemoveWhere(a, drop) + RemoveWhere(b, drop)
  {
    if a != [] {
      var ab := a + b;
      assert ab[0] == a[0] && ab[1..] == a[1..] + b;
      RemoveWhereAppend(a[1..], b, drop);
      var h := if drop(a[0]) then [] else [a[0]];
      assert RemoveWhere(ab, drop) == h + RemoveWhere(a[1..] + b, drop);
      assert RemoveWhere(a, drop) == h + RemoveWhere(a[1..], drop);
    } else {
      assert a + b == b;
    }
  }

  predicate IsPlus(c: char)
  {
    c == '+'
  }

  /** `s.replace(/\+/g, '')`. */
  function StripPlus(s: string): string
  {
    RemoveWhere(s, IsPlus)
  }

  /** `s.replace(c, rep)` with a one-character string pattern: only the first
      occurrence of `c` is replaced. */
  function ReplaceFirst(s: string, c: char, rep: string): (r: string)
    ensures c !in s ==> r == s
  {
    if s == [] then []
    else if s[0] == c then rep + s[1..]
    else [s[0]] + ReplaceFirst(s[1..], c, rep)
  }

  function LowerChar(c: char): char
  {
    if 'A' <= c <= 'Z' then (c as int + 32) as char else c
  }

  /** `s.toLowerCase()` on the ASCII letters. */
  function ToLower(s: string): (r: string)
    ensures |r| == |s|
    ensures forall i :: 0 <= i < |s| ==> r[i] == LowerChar(s[i])
  {
    seq(|s|, i requires 0 <= i < |s| => LowerChar(s[i]))
  }

  /** `s.split('').reverse().join('')`. */
  function Reversed(s: string): (r: string)
    ensures |r| == |s| && forall i :: 0 <= i < |s| ==> r[i] == s[|s| - 1 - i]
  {
    seq(|s|, i requires 0 <= i < |s| => s[|s| - 1 - i])
  }

  /** `c.repeat(n)`. */
  function Repeat(c: char, n: nat): (r: string)
    ensures |r| == n && forall i :: 0 <= i < n ==> r[i] == c
  {
    seq(n, _ => c)
  }

  /** `parts.join(sep)`. */
  function Join(parts: seq<string>, sep: string): string
  {
    if parts == [] then ""
    else if |parts| == 1 then parts[0]
    else parts[0] + sep + Join(parts[1..], sep)
  }

  /** `s.split(c)` with a one-character separator: always at least one piece. */
  function Split(s: string, c: char): (r: seq<string>)
    ensures |r| >= 1
  {
    if s == [] then [""]
    else if s[0] == c then [""] + Split(s[1..], c)
    else
      var rest := Split(s[1..], c);
      [[s[0]] + rest[0]] + rest[1..]
  }

  lemma {:induction false} SplitNoSeparator(s: string, c: char)
    requires c !in s
    ensures Split(s, c) == [s]
  {
    if s != [] {
      SplitNoSeparator(s[1..], c);
      assert [s[0]] + s[1..] == s;
    }
  }

  lemma {:induction false} SplitPiece(p: string, c: char, rest: string)
    requires c !in p
    ensures Split(p + [c] + rest, c) == [p] + Split(rest, c)
  {
    if p == [] {
      assert p + [c] + rest == [c] + rest;
    } else {
      SplitPiece(p[1..], c, rest);
      assert (p + [c] + rest)[1..] == p[1..] + [c] + rest;
      assert [p[0]] + p[1..] == p;
    }
  }

  /** Splitting what was joined with a separator that no part contains
      gives the parts back. */
  lemma {:induction false} SplitJoin(parts: seq<string>, c: char)
    requires |parts| >= 1
    requires forall k :: 0 <= k < |parts| ==> c !in parts[k]
    ensures Split(Join(parts, [c]), c) == parts
  {
    if |parts| == 1 {
      SplitNoSeparator(parts[0], c);
    } else {
      SplitJoin(parts[1..], c);
      SplitPiece(parts[0], c, Join(parts[1..], [c]));
      assert [parts[0]] + parts[1..] == parts;
    }
  }

  // ---------------------------------------------------------------------
  // Decimal numbers
  // ---------------------------------------------------------------------

  predicate IsDigit(c: char)
  {
    '0' <= c <= '9'
  }

  function DigitChar(d: nat): (c: char)
    requires d < 10
    ensures IsDigit(c)
  {
    ('0' as int + d) as char
  }

  function DigitValue(c: char): nat
    requires IsDigit(c)
  {
    c as int - '0' as int
  }

  predicate AllDigits(s: string)
  {
    forall i :: 0 <= i < |s| ==> IsDigit(s[i])
  }

  /** The value of a string of decimal digits. */
  function DigitsValue(s: string): nat
    requires AllDigits(s)
  {
    if s == [] then 0 else DigitsValue(s[..|s| - 1]) * 10 + DigitValue(s[|s| - 1])
  }

  /** `n.toString()` for a natural number. */
  function NatToString(n: nat): (r: string)
    ensures |r| >= 1 && AllDigits(r)
  {
    if n < 10 then [DigitChar(n)] else NatToString(n / 10) + [DigitChar(n % 10)]
  }

  /** `n.toString()` for any integer. */
  function IntToString(n: int): string
  {
    if n < 0 then "-" + NatToString(-n) else NatToString(n)
  }

  lemma {:induction false} NatToStringValue(n: nat)
    ensures DigitsValue(NatToString(n)) == n
  {
    if n >= 10 {
      NatToStringValue(n / 10);
      var s := NatToString(n);
      assert s[..|s| - 1] == NatToString(n / 10);
    }
  }

  /** Length of the leading run of digits. */
  function DigitRun(s: string): (k: nat)
    ensures k <= |s| && AllDigits(s[..k])
    ensures k < |s| ==> !IsDigit(s[k])
  {
    if s != [] && IsDigit(s[0]) then
      var k := DigitRun(s[1..]) + 1;
      assert s[..k] == [s[0]] + s[1..][..k - 1];
      k
    else 0
  }

  /** `parseInt(s)` read in base 10: leading white space skipped, an
      optional sign, then the longest run of decimal digits; `None` is NaN.
      The hexadecimal reading of a `0x` prefix is not modelled. */
  function ParseInt(s: string): Option<int>
  {
    var t := TrimStart(s);
    var negative := t != [] && t[0] == '-';
    var body := if t != [] && (t[0] == '-' || t[0] == '+') then t[1..] else t;
    var k := DigitRun(body);
    if k == 0 then None
    else
      var v: int := DigitsValue(body[..k]);
      Some(if negative then -v else v)
  }

  lemma {:induction false} DigitRunOfDigits(ds: string, rest: string)
    requires AllDigits(ds)
    requires rest == [] || !IsDigit(rest[0])
    ensures DigitRun(ds + rest) == |ds|
  {
    if ds != [] {
      assert (ds + rest)[1..] == ds[1..] + rest;
      DigitRunOfDigits(ds[1..], rest);
    } else {
      assert ds + rest == rest;
    }
  }

  /** A non-empty string of digits is read as its decimal value. */
  lemma ParseIntDigits(ds: string)
    requires |ds| >= 1 && AllDigits(ds)
    ensures ParseInt(ds) == Some(DigitsValue(ds))
  {
    assert IsDigit(ds[0]);
    assert TrimStart(ds) == ds;
    DigitRunOfDigits(ds, []);
    assert ds + [] == ds;
    assert ds[..|ds|] == ds;
  }

  /** `parseInt` reads back a formatted natural number, whatever non-digit
      text follows it. */
  lemma ParseIntNatToString(n: nat, rest: string)
    requires rest == [] || !IsDigit(rest[0])
    ensures ParseInt(NatToString(n) + rest) == Some(n)
  {
    var s := NatToString(n);
    var t := s + rest;
    assert t[0] == s[0] && IsDigit(t[0]);
    assert !IsSpace(t[0]);
    assert TrimStart(t) == t;
    DigitRunOfDigits(s, rest);
    assert t[..|s|] == s;
    NatToStringValue(n);
  }
}

=== FILE: draws.dfy ===
/**
 * Tickets, settlement and win notifications (src/utils/draws.ts): buying a
 * ticket, entering a draw's results -- every ticket of the draw marked won
 * or lost, the winnings credited to the players, one notification per
 * winning ticket and the draw's totals written -- and reading and marking
 * the notifications.
 */
module Draws {
  import opened Common
  import opened Games
  import opened Auth
  import opened Payout

  // ---------------------------------------------------------------------
  // The tickets of a draw and their totals
  // ---------------------------------------------------------------------

  /** `getTicketsForDraw`. */
  function DrawTickets(ts: seq<Ticket>, drawId: string): (r: seq<Ticket>)
    ensures forall i :: 0 <= i < |r| ==> r[i] in ts && r[i].drawId == drawId
    ensures forall i :: 0 <= i < |ts| && ts[i].drawId == drawId ==> ts[i] in r
  {
    Filter(ts, (t: Ticket) => t.drawId == drawId)
  }

  /** A ticket wins when its payout is positive. */
  predicate Wins(t: Ticket, d: Draw)
  {
    WinAmount(t, d) > 0
  }

  /** What a ticket adds to the draw's winnings: its payout when it wins. */
  function Gain(t: Ticket, d: Draw): nat
  {
    if Wins(t, d) then WinAmount(t, d) else 0
  }

  function TotalBets(ts: seq<Ticket>): int
  {
    Sum(ts, (t: Ticket) => t.betAmount)
  }

  function TotalWinnings(ts: seq<Ticket>, d: Draw): int
  {
    Sum(ts, (t: Ticket) => Gain(t, d))
  }

  function WinnersCount(ts: seq<Ticket>, d: Draw): nat
  {
    Count(ts, (t: Ticket) => Wins(t, d))
  }

  /** The draw as written at the end of `submitDrawResults`: completed, with
      its counts and totals and the profit they leave. */
  function CompletedDraw(d: Draw, participants: nat, winners: nat, totalBets: int, totalWinnings: int): (r: Draw)
    ensures r.status == Completed && r.profit == Some(totalBets - totalWinnings)
    ensures r.participants == Some(participants as int) && r.winners == Some(winners as int)
    ensures r.totalBets == Some(totalBets) && r.totalWinnings == Some(totalWinnings)
    ensures r.id == d.id && r.operatorId == d.operatorId && r.date == d.date && r.time == d.time &&
            r.multipliers == d.multipliers && r.winningNumbers == d.winningNumbers &&
            r.createdAt == d.createdAt && r.createdBy == d.createdBy
  {
    d.(status := Completed,
       winners := Some(winners as int),
       participants := Some(participants as int),
       totalBets := Some(totalBets),
       totalWinnings := Some(totalWinnings),
       profit := Some(totalBets - totalWinnings))
  }

  /** `updateDrawParticipants` after a ticket is added: the draw counts one
      more participant. */
  lemma ParticipantsGrow(ts: seq<Ticket>, t: Ticket)
    ensures |DrawTickets(ts + [t], t.drawId)| == |DrawTickets(ts, t.drawId)| + 1
  {
    FilterAppend(ts, [t], (x: Ticket) => x.drawId == t.drawId);
    assert [t][..0] == [];
  }

  // ---------------------------------------------------------------------
  // Marking the stored tickets
  // ---------------------------------------------------------------------

  function IndexOfTicket(ts: seq<Ticket>, id: string): Option<nat>
  {
    FirstIndex(ts, (t: Ticket) => t.id == id)
  }

  /** The stored ticket after settlement with payout `w`: won with that
      amount, or lost, an earlier `winAmount` being left as it was. */
  function Settle(target: Ticket, w: int): (r: Ticket)
    ensures r.id == target.id && r.drawId == target.drawId
  {
    if w > 0 then target.(status := Won, winAmount := Some(w)) else target.(status := Lost)
  }

  /** One step of the settlement loop: the first stored ticket with the
      settled ticket's id takes the result computed from that ticket. */
  function MarkTicket(all: seq<Ticket>, t: Ticket, d: Draw): (r: seq<Ticket>)
    ensures |r| == |all|
  {
    match IndexOfTicket(all, t.id)
    case None => all
    case Some(k) => all[k := Settle(all[k], WinAmount(t, d))]
  }

  /** The ids of the tickets `ts`. */
  function Ids(ts: seq<Ticket>): set<string>
  {
    if ts == [] then {} else Ids(ts[..|ts| - 1]) + {ts[|ts| - 1].id}
  }

  /** The loop over the draw's tickets `ts`, in order. */
  function MarkTickets(all: seq<Ticket>, ts: seq<Ticket>, d: Draw): (r: seq<Ticket>)
    ensures |r| == |all|
  {
    if ts == [] then all else MarkTicket(MarkTickets(all, ts[..|ts| - 1], d), ts[|ts| - 1], d)
  }

  /** The loop keeps every stored ticket's id and draw in place, and leaves
      a stored ticket whose id none of `ts` has as it was. */
  lemma {:induction false} MarkTicketsKeepsOthers(all: seq<Ticket>, ts: seq<Ticket>, d: Draw)
    ensures var r := MarkTickets(all, ts, d);
            forall i :: 0 <= i < |all| ==>
              r[i].id == all[i].id && r[i].drawId == all[i].drawId &&
              (all[i].id !in Ids(ts) ==> r[i] == all[i])
  {
    if ts != [] {
      MarkTicketsKeepsOthers(all, ts[..|ts| - 1], d);
    }
  }

  /** The intended outcome: each ticket of the draw settled with its own
      payout, every other ticket left as it was. */
  function SettledTickets(all: seq<Ticket>, drawId: string, d: Draw): (r: seq<Ticket>)
    ensures |r| == |all|
    ensures forall i :: 0 <= i < |all| && all[i].drawId != drawId ==> r[i] == all[i]
    ensures forall i :: 0 <= i < |all| && all[i].drawId == drawId ==>
              r[i].status == (if Wins(all[i], d) then Won else Lost) &&
              (Wins(all[i], d) ==> r[i].winAmount == Some(WinAmount(all[i], d)))
  {
    SettledUpTo(all, drawId, d, |all|)
  }

  /** The tickets before position `n` settled, the others not yet. */
  function SettledUpTo(all: seq<Ticket>, drawId: string, d: Draw, n: nat): (r: seq<Ticket>)
    ensures |r| == |all|
  {
    seq(|all|, i requires 0 <= i < |all| =>
      if i < n && all[i].drawId == drawId then Settle(all[i], WinAmount(all[i], d)) else all[i])
  }

  ghost predicate DistinctTicketIds(ts: seq<Ticket>)
  {
    forall i, j :: 0 <= i < |ts| && 0 <= j < |ts| && i != j ==> ts[i].id != ts[j].id
  }

  /** Settling the ticket at `n - 1` on top of the first `n - 1`. */
  lemma MarkPrefixStep(all: seq<Ticket>, drawId: string, d: Draw, n: nat)
    requires DistinctTicketIds(all) && 0 < n <= |all| && all[n - 1].drawId == drawId
    ensures MarkTicket(SettledUpTo(all, drawId, d, n - 1), all[n - 1], d) == SettledUpTo(all, drawId, d, n)
  {
    var x := SettledUpTo(all, drawId, d, n - 1);
    var t := all[n - 1];
    assert forall i :: 0 <= i < |x| ==> x[i].id == all[i].id;
    assert x[n - 1] == t;
    assert IndexOfTicket(x, t.id) == Some(n - 1);
    var y := SettledUpTo(all, drawId, d, n);
    forall i | 0 <= i < |all|
      ensures x[n - 1 := Settle(t, WinAmount(t, d))][i] == y[i]
    {
    }
  }

  lemma SettledUpToSkip(all: seq<Ticket>, drawId: string, d: Draw, n: nat)
    requires 0 < n <= |all| && all[n - 1].drawId != drawId
    ensures SettledUpTo(all, drawId, d, n - 1) == SettledUpTo(all, drawId, d, n)
  {
    var x := SettledUpTo(all, drawId, d, n - 1);
    var y := SettledUpTo(all, drawId, d, n);
    forall i | 0 <= i < |all|
      ensures x[i] == y[i]
    {
    }
  }

  /** `getTicketsForDraw` over one more stored ticket. */
  lemma DrawTicketsStep(all: seq<Ticket>, drawId: string, n: nat)
    requires 0 < n <= |all|
    ensures DrawTickets(all[..n], drawId) ==
            DrawTickets(all[..n - 1], drawId) + (if all[n - 1].drawId == drawId then [all[n - 1]] else [])
  {
    var s := all[..n];
    assert s[..|s| - 1] == all[..n - 1];
  }

  lemma {:induction false} MarkPrefix(all: seq<Ticket>, drawId: string, d: Draw, n: nat)
    requires DistinctTicketIds(all) && n <= |all|
    ensures MarkTickets(all, DrawTickets(all[..n], drawId), d) == SettledUpTo(all, drawId, d, n)
  {
    if n == 0 {
      assert all[..0] == [];
      assert SettledUpTo(all, drawId, d, 0) == all;
    } else {
      MarkPrefix(all, drawId, d, n - 1);
      DrawTicketsStep(all, drawId, n);
      var prev := DrawTickets(all[..n - 1], drawId);
      var t := all[n - 1];
      if t.drawId == drawId {
        assert (prev + [t])[..|prev|] == prev;
        MarkPrefixStep(all, drawId, d, n);
      } else {
        assert prev + [] == prev;
        SettledUpToSkip(all, drawId, d, n);
      }
    }
  }

  /** With distinct ticket ids, the settlement loop marks every ticket of the
      draw won (with its payout) or lost, and touches no other ticket. */
  lemma SettlementMarksTickets(all: seq<Ticket>, drawId: string, d: Draw)
    requires DistinctTicketIds(all)
    ensures MarkTickets(all, DrawTickets(all, drawId), d) == SettledTickets(all, drawId, d)
  {
    MarkPrefix(all, drawId, d, |all|);
    assert all[..|all|] == all;
  }

  /** The draw's tickets marked won, as the stored list reports them. */
  function WonCount(ts: seq<Ticket>, drawId: string): nat
  {
    Count(ts, (t: Ticket) => t.drawId == drawId && t.status == Won)
  }

  function WonTotal(ts: seq<Ticket>, drawId: string): int
  {
    Sum(ts, (t: Ticket) => if t.drawId == drawId && t.status == Won then OrZero(t.winAmount) else 0)
  }

  /** The settled prefix over one more stored ticket. */
  lemma SettledTicketsStep(all: seq<Ticket>, drawId: string, d: Draw, n: nat)
    requires 0 < n <= |all|
    ensures var st := SettledTickets(all[..n], drawId, d);
      st[..n - 1] == SettledTickets(all[..n - 1], drawId, d) &&
      st[n - 1] == if all[n - 1].drawId == drawId then Settle(all[n - 1], WinAmount(all[n - 1], d)) else all[n - 1]
  {
    var st := SettledTickets(all[..n], drawId, d);
    var prev := SettledTickets(all[..n - 1], drawId, d);
    forall i | 0 <= i < n - 1
      ensures st[i] == prev[i]
    {
    }
  }

  /** Before the first stored ticket the draw has no tickets and nothing is
      settled. */
  lemma SettledEmpty(all: seq<Ticket>, drawId: string, d: Draw)
    ensures DrawTickets(all[..0], drawId) == [] && SettledTickets(all[..0], drawId, d) == []
  {
    assert all[..0] == [];
  }

  lemma {:induction false} SettledCountPrefix(all: seq<Ticket>, drawId: string, d: Draw, n: nat)
    requires n <= |all|
    ensures WinnersCount(DrawTickets(all[..n], drawId), d) == WonCount(SettledTickets(all[..n], drawId, d), drawId)
  {
    if n == 0 {
      SettledEmpty(all, drawId, d);
    } else {
      CountStepsAgree(all, drawId, d, n);
      SettledCountPrefix(all, drawId, d, n - 1);
    }
  }

  /** One more stored ticket adds as much to the draw's winners as to the
      settled tickets marked won. */
  lemma CountStepsAgree(all: seq<Ticket>, drawId: string, d: Draw, n: nat)
    requires 0 < n <= |all|
    ensures WinnersCount(DrawTickets(all[..n], drawId), d) - WinnersCount(DrawTickets(all[..n - 1], drawId), d) ==
            WonCount(SettledTickets(all[..n], drawId, d), drawId) - WonCount(SettledTickets(all[..n - 1], drawId, d), drawId)
  {
    WinnersCountStep(all, drawId, d, n);
    WonCountStep(all, drawId, d, n);
  }

  /** The draw's winners over one more stored ticket. */
  lemma WinnersCountStep(all: seq<Ticket>, drawId: string, d: Draw, n: nat)
    requires 0 < n <= |all|
    ensures WinnersCount(DrawTickets(all[..n], drawId), d) ==
            WinnersCount(DrawTickets(all[..n - 1], drawId), d) + (if all[n - 1].drawId == drawId && Wins(all[n - 1], d) then 1 else 0)
  {
    DrawTicketsStep(all, drawId, n);
    var t := all[n - 1];
    var prev := DrawTickets(all[..n - 1], drawId);
    if t.drawId == drawId {
      assert (prev + [t])[..|prev|] == prev;
    } else {
      assert prev + [] == prev;
    }
  }

  /** The settled tickets marked won over one more stored ticket. */
  lemma WonCountStep(all: seq<Ticket>, drawId: string, d: Draw, n: nat)
    requires 0 < n <= |all|
    ensures WonCount(SettledTickets(all[..n], drawId, d), drawId) ==
            WonCount(SettledTickets(all[..n - 1], drawId, d), drawId) + (if all[n - 1].drawId == drawId && Wins(all[n - 1], d) then 1 else 0)
  {
    SettledTicketsStep(all, drawId, d, n);
  }

  lemma {:induction false} SettledTotalPrefix(all: seq<Ticket>, drawId: string, d: Draw, n: nat)
    requires n <= |all|
    ensures TotalWinnings(DrawTickets(all[..n], drawId), d) == WonTotal(SettledTickets(all[..n], drawId, d), drawId)
  {
    if n == 0 {
      SettledEmpty(all, drawId, d);
    } else {
      SettledTotalPrefix(all, drawId, d, n - 1);
      TotalStepsAgree(all, drawId, d, n);
    }
  }

  /** One more stored ticket adds as much to the draw's winnings as to the
      settled tickets' won total. */
  lemma TotalStepsAgree(all: seq<Ticket>, drawId: string, d: Draw, n: nat)
    requires 0 < n <= |all|
    ensures TotalWinnings(DrawTickets(all[..n], drawId), d) - TotalWinnings(DrawTickets(all[..n - 1], drawId), d) ==
            WonTotal(SettledTickets(all[..n], drawId, d), drawId) - WonTotal(SettledTickets(all[..n - 1], drawId, d), drawId)
  {
    TotalWinningsStep(all, drawId, d, n);
    WonTotalStep(all, drawId, d, n);
  }

  /** The draw's winnings over one more stored ticket. */
  lemma TotalWinningsStep(all: seq<Ticket>, drawId: string, d: Draw, n: nat)
    requires 0 < n <= |all|
    ensures TotalWinnings(DrawTickets(all[..n], drawId), d) ==
            TotalWinnings(DrawTickets(all[..n - 1], drawId), d) + (if all[n - 1].drawId == drawId then Gain(all[n - 1], d) else 0)
  {
    DrawTicketsStep(all, drawId, n);
    var t := all[n - 1];
    var prev := DrawTickets(all[..n - 1], drawId);
    if t.drawId == drawId {
      assert (prev + [t])[..|prev|] == prev;
    } else {
      assert prev + [] == prev;
    }
  }

  /** The settled tickets' won total over one more stored ticket. */
  lemma WonTotalStep(all: seq<Ticket>, drawId: string, d: Draw, n: nat)
    requires 0 < n <= |all|
    ensures WonTotal(SettledTickets(all[..n], drawId, d), drawId) ==
            WonTotal(SettledTickets(all[..n - 1], drawId, d), drawId) + (if all[n - 1].drawId == drawId then Gain(all[n - 1], d) else 0)
  {
    SettledTicketsStep(all, drawId, d, n);
  }

  /** After settlement the stored tickets agree with the draw's totals: the
      number of the draw's tickets marked won is its `winners`, and the sum
      of their `winAmount` is its `totalWinnings`. */
  lemma SettledStatsAgree(all: seq<Ticket>, drawId: string, d: Draw)
    ensures WinnersCount(DrawTickets(all, drawId), d) == WonCount(SettledTickets(all, drawId, d), drawId)
    ensures TotalWinnings(DrawTickets(all, drawId), d) == WonTotal(SettledTickets(all, drawId, d), drawId)
  {
    SettledCountPrefix(all, drawId, d, |all|);
    SettledTotalPrefix(all, drawId, d, |all|);
    assert all[..|all|] == all;
  }

  // ---------------------------------------------------------------------
  // Win notifications
  // ---------------------------------------------------------------------

  datatype WinNotification = WinNotification(
    id: int,
    userId: string,
    drawId: string,
    operatorName: string,
    drawDate: string,
    winningNumbers: seq<int>,
    playerNumbers: string,
    matchCount: nat,
    winAmount: int,
    timestamp: string,
    read: bool)

  /** `Math.max(...ids, 0) + 1`: above every existing id, and exactly one
      more than the largest (1 when there is none or all are negative). */
  function NextNotificationId(ns: seq<WinNotification>): (r: int)
    ensures r >= 1
    ensures forall k :: 0 <= k < |ns| ==> ns[k].id < r
    ensures r == 1 || exists k :: 0 <= k < |ns| && ns[k].id == r - 1
  {
    if ns == [] then 1
    else
      var init := ns[..|ns| - 1];
      var rest := NextNotificationId(init);
      assert forall k :: 0 <= k < |init| ==> init[k] == ns[k];
      var last := ns[|ns| - 1].id + 1;
      if last > rest then last else rest
  }

  /** `createWinNotification`: appended, unread, with the next id. */
  function AddWinNotification(ns: seq<WinNotification>, userId: string, drawId: string, operatorName: string,
                              drawDate: string, winningNumbers: seq<int>, playerNumbers: string,
                              matchCount: nat, winAmount: int, now: string): (r: seq<WinNotification>)
    ensures |r| == |ns| + 1 && r[..|ns|] == ns
    ensures !r[|ns|].read && r[|ns|].timestamp == now
    ensures forall k :: 0 <= k < |ns| ==> ns[k].id < r[|ns|].id
  {
    ns + [WinNotification(NextNotificationId(ns), userId, drawId, operatorName, drawDate, winningNumbers,
                          playerNumbers, matchCount, winAmount, now, false)]
  }

  predicate IdsIncreasing(ns: seq<WinNotification>)
  {
    forall i, j :: 0 <= i < j < |ns| ==> ns[i].id < ns[j].id
  }

  /** `OPERATORS_CONFIG` name of the draw's operator, or the fallback. */
  function OperatorName(d: Draw): string
  {
    match Games.OperatorById(d.operatorId)
    case Some(o) => o.name
    case None => "Opérateur inconnu"
  }

  /** The notifications the settlement loop adds, one per winning ticket. */
  function NotifyTickets(ns: seq<WinNotification>, ts: seq<Ticket>, d: Draw, operatorName: string, now: string)
    : (r: seq<WinNotification>)
    ensures |ns| <= |r| <= |ns| + |ts|
  {
    if ts == [] then ns
    else NotifyTicket(NotifyTickets(ns, ts[..|ts| - 1], d, operatorName, now), ts[|ts| - 1], d, operatorName, now)
  }

  /** One step: a winning ticket's notification. */
  function NotifyTicket(ns: seq<WinNotification>, t: Ticket, d: Draw, operatorName: string, now: string)
    : (r: seq<WinNotification>)
    ensures |ns| <= |r| <= |ns| + 1
  {
    if Wins(t, d) then
      AddWinNotification(ns, t.userId, d.id, operatorName, d.date + " " + d.time, d.winningNumbers,
                         t.numbers, CountMatches(t.numbers, d.winningNumbers), WinAmount(t, d), now)
    else ns
  }

  /** Settlement adds exactly one unread notification per winning ticket
      after the existing ones, and the ids keep increasing. */
  lemma {:induction false} NotifyTicketsSpec(ns: seq<WinNotification>, ts: seq<Ticket>, d: Draw,
                                              operatorName: string, now: string)
    requires IdsIncreasing(ns)
    ensures var r := NotifyTickets(ns, ts, d, operatorName, now);
            |r| == |ns| + WinnersCount(ts, d) && r[..|ns|] == ns && IdsIncreasing(r) &&
            forall k :: |ns| <= k < |r| ==> !r[k].read
  {
    if ts != [] {
      var init := ts[..|ts| - 1];
      NotifyTicketsSpec(ns, init, d, operatorName, now);
      var prev := NotifyTickets(ns, init, d, operatorName, now);
      var r := NotifyTickets(ns, ts, d, operatorName, now);
      if Wins(ts[|ts| - 1], d) {
        assert r[..|prev|] == prev;
        assert r[..|ns|] == prev[..|ns|];
      }
    }
  }

  /** `getWinNotifications`: all of them when no user (or "") is given. */
  function WinNotificationsFor(ns: seq<WinNotification>, userId: string): (r: seq<WinNotification>)
    ensures userId == "" ==> r == ns
    ensures userId != "" ==> forall i :: 0 <= i < |r| ==> r[i] in ns && r[i].userId == userId
    ensures userId != "" ==> forall i :: 0 <= i < |ns| && ns[i].userId == userId ==> ns[i] in r
  {
    if userId == "" then ns else Filter(ns, (n: WinNotification) => n.userId == userId)
  }

  /** `getUnreadWinNotifications`. */
  function UnreadWinNotifications(ns: seq<WinNotification>, userId: string): (r: seq<WinNotification>)
    ensures forall i :: 0 <= i < |r| ==> r[i] in ns && !r[i].read
    ensures userId != "" ==> forall i :: 0 <= i < |r| ==> r[i].userId == userId
    ensures forall i :: 0 <= i < |ns| && !ns[i].read && (userId == "" || ns[i].userId == userId) ==> ns[i] in r
  {
    Filter(WinNotificationsFor(ns, userId), (n: WinNotification) => !n.read)
  }

  /** `markNotificationAsRead`: only the first notification with the id. */
  function MarkRead(ns: seq<WinNotification>, id: int): (r: seq<WinNotification>)
    ensures |r| == |ns|
    ensures (forall k :: 0 <= k < |ns| ==> ns[k].id != id) ==> r == ns
    ensures forall k :: 0 <= k < |ns| && ns[k].id == id && (forall j :: 0 <= j < k ==> ns[j].id != id) ==>
              r == ns[k := ns[k].(read := true)]
  {
    match FirstIndex(ns, (n: WinNotification) => n.id == id)
    case None => ns
    case Some(k) => ns[k := ns[k].(read := true)]
  }

  /** `markAllNotificationsAsRead`. */
  function MarkAllRead(ns: seq<WinNotification>, userId: string): (r: seq<WinNotification>)
    ensures |r| == |ns|
    ensures forall i :: 0 <= i < |ns| ==> r[i].(read := ns[i].read) == ns[i]
    ensures forall i :: 0 <= i < |ns| ==> r[i].read == (ns[i].read || ns[i].userId == userId)
  {
    seq(|ns|, i requires 0 <= i < |ns| => if ns[i].userId == userId then ns[i].(read := true) else ns[i])
  }

  /** Marking all of a user's notifications read leaves that user nothing
      unread, and leaves every other user's unread list as it was. */
  lemma MarkAllReadClears(ns: seq<WinNotification>, userId: string, other: string)
    requires userId != "" && other != "" && other != userId
    ensures UnreadWinNotifications(MarkAllRead(ns, userId), userId) == []
    ensures UnreadWinNotifications(MarkAllRead(ns, userId), other) == UnreadWinNotifications(ns, other)
  {
    var w := WinNotificationsFor(MarkAllRead(ns, userId), userId);
    assert forall i :: 0 <= i < |w| ==> w[i].read;
    CountNone(w, (n: WinNotification) => !n.read);
    MarkAllReadOthers(ns, userId, other);
  }

  lemma {:induction false} MarkAllReadOthers(ns: seq<WinNotification>, userId: string, other: string)
    requires other != userId
    ensures Filter(MarkAllRead(ns, userId), (n: WinNotification) => n.userId == other) ==
            Filter(ns, (n: WinNotification) => n.userId == other)
  {
    if ns != [] {
      var init := ns[..|ns| - 1];
      MarkAllReadOthers(init, userId, other);
      var r := MarkAllRead(ns, userId);
      assert r[..|r| - 1] == MarkAllRead(init, userId);
    }
  }

  // ---------------------------------------------------------------------
  // Crediting winnings
  // ---------------------------------------------------------------------

  /** The three stored copies of a user that `creditWinningsToPlayer`
      writes: the merged user list, the session and the player list. */
  datatype Ledger = Ledger(users: seq<User>, current: Option<User>, players: seq<User>)

  /** The user after winning `amount`: the winnings balance grows by it and
      a WIN entry carrying the new balance goes in front of the history,
      which is not truncated here. */
  function CreditWinnings(u: User, amount: int, operatorName: string, txId: string, now: string): (r: User)
    ensures r.balanceWinnings == u.balanceWinnings + amount
    ensures r.playerTransactionHistory ==
      [PlayerTransaction(txId, Win, "Gain au " + operatorName, amount, r.balanceWinnings, now,
                         map["operatorName" := operatorName])] + u.playerTransactionHistory
    ensures r.(balanceWinnings := u.balanceWinnings, playerTransactionHistory := u.playerTransactionHistory) == u
  {
    var balance := u.balanceWinnings + amount;
    u.(balanceWinnings := balance,
       playerTransactionHistory :=
         [PlayerTransaction(txId, Win, "Gain au " + operatorName, amount, balance, now,
                            map["operatorName" := operatorName])] + u.playerTransactionHistory)
  }

  function IndexOfUser(us: seq<User>, id: string): Option<nat>
  {
    FirstIndex(us, (u: User) => u.id == id)
  }

  /** A copy takes the credited user's winnings balance and history. */
  function CopyWinnings(target: User, source: User): User
  {
    target.(balanceWinnings := source.balanceWinnings,
            playerTransactionHistory := source.playerTransactionHistory)
  }

  /** `creditWinningsToPlayer`: nothing when no stored user has the id;
      otherwise the first one is credited and the session and the first
      player with the id take its new balance and history. */
  function CreditLedger(l: Ledger, userId: string, amount: int, operatorName: string, txId: string, now: string)
    : (r: Ledger)
    ensures IndexOfUser(l.users, userId).None? ==> r == l
    ensures |r.users| == |l.users| && |r.players| == |l.players|
    ensures IndexOfUser(l.users, userId).Some? ==>
              var k := IndexOfUser(l.users, userId).value;
              r.users == l.users[k := CreditWinnings(l.users[k], amount, operatorName, txId, now)]
  {
    match IndexOfUser(l.users, userId)
    case None => l
    case Some(k) =>
      var u := CreditWinnings(l.users[k], amount, operatorName, txId, now);
      var current := if l.current.Some? && l.current.value.id == userId
                     then Some(CopyWinnings(l.current.value, u)) else l.current;
      var players := match IndexOfUser(l.players, userId)
                     case None => l.players
                     case Some(j) => l.players[j := CopyWinnings(l.players[j], u)];
      Ledger(l.users[k := u], current, players)
  }

  /** For a known user, the session when it is that user, and the first
      player with the id, take the credited record's winnings balance and
      history; every other field and record is kept. */
  lemma CreditLedgerCopies(l: Ledger, userId: string, amount: int, operatorName: string, txId: string, now: string)
    requires IndexOfUser(l.users, userId).Some?
    ensures var k := IndexOfUser(l.users, userId).value;
            var r := CreditLedger(l, userId, amount, operatorName, txId, now);
            var u := r.users[k];
            (l.current.Some? && l.current.value.id == userId ==>
               r.current == Some(l.current.value.(balanceWinnings := u.balanceWinnings,
                                                  playerTransactionHistory := u.playerTransactionHistory))) &&
            (l.current.None? || l.current.value.id != userId ==> r.current == l.current) &&
            ((forall j :: 0 <= j < |l.players| ==> l.players[j].id != userId) ==> r.players == l.players) &&
            (forall j :: 0 <= j < |l.players| && l.players[j].id == userId &&
                         (forall i :: 0 <= i < j ==> l.players[i].id != userId) ==>
               r.players == l.players[j := l.players[j].(balanceWinnings := u.balanceWinnings,
                                                         playerTransactionHistory := u.playerTransactionHistory)])
  {
  }

  ghost predicate DistinctUserIds(us: seq<User>)
  {
    forall i, j :: 0 <= i < |us| && 0 <= j < |us| && i != j ==> us[i].id != us[j].id
  }

  /** The credits of the settlement loop, one per winning ticket; the k-th
      ticket's transaction id is `txId(k)`. */
  function CreditTickets(l: Ledger, ts: seq<Ticket>, d: Draw, operatorName: string, txId: nat -> string,
                         now: string): (r: Ledger)
    ensures |r.users| == |l.users| && |r.players| == |l.players|
    ensures WinnersCount(ts, d) == 0 ==> r == l
  {
    if ts == [] then l
    else CreditTicket(CreditTickets(l, ts[..|ts| - 1], d, operatorName, txId, now), ts[|ts| - 1], d, operatorName,
                      txId(|ts| - 1), now)
  }

  /** One step: a winning ticket's credit. */
  function CreditTicket(l: Ledger, t: Ticket, d: Draw, operatorName: string, txId: string, now: string): (r: Ledger)
    ensures |r.users| == |l.users| && |r.players| == |l.players|
    ensures !Wins(t, d) ==> r == l
  {
    if Wins(t, d) then CreditLedger(l, t.userId, WinAmount(t, d), operatorName, txId, now) else l
  }

  /** What the tickets `ts` win for the user `id`. */
  function GainsOf(ts: seq<Ticket>, d: Draw, id: string): nat
  {
    if ts == [] then 0
    else GainsOf(ts[..|ts| - 1], d, id) + (if ts[|ts| - 1].userId == id then Gain(ts[|ts| - 1], d) else 0)
  }

  /** One credit changes only the credited user's winnings balance, by the
      amount, and keeps every id in place. */
  lemma CreditLedgerBalance(l: Ledger, userId: string, amount: int, operatorName: string, txId: string, now: string)
    requires DistinctUserIds(l.users)
    ensures var r := CreditLedger(l, userId, amount, operatorName, txId, now);
            forall i :: 0 <= i < |l.users| ==>
              r.users[i].id == l.users[i].id &&
              r.users[i].balanceWinnings == l.users[i].balanceWinnings + (if l.users[i].id == userId then amount else 0)
  {
  }

  /** After settlement, every stored user's winnings balance has grown by
      exactly what that user's winning tickets paid; tickets of users who
      are not stored credit nobody. */
  lemma {:induction false} CreditTicketsBalance(l: Ledger, ts: seq<Ticket>, d: Draw, operatorName: string,
                                                 txId: nat -> string, now: string)
    requires DistinctUserIds(l.users)
    ensures var r := CreditTickets(l, ts, d, operatorName, txId, now);
            |r.users| == |l.users| &&
            forall i :: 0 <= i < |l.users| ==>
              r.users[i].id == l.users[i].id &&
              r.users[i].balanceWinnings == l.users[i].balanceWinnings + GainsOf(ts, d, l.users[i].id)
  {
    if ts != [] {
      var init := ts[..|ts| - 1];
      CreditTicketsBalance(l, init, d, operatorName, txId, now);
      var prev := CreditTickets(l, init, d, operatorName, txId, now);
      var t := ts[|ts| - 1];
      assert DistinctUserIds(prev.users) by {
        assert forall i :: 0 <= i < |prev.users| ==> prev.users[i].id == l.users[i].id;
      }
      if Wins(t, d) {
        CreditLedgerBalance(prev, t.userId, WinAmount(t, d), operatorName, txId(|ts| - 1), now);
      }
    }
  }

  /** When the merged list is the players followed by the resellers and the
      winner is a player, the credit keeps the two lists in step. */
  lemma CreditKeepsSynced(l: Ledger, resellers: seq<User>, userId: string, amount: int, operatorName: string,
                          txId: string, now: string)
    requires l.users == l.players + resellers && DistinctUserIds(l.users)
    requires forall k :: 0 <= k < |resellers| ==> resellers[k].id != userId
    ensures var r := CreditLedger(l, userId, amount, operatorName, txId, now);
            r.users == r.players + resellers
  {
    match IndexOfUser(l.users, userId)
    case None =>
      assert IndexOfUser(l.players, userId).None? by {
        assert forall j :: 0 <= j < |l.players| ==> l.players[j] == l.users[j];
      }
    case Some(k) =>
      if k >= |l.players| {
        assert false;
      }
      assert IndexOfUser(l.players, userId) == Some(k) by {
        assert forall j :: 0 <= j < |l.players| ==> l.players[j] == l.users[j];
      }
      var u := CreditWinnings(l.users[k], amount, operatorName, txId, now);
      assert CopyWinnings(l.players[k], u) == u;
      var r := CreditLedger(l, userId, amount, operatorName, txId, now);
      assert r.users == l.users[k := u];
      assert r.players == l.players[k := u];
  }

  function LedgerOf(a: AccountStore): Ledger
    reads a
  {
    Ledger(a.users, a.currentUser, a.players)
  }

  /** `creditWinningsToPlayer` on the stored accounts. */
  method CreditWinningsToPlayer(accounts: AccountStore, userId: string, amount: int, operatorName: string,
                                txId: string, now: string)
    modifies accounts
    ensures LedgerOf(accounts) == CreditLedger(old(LedgerOf(accounts)), userId, amount, operatorName, txId, now)
    ensures accounts.resellers == old(accounts.resellers) && accounts.admins == old(accounts.admins)
  {
    var userIndex := IndexOfUser(accounts.users, userId);
    if userIndex.Some? {
      var k := userIndex.value;
      var u := CreditWinnings(accounts.users[k], amount, operatorName, txId, now);
      accounts.users := accounts.users[k := u];
      if accounts.currentUser.Some? && accounts.currentUser.value.id == userId {
        accounts.currentUser := Some(CopyWinnings(accounts.currentUser.value, u));
      }
      var playerIndex := IndexOfUser(accounts.players, userId);
      if playerIndex.Some? {
        var j := playerIndex.value;
        accounts.players := accounts.players[j := CopyWinnings(accounts.players[j], u)];
      }
    }
  }

  /** The loop's totals over one more ticket of the draw. */
  lemma TotalsStep(ts: seq<Ticket>, i: nat, d: Draw)
    requires i < |ts|
    ensures var t := ts[i];
            var w := WinAmount(t, d);
            TotalBets(ts[..i + 1]) == TotalBets(ts[..i]) + t.betAmount &&
            TotalWinnings(ts[..i + 1], d) == TotalWinnings(ts[..i], d) + (if w > 0 then w else 0) &&
            WinnersCount(ts[..i + 1], d) == WinnersCount(ts[..i], d) + (if w > 0 then 1 else 0)
  {
    assert ts[..i + 1][..i] == ts[..i];
  }

  /** The stored tickets, notifications and accounts over one more ticket
      of the draw. */
  lemma SettlementStep(all: seq<Ticket>, ns: seq<WinNotification>, l: Ledger, ts: seq<Ticket>, i: nat, d: Draw,
                       operatorName: string, txId: nat -> string, now: string)
    requires i < |ts|
    ensures var t := ts[i];
            MarkTickets(all, ts[..i + 1], d) == MarkTicket(MarkTickets(all, ts[..i], d), t, d) &&
            NotifyTickets(ns, ts[..i + 1], d, operatorName, now) ==
              NotifyTicket(NotifyTickets(ns, ts[..i], d, operatorName, now), t, d, operatorName, now) &&
            CreditTickets(l, ts[..i + 1], d, operatorName, txId, now) ==
              CreditTicket(CreditTickets(l, ts[..i], d, operatorName, txId, now), t, d, operatorName, txId(i), now)
  {
    assert ts[..i + 1][..i] == ts[..i];
  }

  // ---------------------------------------------------------------------
  // The stored tickets and notifications
  // ---------------------------------------------------------------------

  /** The `loto_happy_tickets` and `loto_happy_win_notifications` lists. */
  class TicketStore {
    var tickets: seq<Ticket>
    var notifications: seq<WinNotification>

    constructor ()
      ensures tickets == [] && notifications == []
    {
      tickets := [];
      notifications := [];
    }

    /** `createTicket` followed by `updateDrawParticipants`: the ticket is
        pending, NAP2 when no type is given, and the draw (when it exists)
        counts its tickets again. */
    method CreateTicket(draws: DrawStore, id: string, userId: string, username: string, drawId: string,
                        numbers: string, betAmount: int, betType: string, baseNumber: Option<int>,
                        associatedNumbers: seq<int>, position: Option<Position>,
                        combinations: seq<seq<int>>, now: string)
      returns (t: Ticket)
      modifies this, draws
      ensures t == Ticket(id, userId, username, drawId, numbers, betAmount, now, TicketStatus.Pending, None,
                          if betType == "" then "NAP2" else betType, baseNumber, associatedNumbers, position,
                          combinations)
      ensures tickets == old(tickets) + [t] && notifications == old(notifications)
      ensures IndexOfDraw(old(draws.draws), drawId).None? ==> draws.draws == old(draws.draws)
      ensures IndexOfDraw(old(draws.draws), drawId).Some? ==>
        var k := IndexOfDraw(old(draws.draws), drawId).value;
        draws.draws == old(draws.draws)[k := old(draws.draws)[k].(participants := Some(|DrawTickets(tickets, drawId)|))]
    {
      t := Ticket(id, userId, username, drawId, numbers, betAmount, now, TicketStatus.Pending, None,
                  if betType == "" then "NAP2" else betType, baseNumber, associatedNumbers, position, combinations);
      tickets := tickets + [t];
      var drawIndex := IndexOfDraw(draws.draws, drawId);
      if drawIndex.Some? {
        var k := drawIndex.value;
        draws.draws := draws.draws[k := draws.draws[k].(participants := Some(|DrawTickets(tickets, drawId)|))];
      }
    }

    /** One pass of the settlement loop for `ticket`: the stored copy is
        marked, and a winner is notified and credited. */
    method SettleDrawTicket(accounts: AccountStore, ticket: Ticket, draw: Draw, operatorName: string,
                            txId: string, now: string)
      returns (winAmount: int)
      modifies this, accounts
      ensures winAmount == WinAmount(ticket, draw)
      ensures tickets == MarkTicket(old(tickets), ticket, draw)
      ensures notifications == NotifyTicket(old(notifications), ticket, draw, operatorName, now)
      ensures LedgerOf(accounts) == CreditTicket(old(LedgerOf(accounts)), ticket, draw, operatorName, txId, now)
      ensures accounts.resellers == old(accounts.resellers) && accounts.admins == old(accounts.admins)
    {
      winAmount := WinAmount(ticket, draw);
      var matchCount := CountMatches(ticket.numbers, draw.winningNumbers);
      var ticketIndex := IndexOfTicket(tickets, ticket.id);
      if winAmount > 0 {
        if ticketIndex.Some? {
          var j := ticketIndex.value;
          tickets := tickets[j := tickets[j].(status := Won, winAmount := Some(winAmount))];
        }
        notifications := AddWinNotification(notifications, ticket.userId, draw.id, operatorName,
                                            draw.date + " " + draw.time, draw.winningNumbers, ticket.numbers,
                                            matchCount, winAmount, now);
        CreditWinningsToPlayer(accounts, ticket.userId, winAmount, operatorName, txId, now);
      } else {
        if ticketIndex.Some? {
          var j := ticketIndex.value;
          tickets := tickets[j := tickets[j].(status := Lost)];
        }
      }
    }

    /** The settlement loop over the draw's tickets `ts`, in order, with the
        totals it accumulates. */
    method SettleTickets(accounts: AccountStore, ts: seq<Ticket>, draw: Draw, operatorName: string,
                         txId: nat -> string, now: string)
      returns (totalBets: int, totalWinnings: int, winnersCount: nat)
      modifies this, accounts
      ensures totalBets == TotalBets(ts) && totalWinnings == TotalWinnings(ts, draw)
      ensures winnersCount == WinnersCount(ts, draw)
      ensures tickets == MarkTickets(old(tickets), ts, draw)
      ensures notifications == NotifyTickets(old(notifications), ts, draw, operatorName, now)
      ensures LedgerOf(accounts) == CreditTickets(old(LedgerOf(accounts)), ts, draw, operatorName, txId, now)
      ensures accounts.resellers == old(accounts.resellers) && accounts.admins == old(accounts.admins)
    {
      ghost var tickets0, notifications0, ledger0 := tickets, notifications, LedgerOf(accounts);
      totalWinnings, winnersCount, totalBets := 0, 0, 0;
      var i := 0;
      while i < |ts|
        invariant 0 <= i <= |ts|
        invariant totalBets == TotalBets(ts[..i])
        invariant totalWinnings == TotalWinnings(ts[..i], draw)
        invariant winnersCount == WinnersCount(ts[..i], draw)
        invariant tickets == MarkTickets(tickets0, ts[..i], draw)
        invariant notifications == NotifyTickets(notifications0, ts[..i], draw, operatorName, now)
        invariant LedgerOf(accounts) == CreditTickets(ledger0, ts[..i], draw, operatorName, txId, now)
        invariant accounts.resellers == old(accounts.resellers) && accounts.admins == old(accounts.admins)
      {
        TotalsStep(ts, i, draw);
        var ticket := ts[i];
        totalBets := totalBets + ticket.betAmount;
        var winAmount := SettleAt(accounts, ts, i, draw, operatorName, txId, now, tickets0, notifications0, ledger0);
        if winAmount > 0 {
          totalWinnings := totalWinnings + winAmount;
          winnersCount := winnersCount + 1;
        }
        i := i + 1;
      }
      assert ts[..i] == ts;
    }

    /** The settlement of `ts[i]`, stated on the prefixes of `ts` before and
        after it. */
    method SettleAt(accounts: AccountStore, ts: seq<Ticket>, i: nat, draw: Draw, operatorName: string,
                    txId: nat -> string, now: string, ghost tickets0: seq<Ticket>,
                    ghost notifications0: seq<WinNotification>, ghost ledger0: Ledger)
      returns (winAmount: int)
      requires i < |ts|
      requires tickets == MarkTickets(tickets0, ts[..i], draw)
      requires notifications == NotifyTickets(notifications0, ts[..i], draw, operatorName, now)
      requires LedgerOf(accounts) == CreditTickets(ledger0, ts[..i], draw, operatorName, txId, now)
      modifies this, accounts
      ensures winAmount == WinAmount(ts[i], draw)
      ensures tickets == MarkTickets(tickets0, ts[..i + 1], draw)
      ensures notifications == NotifyTickets(notifications0, ts[..i + 1], draw, operatorName, now)
      ensures LedgerOf(accounts) == CreditTickets(ledger0, ts[..i + 1], draw, operatorName, txId, now)
      ensures accounts.resellers == old(accounts.resellers) && accounts.admins == old(accounts.admins)
    {
      SettlementStep(tickets0, notifications0, ledger0, ts, i, draw, operatorName, txId, now);
      winAmount := SettleDrawTicket(accounts, ts[i], draw, operatorName, txId(i), now);
    }

    /** `submitDrawResults`. An unknown draw id changes nothing. Otherwise
        each ticket of the draw, in stored order, is marked won or lost, a
        winner gets a notification and is credited, and the draw is written
        back completed with its totals. */
    method SubmitDrawResults(draws: DrawStore, accounts: AccountStore, drawId: string, winningNumbers: seq<int>,
                             txId: nat -> string, now: string)
      modifies this, draws, accounts
      ensures IndexOfDraw(old(draws.draws), drawId).None? ==>
        tickets == old(tickets) && notifications == old(notifications) && draws.draws == old(draws.draws) &&
        LedgerOf(accounts) == old(LedgerOf(accounts))
      ensures IndexOfDraw(old(draws.draws), drawId).Some? ==>
        var k := IndexOfDraw(old(draws.draws), drawId).value;
        var d := old(draws.draws)[k].(winningNumbers := winningNumbers);
        var ts := DrawTickets(old(tickets), drawId);
        draws.draws == old(draws.draws)[k := CompletedDraw(d, |ts|, WinnersCount(ts, d), TotalBets(ts), TotalWinnings(ts, d))] &&
        tickets == MarkTickets(old(tickets), ts, d) &&
        notifications == NotifyTickets(old(notifications), ts, d, OperatorName(d), now) &&
        LedgerOf(accounts) == CreditTickets(old(LedgerOf(accounts)), ts, d, OperatorName(d), txId, now)
      ensures accounts.resellers == old(accounts.resellers) && accounts.admins == old(accounts.admins)
    {
      var drawIndex := IndexOfDraw(draws.draws, drawId);
      if drawIndex.None? {
        return;
      }
      var k := drawIndex.value;
      var draw := draws.draws[k].(winningNumbers := winningNumbers);
      var operatorName := OperatorName(draw);
      var ts := DrawTickets(tickets, drawId);
      var totalBets, totalWinnings, winnersCount := SettleTickets(accounts, ts, draw, operatorName, txId, now);
      draws.draws := draws.draws[k := CompletedDraw(draw, |ts|, winnersCount, totalBets, totalWinnings)];
    }

    method MarkNotificationAsRead(notificationId: int)
      modifies this
      ensures notifications == MarkRead(old(notifications), notificationId) && tickets == old(tickets)
    {
      notifications := MarkRead(notifications, notificationId);
    }

    method MarkAllNotificationsAsRead(userId: string)
      modifies this
      ensures notifications == MarkAllRead(old(notifications), userId) && tickets == old(tickets)
    {
      notifications := MarkAllRead(notifications, userId);
    }
  }
}

=== FILE: frontend_dump.dfy ===
/**
 * The dump script create_frontend_dump.py: a top-down walk of the project
 * tree from ".", pruning excluded directories before descending, that
 * writes one block per selected file into a single text and counts the
 * files it could read. The file system is an abstract tree whose files
 * carry the outcome of reading them; `sep` stands for `os.sep`.
 */
module FrontendDump {
  import opened Common

  const IncludeExtensions: seq<string> :=
    [".ts", ".tsx", ".js", ".jsx", ".vue", ".svelte", ".css", ".scss", ".html",
     "package.json", "vite.config.ts", "tailwind.config.js"]

  const ExcludeDirs: set<string> :=
    {"node_modules", "dist", "build", ".git", "public", "assets", ".vscode", "__pycache__"}

  const ExcludeFiles: set<string> := {"package-lock.json", "yarn.lock", ".env"}

  const SearchRoot := "."
  const Header := "# Dump du code source du projet LOTO-HAPPY-FRONTEND\n\n"
  const FileLabel := "--- FICHIER : "
  const LabelEnd := " ---\n"
  const ErrorLabel := "!!! ERREUR de lecture du fichier "
  const RuleWidth := 80

  /** What reading a file gives: its text, or the exception's message. */
  datatype ReadResult = Content(text: string) | ReadError(reason: string)

  datatype Entry = File(name: string, read: ReadResult) | Dir(name: string, children: seq<Entry>)

  /** One emitted file: the directories from the root down to it, its name
      and what reading it gave. */
  datatype Item = Item(dirs: seq<string>, name: string, read: ReadResult)

  function Size(e: Entry): nat
    decreases e
  {
    match e
    case File(_, _) => 1
    case Dir(_, children) => 1 + SizeAll(children)
  }

  function SizeAll(es: seq<Entry>): nat
    decreases es
  {
    if es == [] then 0 else SizeAll(es[..|es| - 1]) + Size(es[|es| - 1])
  }

  lemma {:induction false} EntrySmallerThanList(es: seq<Entry>, k: nat)
    requires k < |es|
    ensures Size(es[k]) <= SizeAll(es)
  {
    if k < |es| - 1 {
      EntrySmallerThanList(es[..|es| - 1], k);
    }
  }

  /** The test at line 60: the name ends with one of the extensions and is
      not one of the excluded names. */
  predicate Selected(name: string)
  {
    EndsWithAny(name, IncludeExtensions) && name !in ExcludeFiles
  }

  /** `dirs[:] = [d for d in dirs if d not in EXCLUDE_DIRS]`: the
      subdirectories the walk still enters, in listing order. */
  function KeptDirs(es: seq<Entry>): (r: seq<Entry>)
    ensures forall i :: 0 <= i < |r| ==> r[i].Dir? && r[i].name !in ExcludeDirs && r[i] in es
    ensures forall i :: 0 <= i < |es| && es[i].Dir? && es[i].name !in ExcludeDirs ==> es[i] in r
  {
    if es == [] then []
    else
      var last := es[|es| - 1];
      KeptDirs(es[..|es| - 1]) + (if last.Dir? && last.name !in ExcludeDirs then [last] else [])
  }

  lemma {:induction false} KeptDirsSize(es: seq<Entry>)
    ensures SizeAll(KeptDirs(es)) <= SizeAll(es)
  {
    if es != [] {
      var init := es[..|es| - 1];
      var last := es[|es| - 1];
      KeptDirsSize(init);
      assert SizeAll(es) == SizeAll(init) + Size(last);
      if last.Dir? && last.name !in ExcludeDirs {
        var r := KeptDirs(init) + [last];
        assert KeptDirs(es) == r;
        assert r[..|r| - 1] == KeptDirs(init);
        assert SizeAll(r) == SizeAll(KeptDirs(init)) + Size(last);
      } else {
        assert KeptDirs(es) == KeptDirs(init);
      }
    }
  }

  /** The selected files among one directory's entries, in listing order. */
  function FileItems(dirs: seq<string>, es: seq<Entry>): (r: seq<Item>)
    ensures forall i :: 0 <= i < |r| ==> Selected(r[i].name) && r[i].dirs == dirs
    ensures forall i :: 0 <= i < |es| && es[i].File? && Selected(es[i].name) ==>
              Item(dirs, es[i].name, es[i].read) in r
  {
    if es == [] then []
    else
      var last := es[|es| - 1];
      FileItems(dirs, es[..|es| - 1])
      + (if last.File? && Selected(last.name) then [Item(dirs, last.name, last.read)] else [])
  }

  /** The items a directory's walk emits: its own selected files, then each
      kept subdirectory's walk in order. Every item is a selected file and
      lies below `dirs` through no excluded directory. */
  function Emitted(dirs: seq<string>, es: seq<Entry>): (r: seq<Item>)
    ensures forall i :: 0 <= i < |r| ==> Selected(r[i].name) && dirs <= r[i].dirs
    ensures forall i, j :: 0 <= i < |r| && |dirs| <= j < |r[i].dirs| ==> r[i].dirs[j] !in ExcludeDirs
    decreases SizeAll(es), 1
  {
    KeptDirsSize(es);
    FileItems(dirs, es) + SubdirItems(dirs, KeptDirs(es))
  }

  function SubdirItems(dirs: seq<string>, subdirs: seq<Entry>): (r: seq<Item>)
    requires forall i :: 0 <= i < |subdirs| ==> subdirs[i].Dir? && subdirs[i].name !in ExcludeDirs
    ensures forall i :: 0 <= i < |r| ==> Selected(r[i].name) && dirs <= r[i].dirs
    ensures forall i, j :: 0 <= i < |r| && |dirs| <= j < |r[i].dirs| ==> r[i].dirs[j] !in ExcludeDirs
    decreases SizeAll(subdirs), 0
  {
    if subdirs == [] then []
    else
      var last := subdirs[|subdirs| - 1];
      assert SizeAll(subdirs) == SizeAll(subdirs[..|subdirs| - 1]) + Size(last);
      assert Size(last) == 1 + SizeAll(last.children);
      var below := Emitted(dirs + [last.name], last.children);
      assert forall i :: 0 <= i < |below| ==> below[i].dirs[|dirs|] == last.name;
      SubdirItems(dirs, subdirs[..|subdirs| - 1]) + below
  }

  /** A selected file directly in a directory is emitted. */
  lemma FileIsEmitted(dirs: seq<string>, es: seq<Entry>, k: nat)
    requires k < |es| && es[k].File? && Selected(es[k].name)
    ensures Item(dirs, es[k].name, es[k].read) in Emitted(dirs, es)
  {
  }

  /** Everything a kept subdirectory emits is emitted by its parent. */
  lemma SubdirIsWalked(dirs: seq<string>, es: seq<Entry>, k: nat)
    requires k < |es| && es[k].Dir? && es[k].name !in ExcludeDirs
    ensures forall it :: it in Emitted(dirs + [es[k].name], es[k].children) ==> it in Emitted(dirs, es)
  {
    var kept := KeptDirs(es);
    var m :| 0 <= m < |kept| && kept[m] == es[k];
    SubdirContains(dirs, kept, m);
  }

  lemma {:induction false} SubdirContains(dirs: seq<string>, subdirs: seq<Entry>, m: nat)
    requires forall i :: 0 <= i < |subdirs| ==> subdirs[i].Dir? && subdirs[i].name !in ExcludeDirs
    requires m < |subdirs|
    ensures forall it :: it in Emitted(dirs + [subdirs[m].name], subdirs[m].children) ==>
              it in SubdirItems(dirs, subdirs)
    decreases |subdirs|
  {
    if m < |subdirs| - 1 {
      SubdirContains(dirs, subdirs[..|subdirs| - 1], m);
    }
  }

  /** `s.replace(from, to)` with one-character strings: every occurrence. */
  function ReplaceChar(s: string, from: char, to: char): (r: string)
    ensures |r| == |s|
    ensures forall i :: 0 <= i < |s| ==> r[i] == (if s[i] == from then to else s[i])
  {
    seq(|s|, i requires 0 <= i < |s| => if s[i] == from then to else s[i])
  }

  /** `os.path.join` from the root down to the file. */
  function JoinedPath(it: Item, sep: char): string
  {
    Join([SearchRoot] + it.dirs + [it.name], [sep])
  }

  /** `file_path.replace(os.sep, '/')`. */
  function DisplayPath(it: Item, sep: char): (r: string)
    ensures |r| == |JoinedPath(it, sep)|
    ensures sep != '/' ==> sep !in r
  {
    ReplaceChar(JoinedPath(it, sep), sep, '/')
  }

  lemma ReplaceCharAppend(a: string, b: string, from: char, to: char)
    ensures ReplaceChar(a + b, from, to) == ReplaceChar(a, from, to) + ReplaceChar(b, from, to)
  {
  }

  /** Names free of both separators: the displayed path is the names
      joined with '/', whatever the platform's separator. */
  lemma {:induction false} DisplayPathUsesSlashes(parts: seq<string>, sep: char)
    requires forall i :: 0 <= i < |parts| ==> sep !in parts[i] && '/' !in parts[i]
    ensures ReplaceChar(Join(parts, [sep]), sep, '/') == Join(parts, "/")
  {
    if |parts| > 1 {
      DisplayPathUsesSlashes(parts[1..], sep);
      ReplaceCharAppend(parts[0], [sep] + Join(parts[1..], [sep]), sep, '/');
      ReplaceCharAppend([sep], Join(parts[1..], [sep]), sep, '/');
      assert ReplaceChar(parts[0], sep, '/') == parts[0];
    } else if |parts| == 1 {
      assert ReplaceChar(parts[0], sep, '/') == parts[0];
    }
  }

  /** The two rules around the label line, then the blank line. */
  function BlockHead(path: string): (r: string)
    ensures |r| == 2 * RuleWidth + |FileLabel| + |path| + |LabelEnd| + 3
  {
    var rule := Repeat('=', RuleWidth);
    rule + "\n" + FileLabel + path + LabelEnd + rule + "\n\n"
  }

  /** What follows the head: the content, or the error line, and the two
      closing newlines. */
  function BlockBody(read: ReadResult, path: string): string
  {
    match read
    case Content(text) => text + "\n\n"
    case ReadError(reason) => ErrorLabel + path + ": " + reason + "\n\n"
  }

  /** The text written for an item: a rule of 80 '=', the label line, a
      second rule, a blank line, then the content and two newlines, or the
      error line when the read failed. */
  function Block(it: Item, sep: char): string
  {
    var path := DisplayPath(it, sep);
    BlockHead(path) + BlockBody(it.read, path)
  }

  /** The block starts with the rule, shows the path at a fixed place, ends
      with two newlines, and the content can be read back from its fixed
      place after the head. */
  lemma BlockLayout(it: Item, sep: char)
    ensures var r := Block(it, sep);
            var path := DisplayPath(it, sep);
            var start := 2 * RuleWidth + |FileLabel| + |path| + |LabelEnd| + 3;
            start <= |r| - 2 && r[..RuleWidth] == Repeat('=', RuleWidth)
            && r[RuleWidth + 1 + |FileLabel|..RuleWidth + 1 + |FileLabel| + |path|] == path
            && r[|r| - 2..] == "\n\n"
            && (it.read.Content? ==> r[start..|r| - 2] == it.read.text)
  {
    var path := DisplayPath(it, sep);
    var head := BlockHead(path);
    var body := BlockBody(it.read, path);
    var rule := Repeat('=', RuleWidth);
    assert head == rule + ("\n" + FileLabel) + path + (LabelEnd + rule + "\n\n");
    assert (head + body)[..RuleWidth] == rule;
    assert (head + body)[RuleWidth + 1 + |FileLabel|..RuleWidth + 1 + |FileLabel| + |path|] == path;
  }

  /** The blocks of the items, in order. */
  function Render(items: seq<Item>, sep: char): string
  {
    if items == [] then "" else Render(items[..|items| - 1], sep) + Block(items[|items| - 1], sep)
  }

  lemma {:induction false} RenderAppend(a: seq<Item>, b: seq<Item>, sep: char)
    ensures Render(a + b, sep) == Render(a, sep) + Render(b, sep)
    decreases |b|
  {
    if b == [] {
      assert a + b == a;
    } else {
      assert (a + b)[..|a + b| - 1] == a + b[..|b| - 1];
      RenderAppend(a, b[..|b| - 1], sep);
    }
  }

  predicate ReadOk(it: Item)
  {
    it.read.Content?
  }

  /** The output file and the counter of `dump_frontend_code`. */
  class Dumper {
    var output: string
    var fileCount: nat
    const sep: char

    /** Opening the output for writing truncates it to the header. */
    constructor(sep: char)
      ensures output == Header && fileCount == 0 && this.sep == sep
    {
      output := Header;
      fileCount := 0;
      this.sep := sep;
    }

    /** Lines 61-78 for one selected file at `path`: the counter grows
        only when the read succeeds. */
    method EmitFile(path: string, read: ReadResult, ghost dirs: seq<string>, ghost name: string)
      requires path == JoinedPath(Item(dirs, name, read), sep)
      modifies this
      ensures output == old(output) + Block(Item(dirs, name, read), sep)
      ensures fileCount == old(fileCount) + (if read.Content? then 1 else 0)
    {
      var normalized := ReplaceChar(path, sep, '/');
      output := output + BlockHead(normalized);
      match read {
        case Content(text) =>
          output := output + (text + "\n\n");
          fileCount := fileCount + 1;
        case ReadError(reason) =>
          output := output + (ErrorLabel + normalized + ": " + reason + "\n\n");
      }
    }

    /** One `os.walk` step: the selected files of the directory at `root`,
        whose path from the search root is `dirs`. */
    method WalkFiles(root: string, ghost dirs: seq<string>, es: seq<Entry>)
      requires root == Join([SearchRoot] + dirs, [sep])
      modifies this
      ensures output == old(output) + Render(FileItems(dirs, es), sep)
      ensures fileCount == old(fileCount) + Count(FileItems(dirs, es), ReadOk)
    {
      var k := 0;
      ghost var done: seq<Item> := [];
      while k < |es|
        invariant 0 <= k <= |es|
        invariant done == FileItems(dirs, es[..k])
        invariant output == old(output) + Render(done, sep)
        invariant fileCount == old(fileCount) + Count(done, ReadOk)
      {
        assert es[..k + 1][..k] == es[..k];
        var e := es[k];
        if e.File? && Selected(e.name) {
          JoinSnoc([SearchRoot] + dirs, e.name, [sep]);
          ghost var it := Item(dirs, e.name, e.read);
          assert (done + [it])[..|done|] == done;
          EmitFile(root + [sep] + e.name, e.read, dirs, e.name);
          AppendAssociates(old(output), Render(done, sep), Block(it, sep));
          done := done + [it];
        }
        k := k + 1;
      }
      assert es[..k] == es;
    }

    /** The walk of the directory at `root`: its files, then the kept
        subdirectories. */
    method WalkDir(root: string, ghost dirs: seq<string>, es: seq<Entry>)
      requires root == Join([SearchRoot] + dirs, [sep])
      modifies this
      ensures output == old(output) + Render(Emitted(dirs, es), sep)
      ensures fileCount == old(fileCount) + Count(Emitted(dirs, es), ReadOk)
      decreases SizeAll(es), 2
    {
      WalkFiles(root, dirs, es);
      var subdirs := KeptDirs(es);
      KeptDirsSize(es);
      WalkSubdirs(root, dirs, subdirs);
      RenderAppend(FileItems(dirs, es), SubdirItems(dirs, subdirs), sep);
      CountAppend(FileItems(dirs, es), SubdirItems(dirs, subdirs), ReadOk);
      AppendAssociates(old(output), Render(FileItems(dirs, es), sep), Render(SubdirItems(dirs, subdirs), sep));
    }

    /** The descent into the subdirectories left after pruning. */
    method WalkSubdirs(root: string, ghost dirs: seq<string>, subdirs: seq<Entry>)
      requires root == Join([SearchRoot] + dirs, [sep])
      requires forall i :: 0 <= i < |subdirs| ==> subdirs[i].Dir? && subdirs[i].name !in ExcludeDirs
      modifies this
      ensures output == old(output) + Render(SubdirItems(dirs, subdirs), sep)
      ensures fileCount == old(fileCount) + Count(SubdirItems(dirs, subdirs), ReadOk)
      decreases SizeAll(subdirs), 1
    {
      var j := 0;
      while j < |subdirs|
        invariant 0 <= j <= |subdirs|
        invariant output == old(output) + Render(SubdirItems(dirs, subdirs[..j]), sep)
        invariant fileCount == old(fileCount) + Count(SubdirItems(dirs, subdirs[..j]), ReadOk)
      {
        var d := subdirs[j];
        ChildSmaller(subdirs, j);
        SubdirStep(dirs, subdirs, j, sep);
        ghost var before := SubdirItems(dirs, subdirs[..j]);
        ghost var below := Emitted(dirs + [d.name], d.children);
        ChildPath(root, dirs, d.name, sep);
        WalkDir(root + [sep] + d.name, dirs + [d.name], d.children);
        AppendAssociates(old(output), Render(before, sep), Render(below, sep));
        j := j + 1;
      }
      assert subdirs[..j] == subdirs;
    }
  }

  lemma ChildSmaller(subdirs: seq<Entry>, j: nat)
    requires j < |subdirs| && subdirs[j].Dir?
    ensures SizeAll(subdirs[j].children) < SizeAll(subdirs)
  {
    EntrySmallerThanList(subdirs, j);
  }

  /** `os.path.join(root, name)` for the directory below `root`. */
  lemma ChildPath(root: string, dirs: seq<string>, name: string, sep: char)
    requires root == Join([SearchRoot] + dirs, [sep])
    ensures root + [sep] + name == Join([SearchRoot] + (dirs + [name]), [sep])
  {
    JoinSnoc([SearchRoot] + dirs, name, [sep]);
    assert [SearchRoot] + dirs + [name] == [SearchRoot] + (dirs + [name]);
  }

  /** Walking one more subdirectory appends its walk. */
  lemma SubdirStep(dirs: seq<string>, subdirs: seq<Entry>, j: nat, sep: char)
    requires forall i :: 0 <= i < |subdirs| ==> subdirs[i].Dir? && subdirs[i].name !in ExcludeDirs
    requires j < |subdirs|
    ensures var before := SubdirItems(dirs, subdirs[..j]);
            var below := Emitted(dirs + [subdirs[j].name], subdirs[j].children);
            SubdirItems(dirs, subdirs[..j + 1]) == before + below
            && Render(before + below, sep) == Render(before, sep) + Render(below, sep)
            && Count(before + below, ReadOk) == Count(before, ReadOk) + Count(below, ReadOk)
  {
    assert subdirs[..j + 1][..j] == subdirs[..j];
    var before := SubdirItems(dirs, subdirs[..j]);
    var below := Emitted(dirs + [subdirs[j].name], subdirs[j].children);
    RenderAppend(before, below, sep);
    CountAppend(before, below, ReadOk);
  }

  lemma AppendAssociates(a: string, b: string, c: string)
    ensures a + b + c == a + (b + c)
  {
  }

  lemma {:induction false} JoinSnoc(parts: seq<string>, last: string, sep: string)
    requires |parts| > 0
    ensures Join(parts + [last], sep) == Join(parts, sep) + sep + last
    decreases |parts|
  {
    if |parts| > 1 {
      assert (parts + [last])[1..] == parts[1..] + [last];
      JoinSnoc(parts[1..], last, sep);
    }
  }

  /** `dump_frontend_code` on the tree under ".". */
  method Dump(tree: seq<Entry>, sep: char) returns (output: string, fileCount: nat)
    ensures output == Header + Render(Emitted([], tree), sep)
    ensures fileCount == Count(Emitted([], tree), ReadOk)
  {
    var dumper := new Dumper(sep);
    dumper.WalkDir(SearchRoot, [], tree);
    output, fileCount := dumper.output, dumper.fileCount;
  }
}

=== FILE: game_screen.dfy ===
/**
 * The bet slip of the advanced game screen (src/components/GameScreenAdvanced.tsx):
 * the number selection, the stake, the total cost and potential win shown,
 * and the guards before a ticket is submitted. The loaded draw, the bet
 * type and the play balance are parameters; the submission itself is the
 * returned request.
 */
module GameScreen {
  import opened Common
  import opened Games
  import opened Payout

  // ---------------------------------------------------------------------
  // Sorting the selection: `.sort((a, b) => a - b)`
  // ---------------------------------------------------------------------

  predicate Ascending(s: seq<nat>)
  {
    forall i, j :: 0 <= i < j < |s| ==> s[i] <= s[j]
  }

  predicate StrictlyAscending(s: seq<nat>)
  {
    forall i, j :: 0 <= i < j < |s| ==> s[i] < s[j]
  }

  /** `x` placed before the first element larger than it, as a stable sort
      places the last element. */
  function InsertAscending(s: seq<nat>, x: nat): (r: seq<nat>)
    ensures multiset(r) == multiset(s) + multiset{x}
  {
    if s == [] || x < s[0] then [x] + s
    else
      assert s == [s[0]] + s[1..];
      [s[0]] + InsertAscending(s[1..], x)
  }

  lemma {:induction false} InsertAscendingOrdered(s: seq<nat>, x: nat)
    requires Ascending(s)
    ensures Ascending(InsertAscending(s, x))
  {
    if s != [] && x >= s[0] {
      var rest := InsertAscending(s[1..], x);
      InsertAscendingOrdered(s[1..], x);
      forall k | 0 <= k < |rest|
        ensures s[0] <= rest[k]
      {
        assert rest[k] in multiset(rest);
        assert rest[k] in s[1..] || rest[k] == x;
      }
      ConsAscending(s[0], rest);
    }
  }

  lemma ConsAscending(h: nat, rest: seq<nat>)
    requires Ascending(rest) && forall k :: 0 <= k < |rest| ==> h <= rest[k]
    ensures Ascending([h] + rest)
  {
  }

  /** No new duplicate: inserting a number absent from a strictly ascending
      selection keeps it strictly ascending. */
  lemma {:induction false} InsertAscendingStrict(s: seq<nat>, x: nat)
    requires StrictlyAscending(s) && x !in s
    ensures StrictlyAscending(InsertAscending(s, x))
  {
    if s != [] && x > s[0] {
      var rest := InsertAscending(s[1..], x);
      InsertAscendingStrict(s[1..], x);
      forall k | 0 <= k < |rest|
        ensures s[0] < rest[k]
      {
        assert rest[k] in multiset(rest);
        assert rest[k] in s[1..] || rest[k] == x;
      }
      ConsStrict(s[0], rest);
    }
  }

  lemma ConsStrict(h: nat, rest: seq<nat>)
    requires StrictlyAscending(rest) && forall k :: 0 <= k < |rest| ==> h < rest[k]
    ensures StrictlyAscending([h] + rest)
  {
  }

  /** Inserting a number not smaller than any element appends it. */
  lemma {:induction false} InsertAscendingLast(s: seq<nat>, x: nat)
    requires forall i :: 0 <= i < |s| ==> s[i] <= x
    ensures InsertAscending(s, x) == s + [x]
  {
    if s != [] {
      InsertAscendingLast(s[1..], x);
      assert [s[0]] + (s[1..] + [x]) == s + [x];
    }
  }

  /** `array.sort((a, b) => a - b)` on numbers. */
  function SortAscending(s: seq<nat>): (r: seq<nat>)
    ensures multiset(r) == multiset(s)
    ensures Ascending(r)
  {
    if s == [] then []
    else
      var init := SortAscending(s[..|s| - 1]);
      InsertAscendingOrdered(init, s[|s| - 1]);
      assert s == s[..|s| - 1] + [s[|s| - 1]];
      InsertAscending(init, s[|s| - 1])
  }

  /** Sorting an already sorted selection leaves it as it is. */
  lemma {:induction false} SortAscendingSorted(s: seq<nat>)
    requires Ascending(s)
    ensures SortAscending(s) == s
  {
    if s != [] {
      var init := s[..|s| - 1];
      SortAscendingSorted(init);
      InsertAscendingLast(init, s[|s| - 1]);
    }
  }

  // ---------------------------------------------------------------------
  // `toggleNumber`
  // ---------------------------------------------------------------------

  /** The selection after pressing `num`: a selected number is removed; a new
      one is added (and the selection sorted) only while fewer than
      `maxNumbers` are selected; otherwise nothing changes. */
  function Toggle(selected: seq<nat>, num: nat, maxNumbers: nat): (r: seq<nat>)
    ensures num in selected ==> num !in r && forall x :: x in r <==> x in selected && x != num
    ensures num !in selected && |selected| < maxNumbers ==>
              multiset(r) == multiset(selected) + multiset{num} && Ascending(r)
    ensures num !in selected && |selected| >= maxNumbers ==> r == selected
  {
    if num in selected then Filter(selected, (n: nat) => n != num)
    else if |selected| < maxNumbers then SortAscending(selected + [num])
    else selected
  }

  /** What the screen keeps true of the selection: sorted, without
      duplicates and within the bet type's maximum. */
  predicate SelectionOk(selected: seq<nat>, maxNumbers: nat)
  {
    StrictlyAscending(selected) && |selected| <= maxNumbers
  }

  lemma {:induction false} FilterKeepsStrict(s: seq<nat>, p: nat -> bool)
    requires StrictlyAscending(s)
    ensures StrictlyAscending(Filter(s, p))
  {
    if s != [] {
      var init, last := s[..|s| - 1], s[|s| - 1];
      FilterKeepsStrict(init, p);
      var r := Filter(init, p);
      forall k | 0 <= k < |r|
        ensures r[k] < last
      {
        var w :| 0 <= w < |init| && init[w] == r[k];
      }
    }
  }

  /** `toggleNumber` keeps the selection sorted, duplicate-free and within
      the maximum. */
  lemma ToggleKeepsSelectionOk(selected: seq<nat>, num: nat, maxNumbers: nat)
    requires SelectionOk(selected, maxNumbers)
    ensures SelectionOk(Toggle(selected, num, maxNumbers), maxNumbers)
  {
    if num in selected {
      FilterKeepsStrict(selected, (n: nat) => n != num);
    } else if |selected| < maxNumbers {
      SortAscendingSorted(selected);
      assert selected + [num] == (selected + [num])[..|selected|] + [num];
      assert (selected + [num])[..|selected|] == selected;
      assert SortAscending(selected + [num]) == InsertAscending(selected, num);
      InsertAscendingStrict(selected, num);
      assert |multiset(Toggle(selected, num, maxNumbers))| == |selected| + 1;
    }
  }

  // ---------------------------------------------------------------------
  // Cost, potential win and submission
  // ---------------------------------------------------------------------

  /** `getTotalCost`: one stake per generated pair for PERMUTATION, a single
      stake otherwise. */
  function TotalCost(t: BetType, selectedCount: nat, betAmount: int): (r: int)
    ensures t != Permutation ==> r == betAmount
    ensures t == Permutation && selectedCount < 2 ==> r == 0
    ensures betAmount >= 0 ==> r >= 0
  {
    if t == Permutation then PermutationCombinations(selectedCount) * betAmount else betAmount
  }

  /** A PERMUTATION costs one stake for each pair `generateNAP2Combinations`
      produces from the selection. */
  lemma PermutationCostPerPair(selected: seq<nat>, betAmount: int)
    ensures TotalCost(Permutation, |selected|, betAmount) == |Nap2Pairs(selected)| * betAmount
  {
    Nap2PairsCount(selected);
  }

  /** From two selected numbers on there is at least one pair, and the
      per-pair share the payout rule takes back from a PERMUTATION ticket's
      total stake is the stake chosen on the screen. */
  lemma PermutationShareIsStake(selected: seq<nat>, betAmount: int)
    requires |selected| >= 2
    ensures |Nap2Pairs(selected)| > 0
    ensures TotalCost(Permutation, |selected|, betAmount) / |Nap2Pairs(selected)| == betAmount
  {
    var k := |selected|;
    var n := |Nap2Pairs(selected)|;
    Nap2PairsCount(selected);
    assert n == (k * (k - 1)) / 2;
    MulMono(1, k - 1, k);
    assert k * (k - 1) >= 2;
    assert n >= 1;
    MulDivCancel(n, betAmount);
    assert TotalCost(Permutation, k, betAmount) == n * betAmount;
  }

  /** `betAmount * multiplier`, the multiplier being the draw's own value for
      the type or the type's default. */
  function PotentialWin(d: Draw, t: BetType, betAmount: int): (r: int)
    ensures t in d.multipliers ==> r == betAmount * d.multipliers[t]
    ensures t !in d.multipliers ==> r == betAmount * Config(t).defaultMultiplier
  {
    betAmount * MultiplierFor(d, t)
  }

  /** A NAP ticket placed from the screen that wins pays exactly the
      potential win shown. */
  lemma NapTicketPaysPotentialWin(tk: Ticket, d: Draw, t: BetType, selected: seq<nat>, betAmount: int)
    requires IsNap(t) && EffectiveBetType(tk) == Some(t)
    requires |selected| >= 1 && tk.numbers == FormatNumbers(selected)
    requires tk.betAmount == TotalCost(t, |selected|, betAmount)
    requires forall i :: 0 <= i < |selected| ==> selected[i] as int in d.winningNumbers
    ensures WinAmount(tk, d) == PotentialWin(d, t, betAmount)
  {
    NapSelectionWins(tk, d, selected);
  }

  /** The `createTicket` call. */
  datatype BetRequest = BetRequest(drawId: string, betType: BetType, numbers: string, betAmount: int)

  /** What `handlePlaceBet` does: refuse a selection below the type's
      minimum (naming it), refuse a cost above the balance (and open the
      recharge dialog), or submit. */
  datatype PlaceOutcome = TooFewNumbers(minNumbers: nat) | InsufficientBalance | Placed(request: BetRequest)

  function PlaceBetCheck(drawId: string, t: BetType, selected: seq<nat>, betAmount: int, playBalance: int)
    : (r: PlaceOutcome)
    ensures r.Placed? <==>
      |selected| >= Config(t).minNumbers && TotalCost(t, |selected|, betAmount) <= playBalance
    ensures |selected| < Config(t).minNumbers ==> r == TooFewNumbers(Config(t).minNumbers)
    ensures r.Placed? ==>
      r.request == BetRequest(drawId, t, FormatNumbers(selected), TotalCost(t, |selected|, betAmount))
  {
    if |selected| < Config(t).minNumbers then TooFewNumbers(Config(t).minNumbers)
    else if TotalCost(t, |selected|, betAmount) > playBalance then InsufficientBalance
    else Placed(BetRequest(drawId, t, FormatNumbers(selected), TotalCost(t, |selected|, betAmount)))
  }

  /** The numbers of a submitted request read back, one by one, as the
      selection. */
  lemma PlacedNumbersReadBack(drawId: string, t: BetType, selected: seq<nat>, betAmount: int, playBalance: int)
    requires PlaceBetCheck(drawId, t, selected, betAmount, playBalance).Placed?
    ensures var nums := ParseNumbers(PlaceBetCheck(drawId, t, selected, betAmount, playBalance).request.numbers);
            |nums| == |selected| && forall i :: 0 <= i < |selected| ==> nums[i] == Some(selected[i] as int)
  {
    ParseFormatNumbers(selected);
  }

  /** The custom stake field: the stake changes only to a parsed
      non-negative integer. */
  function CustomBet(text: string, current: int): (r: int)
    ensures r == current || (ParseInt(text) == Some(r) && r >= 0)
    ensures ParseInt(text).None? || ParseInt(text).value < 0 ==> r == current
  {
    match ParseInt(text)
    case Some(n) => if n >= 0 then n else current
    case None => current
  }

  /** A stake typed as plain digits is taken as is. */
  lemma CustomBetDigits(n: nat, current: int)
    ensures CustomBet(NatToString(n), current) == n
  {
    ParseIntNatToString(n, []);
    assert NatToString(n) + [] == NatToString(n);
  }

  const InitialStakeText: string := "100"

  /** The screen's state. */
  class BetSlip {
    var selectedNumbers: seq<nat>
    var betAmount: int
    var customBetInput: string
    var rechargeOpen: bool

    constructor ()
      ensures selectedNumbers == [] && betAmount == 100 && customBetInput == InitialStakeText
      ensures !rechargeOpen
    {
      selectedNumbers := [];
      betAmount := 100;
      customBetInput := InitialStakeText;
      rechargeOpen := false;
    }

    method ToggleNumber(num: nat, t: BetType)
      requires SelectionOk(selectedNumbers, Config(t).maxNumbers)
      modifies this
      ensures selectedNumbers == Toggle(old(selectedNumbers), num, Config(t).maxNumbers)
      ensures SelectionOk(selectedNumbers, Config(t).maxNumbers)
      ensures betAmount == old(betAmount) && customBetInput == old(customBetInput)
      ensures rechargeOpen == old(rechargeOpen)
    {
      ToggleKeepsSelectionOk(selectedNumbers, num, Config(t).maxNumbers);
      selectedNumbers := Toggle(selectedNumbers, num, Config(t).maxNumbers);
    }

    /** One of the 100 / 500 / 1000 buttons. */
    method ChooseStake(amount: nat)
      modifies this
      ensures betAmount == amount && customBetInput == NatToString(amount)
      ensures selectedNumbers == old(selectedNumbers) && rechargeOpen == old(rechargeOpen)
    {
      betAmount := amount;
      customBetInput := NatToString(amount);
    }

    method EditCustomBet(text: string)
      modifies this
      ensures customBetInput == text && betAmount == CustomBet(text, old(betAmount))
      ensures selectedNumbers == old(selectedNumbers) && rechargeOpen == old(rechargeOpen)
    {
      customBetInput := text;
      betAmount := CustomBet(text, betAmount);
    }

    /** `handlePlaceBet`; a refusal for the balance opens the recharge dialog. */
    method PlaceBet(drawId: string, t: BetType, playBalance: int) returns (outcome: PlaceOutcome)
      modifies this
      ensures outcome == PlaceBetCheck(drawId, t, old(selectedNumbers), old(betAmount), playBalance)
      ensures rechargeOpen == (old(rechargeOpen) || outcome.InsufficientBalance?)
      ensures selectedNumbers == old(selectedNumbers) && betAmount == old(betAmount)
      ensures customBetInput == old(customBetInput)
    {
      outcome := PlaceBetCheck(drawId, t, selectedNumbers, betAmount, playBalance);
      if outcome.InsufficientBalance? {
        rechargeOpen := true;
      }
    }
  }
}

=== FILE: games.dfy ===
/**
 * Lottery configuration and the stored draw list (src/utils/games.ts):
 * the nine bet types and their limits, the five lottery operators, the
 * PERMUTATION pair generation and its count, the ANAGRAMME digit
 * inversion, and the create / update / delete operations on the draws.
 */
module Games {
  import opened Common

  datatype BetType =
    | Nap1 | Nap2 | Nap3 | Nap4 | Nap5
    | Permutation | Banka | ChancePlus | Anagramme

  /** The identifier each bet type is stored under. */
  function BetTypeName(t: BetType): string
  {
    match t
    case Nap1 => "NAP1"
    case Nap2 => "NAP2"
    case Nap3 => "NAP3"
    case Nap4 => "NAP4"
    case Nap5 => "NAP5"
    case Permutation => "PERMUTATION"
    case Banka => "BANKA"
    case ChancePlus => "CHANCE_PLUS"
    case Anagramme => "ANAGRAMME"
  }

  /** Reading a stored identifier back; any other string is no bet type. */
  function BetTypeFromName(s: string): (r: Option<BetType>)
    ensures r.Some? ==> BetTypeName(r.value) == s
  {
    if s == "NAP1" then Some(Nap1)
    else if s == "NAP2" then Some(Nap2)
    else if s == "NAP3" then Some(Nap3)
    else if s == "NAP4" then Some(Nap4)
    else if s == "NAP5" then Some(Nap5)
    else if s == "PERMUTATION" then Some(Permutation)
    else if s == "BANKA" then Some(Banka)
    else if s == "CHANCE_PLUS" then Some(ChancePlus)
    else if s == "ANAGRAMME" then Some(Anagramme)
    else None
  }

  lemma {:induction false} BetTypeNameRoundTrip(t: BetType)
    ensures BetTypeFromName(BetTypeName(t)) == Some(t)
  {
    match t
    case Nap1 =>
    case Nap2 =>
    case Nap3 =>
    case Nap4 =>
    case Nap5 =>
    case Permutation =>
    case Banka =>
    case ChancePlus =>
    case Anagramme =>
  }

  datatype BetTypeConfig = BetTypeConfig(
    id: BetType,
    minNumbers: nat,
    maxNumbers: nat,
    requiresPosition: bool,
    requiresBase: bool,
    autoGeneratesCombinations: bool,
    defaultMultiplier: nat)

  /** `BET_TYPES_CONFIG`. */
  function Config(t: BetType): (c: BetTypeConfig)
    ensures c.id == t
    ensures 1 <= c.minNumbers <= c.maxNumbers
    ensures c.defaultMultiplier > 0
    ensures c.requiresPosition <==> t == ChancePlus
    ensures c.requiresBase <==> t == Banka
    ensures c.autoGeneratesCombinations <==> t == Permutation
  {
    match t
    case Nap1 => BetTypeConfig(Nap1, 1, 1, false, false, false, 10)
    case Nap2 => BetTypeConfig(Nap2, 2, 2, false, false, false, 500)
    case Nap3 => BetTypeConfig(Nap3, 3, 3, false, false, false, 2500)
    case Nap4 => BetTypeConfig(Nap4, 4, 4, false, false, false, 10000)
    case Nap5 => BetTypeConfig(Nap5, 5, 5, false, false, false, 100000)
    case Permutation => BetTypeConfig(Permutation, 3, 10, false, false, true, 500)
    case Banka => BetTypeConfig(Banka, 2, 11, false, true, false, 500)
    case ChancePlus => BetTypeConfig(ChancePlus, 1, 1, true, false, false, 90)
    case Anagramme => BetTypeConfig(Anagramme, 1, 1, false, false, false, 10)
  }

  /** The nine bet types in their configured order. */
  const AllBetTypes: seq<BetType> :=
    [Nap1, Nap2, Nap3, Nap4, Nap5, Permutation, Banka, ChancePlus, Anagramme]

  lemma AllBetTypesComplete()
    ensures forall t: BetType :: t in AllBetTypes
  {
    forall t: BetType
      ensures t in AllBetTypes
    {
      match t
      case Nap1 => case Nap2 => case Nap3 => case Nap4 => case Nap5 =>
      case Permutation => case Banka => case ChancePlus => case Anagramme =>
    }
  }

  /** `getDefaultMultipliers`: every bet type mapped to its configured
      default multiplier. */
  function DefaultMultipliers(): (m: map<BetType, int>)
    ensures forall t: BetType :: t in m && m[t] == Config(t).defaultMultiplier
  {
    AllBetTypesComplete();
    map t | t in AllBetTypes :: Config(t).defaultMultiplier
  }

  lemma DefaultMultiplierValues()
    ensures var m := DefaultMultipliers();
            m[Nap1] == 10 && m[Nap2] == 500 && m[Nap3] == 2500 && m[Nap4] == 10000 &&
            m[Nap5] == 100000 && m[Permutation] == 500 && m[Banka] == 500 &&
            m[ChancePlus] == 90 && m[Anagramme] == 10
  {
  }

  // ---------------------------------------------------------------------
  // Lottery operators
  // ---------------------------------------------------------------------

  datatype LottoOperator = LottoOperator(
    id: string,
    name: string,
    country: string,
    countryCode: string,
    numbersPool: nat,
    numbersDrawn: nat,
    minBet: nat,
    maxBet: nat)

  /** `OPERATORS_CONFIG`: five operators, each drawing 5 numbers out of 90
      with stakes from 100 to 50000. */
  const Operators: seq<LottoOperator> := [
    LottoOperator("togo-kadoo", "Lotto Kadoo", "Togo", "+228", 90, 5, 100, 50000),
    LottoOperator("benin-lotto", "Bénin Lotto", "Bénin", "+229", 90, 5, 100, 50000),
    LottoOperator("ivoire-lonaci", "Lonaci", "Côte d'Ivoire", "+225", 90, 5, 100, 50000),
    LottoOperator("nigeria-greenlotto", "Green Lotto", "Nigeria", "+234", 90, 5, 100, 50000),
    LottoOperator("senegal-pmu", "PMU Sénégal", "Sénégal", "+221", 90, 5, 100, 50000)
  ]

  /** `getOperatorById`: the first configured operator with the id. */
  function OperatorById(id: string): (r: Option<LottoOperator>)
    ensures r.Some? ==>
              r.value.id == id &&
              exists k :: 0 <= k < |Operators| && Operators[k] == r.value &&
                          forall j :: 0 <= j < k ==> Operators[j].id != id
    ensures r.None? <==> forall k :: 0 <= k < |Operators| ==> Operators[k].id != id
  {
    match FirstIndex(Operators, (o: LottoOperator) => o.id == id)
    case None => None
    case Some(k) => Some(Operators[k])
  }

  // ---------------------------------------------------------------------
  // PERMUTATION: pairs of the selected numbers
  // ---------------------------------------------------------------------

  /** `calculatePermutationCombinations`: C(n, 2). */
  function PermutationCombinations(n: int): int
  {
    (n * (n - 1)) / 2
  }

  /** `calculatePermutationCost`. */
  function PermutationCost(n: int, betPerCombination: int): int
  {
    PermutationCombinations(n) * betPerCombination
  }

  /** The pairs `[s[i], s[k]]` for `i < k < j`, in increasing `k`. */
  function Row(s: seq<int>, i: nat, j: nat): seq<seq<int>>
    requires i < |s| && j <= |s|
  {
    if j <= i + 1 then [] else Row(s, i, j - 1) + [[s[i], s[j - 1]]]
  }

  /** All rows for first indices below `i`. */
  function PairsBefore(s: seq<int>, i: nat): seq<seq<int>>
    requires i <= |s|
  {
    if i == 0 then [] else PairsBefore(s, i - 1) + Row(s, i - 1, |s|)
  }

  /** Every pair of positions `i < j` of `s`, in lexicographic order of `(i, j)`. */
  function Nap2Pairs(s: seq<int>): seq<seq<int>>
  {
    PairsBefore(s, |s|)
  }

  /** `generateNAP2Combinations`: the nested `i < j` loops that push each pair. */
  method GenerateNap2Combinations(numbers: seq<int>) returns (combos: seq<seq<int>>)
    ensures combos == Nap2Pairs(numbers)
  {
    combos := [];
    var i := 0;
    while i < |numbers|
      invariant 0 <= i <= |numbers|
      invariant combos == PairsBefore(numbers, i)
    {
      var j := i + 1;
      while j < |numbers|
        invariant i + 1 <= j <= |numbers|
        invariant combos == PairsBefore(numbers, i) + Row(numbers, i, j)
      {
        combos := combos + [[numbers[i], numbers[j]]];
        j := j + 1;
      }
      i := i + 1;
    }
  }

  /** Position in `Nap2Pairs` of the first pair whose first index is `a`. */
  function Offset(n: nat, a: nat): nat
    requires a <= n
  {
    if a == 0 then 0 else Offset(n, a - 1) + (n - a)
  }

  /** Position in `Nap2Pairs` of the pair of indices `(a, b)`. */
  function PairIndex(n: nat, a: nat, b: nat): nat
    requires a < b <= n
  {
    Offset(n, a) + (b - a - 1)
  }

  lemma {:induction false} RowShape(s: seq<int>, i: nat, j: nat)
    requires i < |s| && j <= |s|
    ensures |Row(s, i, j)| == if j <= i + 1 then 0 else j - i - 1
    ensures forall k :: i < k < j ==> Row(s, i, j)[k - i - 1] == [s[i], s[k]]
    ensures forall p :: p in Row(s, i, j) ==> exists k :: i < k < j && p == [s[i], s[k]]
  {
    if j > i + 1 {
      RowShape(s, i, j - 1);
    }
  }

  lemma {:induction false} PairsBeforeLength(s: seq<int>, i: nat)
    requires i <= |s|
    ensures |PairsBefore(s, i)| == Offset(|s|, i)
  {
    if i > 0 {
      PairsBeforeLength(s, i - 1);
      RowShape(s, i - 1, |s|);
    }
  }

  lemma {:induction false} OffsetClosedForm(n: nat, a: nat)
    requires a <= n
    ensures 2 * Offset(n, a) == 2 * a * n - a * (a + 1)
  {
    if a > 0 {
      OffsetClosedForm(n, a - 1);
    }
  }

  /** `generateNAP2Combinations` yields exactly C(n, 2) pairs. */
  lemma Nap2PairsCount(s: seq<int>)
    ensures |Nap2Pairs(s)| == PermutationCombinations(|s|)
  {
    var n := |s|;
    PairsBeforeLength(s, n);
    OffsetClosedForm(n, n);
    assert 2 * |Nap2Pairs(s)| == n * (n - 1);
  }

  /** `calculatePermutationCost` charges the per-combination stake once for
      each pair `generateNAP2Combinations` produces. */
  lemma PermutationCostPairs(s: seq<int>, betPerCombination: int)
    ensures PermutationCost(|s|, betPerCombination) == |Nap2Pairs(s)| * betPerCombination
  {
    Nap2PairsCount(s);
  }

  lemma {:induction false} PairsBeforeAt(s: seq<int>, i: nat, a: nat, b: nat)
    requires i <= |s| && a < i && a < b < |s|
    ensures PairIndex(|s|, a, b) < |PairsBefore(s, i)|
    ensures PairsBefore(s, i)[PairIndex(|s|, a, b)] == [s[a], s[b]]
  {
    var n := |s|;
    var before, row := PairsBefore(s, i - 1), Row(s, i - 1, n);
    assert PairsBefore(s, i) == before + row;
    PairsBeforeLength(s, i - 1);
    assert |row| == n - i by { RowShape(s, i - 1, n); }
    if a < i - 1 {
      PairsBeforeAt(s, i - 1, a, b);
    } else {
      assert row[b - a - 1] == [s[a], s[b]] by { RowShape(s, i - 1, n); }
    }
  }

  lemma {:induction false} OffsetMonotone(n: nat, a: nat, c: nat)
    requires a <= c <= n
    ensures Offset(n, a) <= Offset(n, c)
    decreases c - a
  {
    if a < c {
      OffsetMonotone(n, a, c - 1);
    }
  }

  /** The pair of positions `(a, b)` sits at `PairIndex(n, a, b)`. */
  lemma Nap2PairsAt(s: seq<int>, a: nat, b: nat)
    requires a < b < |s|
    ensures PairIndex(|s|, a, b) < |Nap2Pairs(s)|
    ensures Nap2Pairs(s)[PairIndex(|s|, a, b)] == [s[a], s[b]]
  {
    PairsBeforeAt(s, |s|, a, b);
  }

  /** Pairs come in lexicographic order of their positions. */
  lemma PairIndexOrdered(n: nat, a: nat, b: nat, c: nat, d: nat)
    requires a < b <= n && c < d <= n
    requires a < c || (a == c && b < d)
    requires b < n
    ensures PairIndex(n, a, b) < PairIndex(n, c, d)
  {
    if a < c {
      OffsetMonotone(n, a + 1, c);
    }
  }

  /** Every generated pair is `[s[i], s[j]]` for some positions `i < j`. */
  lemma {:induction false} Nap2PairsOnly(s: seq<int>, i: nat)
    requires i <= |s|
    ensures forall p :: p in PairsBefore(s, i) ==>
      exists a, b :: 0 <= a < b < |s| && p == [s[a], s[b]]
  {
    if i > 0 {
      Nap2PairsOnly(s, i - 1);
      RowShape(s, i - 1, |s|);
    }
  }

  // ---------------------------------------------------------------------
  // ANAGRAMME: digit inversion
  // ---------------------------------------------------------------------

  /** `invertNumber`: no inversion for a one-character number; otherwise the
      reversed decimal text read back with `parseInt`, kept only up to 90. */
  function InvertNumber(num: int): (r: Option<int>)
    ensures 0 <= num < 10 ==> r.None?
    ensures r.Some? ==> r.value <= 90
  {
    var str := IntToString(num);
    if |str| == 1 then None
    else match ParseInt(Reversed(str))
      case None => None
      case Some(v) => if v <= 90 then Some(v) else None
  }

  lemma TwoDigitString(n: int)
    requires 10 <= n < 100
    ensures IntToString(n) == [DigitChar(n / 10), DigitChar(n % 10)]
  {
    assert NatToString(n / 10) == [DigitChar(n / 10)];
  }

  lemma ParseTwoDigits(a: nat, b: nat)
    requires a < 10 && b < 10
    ensures ParseInt([DigitChar(a), DigitChar(b)]) == Some(a * 10 + b)
  {
    var s := [DigitChar(a), DigitChar(b)];
    ParseIntDigits(s);
    assert DigitValue(DigitChar(a)) == a && DigitValue(DigitChar(b)) == b;
    assert s[..1] == [DigitChar(a)] && s[..1][..0] == [];
    assert DigitsValue(s[..1]) == a;
    assert DigitsValue(s) == a * 10 + b;
  }

  /** For two-digit numbers the inversion swaps the digits (leading zero
      dropped) and is kept only when at most 90. */
  lemma InvertTwoDigits(n: int)
    requires 10 <= n < 100
    ensures InvertNumber(n) ==
      var v := (n % 10) * 10 + n / 10;
      if v <= 90 then Some(v) else None
  {
    TwoDigitString(n);
    var str := IntToString(n);
    assert Reversed(str) == [DigitChar(n % 10), DigitChar(n / 10)];
    ParseTwoDigits(n % 10, n / 10);
  }

  lemma DivMod10(hi: int, lo: int)
    requires 0 <= lo < 10
    ensures (hi * 10 + lo) / 10 == hi && (hi * 10 + lo) % 10 == lo
  {
  }

  /** 12 inverts to 21, 10 to 1, and 19 has no inversion (91 > 90). */
  lemma InvertExamples(n: int)
    requires n in {10, 12, 19}
    ensures n == 12 ==> InvertNumber(n) == Some(21)
    ensures n == 10 ==> InvertNumber(n) == Some(1)
    ensures n == 19 ==> InvertNumber(n) == None
  {
    InvertTwoDigits(n);
  }

  /** Inverting twice gives the number back when neither digit is zero and
      both the number and its inversion are at most 90. */
  lemma InvertInvolution(n: int)
    requires 10 <= n <= 90 && n % 10 != 0
    requires InvertNumber(n).Some?
    ensures InvertNumber(InvertNumber(n).value) == Some(n)
  {
    var hi, lo := n / 10, n % 10;
    assert 1 <= hi <= 9 && 1 <= lo <= 9 && n == hi * 10 + lo;
    InvertDigits(n, hi, lo);
    InvertSwapBack(hi, lo);
  }

  /** The number written `lo hi` inverts back to `hi lo` when that is at
      most 90. */
  lemma InvertSwapBack(hi: int, lo: int)
    requires 1 <= hi <= 9 && 1 <= lo <= 9 && hi * 10 + lo <= 90
    ensures InvertNumber(lo * 10 + hi) == Some(hi * 10 + lo)
  {
    InvertDigits(lo * 10 + hi, lo, hi);
  }

  /** The inversion of the two-digit number written `hi lo`. */
  lemma InvertDigits(n: int, hi: int, lo: int)
    requires 1 <= hi <= 9 && 0 <= lo <= 9 && n == hi * 10 + lo
    ensures InvertNumber(n) == if lo * 10 + hi <= 90 then Some(lo * 10 + hi) else None
  {
    InvertTwoDigits(n);
    DivMod10(hi, lo);
  }

  // ---------------------------------------------------------------------
  // Draws
  // ---------------------------------------------------------------------

  datatype DrawStatus = Upcoming | Pending | Completed

  /** A draw as stored. The last five fields are the statistics written when
      results are submitted; they are absent before. */
  datatype Draw = Draw(
    id: string,
    operatorId: string,
    date: string,
    time: string,
    multipliers: map<BetType, int>,
    status: DrawStatus,
    winningNumbers: seq<int>,
    createdAt: string,
    createdBy: string,
    participants: Option<int>,
    winners: Option<int>,
    totalBets: Option<int>,
    totalWinnings: Option<int>,
    profit: Option<int>)

  /** The multiplier a draw applies to a bet type: its own value when it has
      one (even 0), otherwise the type's default. */
  function MultiplierFor(d: Draw, t: BetType): (r: int)
    ensures t in d.multipliers ==> r == d.multipliers[t]
    ensures t !in d.multipliers ==> r == DefaultMultipliers()[t]
  {
    if t in d.multipliers then d.multipliers[t] else Config(t).defaultMultiplier
  }

  /** `Partial<Draw>`: the fields an update may carry. */
  datatype DrawPatch = DrawPatch(
    id: Option<string>,
    operatorId: Option<string>,
    date: Option<string>,
    time: Option<string>,
    multipliers: Option<map<BetType, int>>,
    status: Option<DrawStatus>,
    winningNumbers: Option<seq<int>>,
    createdAt: Option<string>,
    createdBy: Option<string>)

  function Pick<T>(o: Option<T>, old_: T): T
  {
    if o.Some? then o.value else old_
  }

  /** `{ ...draw, ...updates }`. */
  function MergeDraw(d: Draw, p: DrawPatch): (r: Draw)
    ensures r.id == (if p.id.Some? then p.id.value else d.id)
    ensures r.operatorId == (if p.operatorId.Some? then p.operatorId.value else d.operatorId)
    ensures r.date == (if p.date.Some? then p.date.value else d.date)
    ensures r.time == (if p.time.Some? then p.time.value else d.time)
    ensures r.multipliers == (if p.multipliers.Some? then p.multipliers.value else d.multipliers)
    ensures r.status == (if p.status.Some? then p.status.value else d.status)
    ensures r.winningNumbers == (if p.winningNumbers.Some? then p.winningNumbers.value else d.winningNumbers)
    ensures r.createdAt == (if p.createdAt.Some? then p.createdAt.value else d.createdAt)
    ensures r.createdBy == (if p.createdBy.Some? then p.createdBy.value else d.createdBy)
    ensures p == EmptyPatch ==> r == d
    ensures r.participants == d.participants && r.winners == d.winners && r.totalBets == d.totalBets &&
            r.totalWinnings == d.totalWinnings && r.profit == d.profit
  {
    d.(id := Pick(p.id, d.id),
       operatorId := Pick(p.operatorId, d.operatorId),
       date := Pick(p.date, d.date),
       time := Pick(p.time, d.time),
       multipliers := Pick(p.multipliers, d.multipliers),
       status := Pick(p.status, d.status),
       winningNumbers := Pick(p.winningNumbers, d.winningNumbers),
       createdAt := Pick(p.createdAt, d.createdAt),
       createdBy := Pick(p.createdBy, d.createdBy))
  }

  const EmptyPatch: DrawPatch := DrawPatch(None, None, None, None, None, None, None, None, None)

  /** Merging is idempotent, and the empty update changes nothing. */
  lemma MergeDrawLaws(d: Draw, p: DrawPatch)
    ensures MergeDraw(MergeDraw(d, p), p) == MergeDraw(d, p)
    ensures MergeDraw(d, EmptyPatch) == d
  {
  }

  function IndexOfDraw(ds: seq<Draw>, id: string): Option<nat>
  {
    FirstIndex(ds, (d: Draw) => d.id == id)
  }

  /** `draws.filter(d => d.id !== drawId)`. */
  function RemoveDraw(ds: seq<Draw>, id: string): (r: seq<Draw>)
    ensures |r| <= |ds|
    ensures forall i :: 0 <= i < |r| ==> r[i] in ds && r[i].id != id
  {
    Filter(ds, (d: Draw) => d.id != id)
  }

  /** Removing shortens the list exactly when some draw has the id; what
      remains is every draw with another id. */
  lemma RemoveDrawSpec(ds: seq<Draw>, id: string)
    ensures |RemoveDraw(ds, id)| < |ds| <==> exists k :: 0 <= k < |ds| && ds[k].id == id
    ensures forall d :: d in RemoveDraw(ds, id) <==> d in ds && d.id != id
  {
    CountAll(ds, (d: Draw) => d.id != id);
    var r := RemoveDraw(ds, id);
    forall d | d in ds && d.id != id
      ensures d in r
    {
      var k :| 0 <= k < |ds| && ds[k] == d;
    }
  }

  /** Removing keeps the order: it distributes over concatenation. */
  lemma RemoveDrawAppend(a: seq<Draw>, b: seq<Draw>, id: string)
    ensures RemoveDraw(a + b, id) == RemoveDraw(a, id) + RemoveDraw(b, id)
  {
    FilterAppend(a, b, (d: Draw) => d.id != id);
  }

  /** The `loto_happy_draws` list. */
  class DrawStore {
    var draws: seq<Draw>

    constructor ()
      ensures draws == []
    {
      draws := [];
    }

    /** `createDraw`, with the generated id and the creation time passed in. */
    method CreateDraw(id: string, operatorId: string, date: string, time: string,
                      multipliers: map<BetType, int>, createdBy: string, now: string)
      returns (d: Draw)
      modifies this
      ensures d.id == id && d.operatorId == operatorId && d.date == date && d.time == time
      ensures d.multipliers == multipliers && d.createdBy == createdBy && d.createdAt == now
      ensures d.status == Upcoming && d.winningNumbers == []
      ensures d.participants.None? && d.winners.None? && d.totalBets.None?
      ensures d.totalWinnings.None? && d.profit.None?
      ensures draws == old(draws) + [d]
    {
      d := Draw(id, operatorId, date, time, multipliers, Upcoming, [], now, createdBy,
                None, None, None, None, None);
      draws := draws + [d];
    }

    /** `updateDraw`: merges the update into the first draw with the id. */
    method UpdateDraw(drawId: string, updates: DrawPatch) returns (r: Option<Draw>)
      modifies this
      ensures IndexOfDraw(old(draws), drawId).None? ==> r.None? && draws == old(draws)
      ensures IndexOfDraw(old(draws), drawId).Some? ==>
        var k := IndexOfDraw(old(draws), drawId).value;
        r == Some(MergeDraw(old(draws)[k], updates)) && draws == old(draws)[k := r.value]
    {
      var index := IndexOfDraw(draws, drawId);
      if index.None? {
        return None;
      }
      var merged := MergeDraw(draws[index.value], updates);
      draws := draws[index.value := merged];
      r := Some(merged);
    }

    /** `deleteDraw`: false when nothing was removed. */
    method DeleteDraw(drawId: string) returns (deleted: bool)
      modifies this
      ensures deleted <==> exists k :: 0 <= k < |old(draws)| && old(draws)[k].id == drawId
      ensures deleted ==> draws == RemoveDraw(old(draws), drawId)
      ensures !deleted ==> draws == old(draws)
    {
      var filtered := RemoveDraw(draws, drawId);
      RemoveDrawSpec(draws, drawId);
      if |filtered| == |draws| {
        return false;
      }
      draws := filtered;
      deleted := true;
    }
  }
}

=== FILE: migrate_data.dfy ===
/**
 * The phone-number migration of src/utils/migrateData.ts: every stored
 * phone number that still carries a '+' loses all of them, in the current
 * user's record and in the player and reseller lists, and a list is written
 * back only when one of its records changed.
 */
module Migration {
  import opened Common
  import opened Auth

  const CurrentUserKey := "lottoHappyUser"
  const PlayersKey := "lottoHappyAllPlayers"
  const ResellersKey := "lottoHappyAllResellers"

  /** `phoneNumber && phoneNumber.includes('+')`: an empty phone has no '+'. */
  predicate NeedsMigration(u: User)
  {
    '+' in u.phoneNumber
  }

  /** The record after its migration: the phone without any '+', nothing
      else touched. */
  function Migrated(u: User): (r: User)
    ensures !NeedsMigration(r)
    ensures !NeedsMigration(u) ==> r == u
    ensures r == u.(phoneNumber := r.phoneNumber)
  {
    if NeedsMigration(u) then
      var phone := StripPlus(u.phoneNumber);
      assert forall i :: 0 <= i < |phone| ==> phone[i] != '+';
      u.(phoneNumber := phone)
    else u
  }

  /** Stripping drops exactly the '+' characters: the length falls by their
      number. */
  lemma {:induction false} StripPlusLength(s: string)
    ensures |StripPlus(s)| + Count(s, IsPlus) == |s|
  {
    if s != [] {
      assert s == [s[0]] + s[1..];
      CountAppend([s[0]], s[1..], IsPlus);
      assert [s[0]][..0] == [];
      StripPlusLength(s[1..]);
    }
  }

  /** Every record of a list after its migration. */
  function MigratedAll(list: seq<User>): (r: seq<User>)
    ensures |r| == |list|
    ensures forall i :: 0 <= i < |r| ==> !NeedsMigration(r[i])
    ensures forall i :: 0 <= i < |list| ==> r[i].id == list[i].id
    ensures forall i :: 0 <= i < |list| && !NeedsMigration(list[i]) ==> r[i] == list[i]
  {
    seq(|list|, i requires 0 <= i < |list| => Migrated(list[i]))
  }

  /** A list in which nothing needs migrating is left exactly as it was. */
  lemma MigratedAllNoop(list: seq<User>)
    requires Count(list, NeedsMigration) == 0
    ensures MigratedAll(list) == list
  {
    CountNone(list, NeedsMigration);
  }

  /** A second run finds nothing to migrate and changes nothing. */
  lemma MigrationIdempotent(list: seq<User>)
    ensures Count(MigratedAll(list), NeedsMigration) == 0
    ensures MigratedAll(MigratedAll(list)) == MigratedAll(list)
  {
    CountNone(MigratedAll(list), NeedsMigration);
  }

  /** The `forEach` over a parsed list: strips the phones in place and
      counts the records it changed. */
  method MigrateRecords(records: array<User>) returns (migrated: nat)
    modifies records
    ensures records[..] == MigratedAll(old(records[..]))
    ensures migrated == Count(old(records[..]), NeedsMigration)
  {
    ghost var original := records[..];
    migrated := 0;
    var i := 0;
    while i < records.Length
      invariant 0 <= i <= records.Length
      invariant forall k :: 0 <= k < i ==> records[k] == Migrated(original[k])
      invariant forall k :: i <= k < records.Length ==> records[k] == original[k]
      invariant migrated == Count(original[..i], NeedsMigration)
    {
      assert original[..i + 1][..i] == original[..i];
      ghost var before := records[..];
      var record := records[i];
      if NeedsMigration(record) {
        records[i] := Migrated(record);
        migrated := migrated + 1;
      }
      assert records[..] == before[i := Migrated(original[i])];
      i := i + 1;
    }
    assert original[..i] == original;
  }

  /** The stored records the migration reads and writes; an absent key is
      `None`. `writes` lists the keys written, in order. */
  class Store {
    var currentUser: Option<User>
    var players: Option<seq<User>>
    var resellers: Option<seq<User>>
    var writes: seq<string>

    constructor(currentUser: Option<User>, players: Option<seq<User>>, resellers: Option<seq<User>>)
      ensures this.currentUser == currentUser && this.players == players && this.resellers == resellers
      ensures writes == []
    {
      this.currentUser := currentUser;
      this.players := players;
      this.resellers := resellers;
      writes := [];
    }

    /** Migrates one stored list; returns the list to keep and the number
        of records changed. */
    static method MigrateList(list: seq<User>) returns (result: seq<User>, migrated: nat)
      ensures result == MigratedAll(list)
      ensures migrated == Count(list, NeedsMigration)
    {
      var records := new User[|list|](i requires 0 <= i < |list| => list[i]);
      assert records[..] == list;
      migrated := MigrateRecords(records);
      result := records[..];
    }

    /** One stored list under `key`: the list kept afterwards and the keys
        written, which is `key` only when a record changed. */
    static method MigrateStored(stored: Option<seq<User>>, key: string)
      returns (kept: Option<seq<User>>, written: seq<string>)
      ensures kept == (if stored.Some? then Some(MigratedAll(stored.value)) else None)
      ensures written == (if stored.Some? && Count(stored.value, NeedsMigration) > 0 then [key] else [])
    {
      kept, written := stored, [];
      if stored.Some? {
        var list, migrated := MigrateList(stored.value);
        if migrated > 0 {
          kept, written := Some(list), [key];
        } else {
          MigratedAllNoop(stored.value);
        }
      }
    }

    /** `migratePhoneNumbers`. */
    method MigratePhoneNumbers()
      modifies this
      ensures currentUser == (if old(currentUser).Some? then Some(Migrated(old(currentUser).value)) else None)
      ensures players == (if old(players).Some? then Some(MigratedAll(old(players).value)) else None)
      ensures resellers == (if old(resellers).Some? then Some(MigratedAll(old(resellers).value)) else None)
      ensures writes == old(writes)
                        + (if old(currentUser).Some? && NeedsMigration(old(currentUser).value)
                           then [CurrentUserKey] else [])
                        + (if old(players).Some? && Count(old(players).value, NeedsMigration) > 0
                           then [PlayersKey] else [])
                        + (if old(resellers).Some? && Count(old(resellers).value, NeedsMigration) > 0
                           then [ResellersKey] else [])
    {
      var userKeys: seq<string> := [];
      if currentUser.Some? && NeedsMigration(currentUser.value) {
        currentUser := Some(Migrated(currentUser.value));
        userKeys := [CurrentUserKey];
      }
      var playerKeys, resellerKeys;
      players, playerKeys := MigrateStored(players, PlayersKey);
      resellers, resellerKeys := MigrateStored(resellers, ResellersKey);
      writes := writes + userKeys + playerKeys + resellerKeys;
    }
  }
}

=== FILE: payout.dfy ===
/**
 * Tickets and the payout rules of src/utils/draws.ts: how much a ticket
 * wins against a draw's winning numbers, for each of the nine bet types.
 */
module Payout {
  import opened Common
  import opened Games

  datatype TicketStatus = Pending | Won | Lost

  datatype Position = First | Last

  /** A stored ticket. `betType` is the stored identifier, "" when absent;
      an absent `associatedNumbers` or `combinations` list reads as empty,
      which is how the payout rules treat it. */
  datatype Ticket = Ticket(
    id: string,
    userId: string,
    username: string,
    drawId: string,
    numbers: string,
    betAmount: int,
    purchaseDate: string,
    status: TicketStatus,
    winAmount: Option<int>,
    betType: string,
    baseNumber: Option<int>,
    associatedNumbers: seq<int>,
    position: Option<Position>,
    combinations: seq<seq<int>>)

  // ---------------------------------------------------------------------
  // The ticket's numbers
  // ---------------------------------------------------------------------

  /** `numbers.split(',').map(n => parseInt(n.trim()))`; `None` is NaN. */
  function ParseNumbers(s: string): (r: seq<Option<int>>)
    ensures |r| >= 1
  {
    var parts := Split(s, ',');
    seq(|parts|, i requires 0 <= i < |parts| => ParseInt(Trim(parts[i])))
  }

  /** `numbers.join(',')` on selected numbers. */
  function FormatNumbers(xs: seq<nat>): string
  {
    Join(seq(|xs|, i requires 0 <= i < |xs| => NatToString(xs[i])), ",")
  }

  lemma TrimDigits(s: string)
    requires |s| >= 1 && AllDigits(s)
    ensures Trim(s) == s
  {
    assert IsDigit(s[0]) && IsDigit(s[|s| - 1]);
    assert !IsSpace(s[0]) && !IsSpace(s[|s| - 1]);
    assert TrimStart(s) == s;
    assert TrimEnd(s) == s;
  }

  /** Numbers written with `join(',')` are read back one by one. */
  lemma ParseFormatNumbers(xs: seq<nat>)
    requires |xs| >= 1
    ensures |ParseNumbers(FormatNumbers(xs))| == |xs|
    ensures forall i :: 0 <= i < |xs| ==> ParseNumbers(FormatNumbers(xs))[i] == Some(xs[i] as int)
  {
    var parts := seq(|xs|, i requires 0 <= i < |xs| => NatToString(xs[i]));
    forall k | 0 <= k < |parts|
      ensures ',' !in parts[k]
    {
      assert AllDigits(parts[k]);
      assert forall j :: 0 <= j < |parts[k]| ==> parts[k][j] != ',';
    }
    SplitJoin(parts, ',');
    forall i | 0 <= i < |xs|
      ensures ParseInt(Trim(parts[i])) == Some(xs[i] as int)
    {
      TrimDigits(parts[i]);
      ParseIntDigits(parts[i]);
      NatToStringValue(xs[i]);
    }
  }

  /** A parsed number is drawn when it is a number and among the winning ones. */
  predicate Drawn(x: Option<int>, winning: seq<int>)
  {
    x.Some? && x.value in winning
  }

  /** `countMatches`: how many of the ticket's numbers were drawn. */
  function CountMatches(numbers: string, winning: seq<int>): (r: nat)
    ensures r <= |ParseNumbers(numbers)|
    ensures r == |ParseNumbers(numbers)| <==>
              forall i :: 0 <= i < |ParseNumbers(numbers)| ==> Drawn(ParseNumbers(numbers)[i], winning)
    ensures (forall i :: 0 <= i < |ParseNumbers(numbers)| ==> !Drawn(ParseNumbers(numbers)[i], winning)) ==> r == 0
  {
    CountAll(ParseNumbers(numbers), x => Drawn(x, winning));
    CountNone(ParseNumbers(numbers), x => Drawn(x, winning));
    Count(ParseNumbers(numbers), x => Drawn(x, winning))
  }

  // ---------------------------------------------------------------------
  // Payout per bet type
  // ---------------------------------------------------------------------

  /** NAP1 to NAP5: the full stake times the multiplier when every chosen
      number was drawn, nothing otherwise. */
  function NapPayout(nums: seq<Option<int>>, winning: seq<int>, bet: int, mult: int): (r: int)
    ensures r == if forall i :: 0 <= i < |nums| ==> Drawn(nums[i], winning) then bet * mult else 0
  {
    CountAll(nums, x => Drawn(x, winning));
    if Count(nums, x => Drawn(x, winning)) == |nums| then bet * mult else 0
  }

  /** A PERMUTATION pair wins when all its numbers were drawn. */
  predicate ComboWins(combo: seq<int>, winning: seq<int>)
  {
    forall i :: 0 <= i < |combo| ==> combo[i] in winning
  }

  lemma MulMono(u: int, v: int, b: int)
    requires u <= v && b >= 0
    ensures u * b <= v * b
  {
    assert v * b - u * b == (v - u) * b;
  }

  /** A share `a / b` (at most one) of a non-negative amount is at most the
      amount, rounding down. */
  lemma MulDivBound(a: int, b: int, x: int)
    requires 0 <= a <= b && b > 0
    ensures x >= 0 ==> 0 <= (a * x) / b <= x
  {
    if x >= 0 {
      var q, r := (a * x) / b, (a * x) % b;
      assert a * x == q * b + r && 0 <= r < b;
      MulMono(a, b, x);
      MulMono(0, a, x);
      if q > x {
        MulMono(x + 1, q, b);
        assert false;
      }
      if q < 0 {
        MulMono(q, -1, b);
        assert false;
      }
    }
  }

  /** How many stored pairs were fully drawn. */
  function WinningCombos(combos: seq<seq<int>>, winning: seq<int>): nat
  {
    Count(combos, c => ComboWins(c, winning))
  }

  /** PERMUTATION: the stake is spread evenly over the stored pairs, and each
      fully drawn pair pays its share times the multiplier (rounded down). */
  function PermutationPayout(combos: seq<seq<int>>, winning: seq<int>, bet: int, mult: int): (r: int)
    ensures (forall k :: 0 <= k < |combos| ==> !ComboWins(combos[k], winning)) ==> r == 0
    ensures bet * mult >= 0 ==> 0 <= r <= bet * mult
    ensures |combos| > 0 ==> r == (WinningCombos(combos, winning) * bet * mult) / |combos|
  {
    var wins := WinningCombos(combos, winning);
    CountNone(combos, c => ComboWins(c, winning));
    if wins > 0 then
      MulDivBound(wins, |combos|, bet * mult);
      assert wins * bet * mult == wins * (bet * mult);
      (wins * bet * mult) / |combos|
    else 0
  }

  /** PERMUTATION when every stored pair was drawn: the whole stake times
      the multiplier. */
  lemma PermutationAllPairsDrawn(combos: seq<seq<int>>, winning: seq<int>, bet: int, mult: int)
    requires |combos| > 0
    requires forall k :: 0 <= k < |combos| ==> ComboWins(combos[k], winning)
    ensures PermutationPayout(combos, winning, bet, mult) == bet * mult
  {
    CountAll(combos, c => ComboWins(c, winning));
    var n := |combos|;
    assert n * bet * mult == n * (bet * mult);
    MulDivCancel(n, bet * mult);
  }

  lemma MulDivCancel(n: int, x: int)
    requires n > 0
    ensures (n * x) / n == x
  {
    var q, r := (n * x) / n, (n * x) % n;
    assert n * x == q * n + r && 0 <= r < n;
    assert (x - q) * n == r;
    if x - q >= 1 {
      MulMono(1, x - q, n);
    } else if x - q <= -1 {
      MulMono(x - q, -1, n);
    }
  }

  /** BANKA: the base number must be set (non-zero) and drawn; then the stake
      times the multiplier is paid in proportion to the associated numbers
      drawn, nothing when none was. */
  function BankaPayout(base: Option<int>, assoc: seq<int>, winning: seq<int>, bet: int, mult: int): (r: int)
    ensures base.None? || base.value == 0 || base.value !in winning ==> r == 0
    ensures (forall i :: 0 <= i < |assoc| ==> assoc[i] !in winning) ==> r == 0
    ensures base.Some? && base.value != 0 && base.value in winning && |assoc| > 0 ==>
      r == (bet * mult * Count(assoc, x => x in winning)) / |assoc|
    ensures bet * mult >= 0 ==> 0 <= r <= bet * mult
  {
    if base.None? || base.value == 0 then 0
    else if base.value !in winning then 0
    else
      var matched := Count(assoc, x => x in winning);
      CountNone(assoc, x => x in winning);
      if matched > 0 then
        MulDivBound(matched, |assoc|, bet * mult);
        assert bet * mult * matched == matched * (bet * mult);
        (bet * mult * matched) / |assoc|
      else 0
  }

  /** CHANCE_PLUS: the number must be the first (or the last) winning number,
      as the ticket's position says. */
  function ChancePlusPayout(num: Option<int>, position: Option<Position>, winning: seq<int>,
                            bet: int, mult: int): (r: int)
    ensures r == 0 || r == bet * mult
    ensures r != 0 ==> num.Some? && |winning| > 0 &&
                       ((position == Some(First) && num.value == winning[0]) ||
                        (position == Some(Last) && num.value == winning[|winning| - 1]))
    ensures num.Some? && |winning| > 0 && position == Some(First) && num.value == winning[0] ==>
              r == bet * mult
    ensures (num.Some? && |winning| > 0 && position == Some(Last) &&
             num.value == winning[|winning| - 1]) ==> r == bet * mult
  {
    if position == Some(First) && |winning| > 0 && num == Some(winning[0]) then bet * mult
    else if position == Some(Last) && |winning| > 0 && num == Some(winning[|winning| - 1]) then bet * mult
    else 0
  }

  /** ANAGRAMME: the number or its (non-zero) inversion must be drawn. */
  function AnagrammePayout(num: Option<int>, winning: seq<int>, bet: int, mult: int): (r: int)
    ensures r == 0 || r == bet * mult
    ensures r != 0 ==> num.Some? &&
                       (num.value in winning ||
                        (InvertNumber(num.value).Some? && InvertNumber(num.value).value != 0 &&
                         InvertNumber(num.value).value in winning))
    ensures num.Some? && num.value in winning ==> r == bet * mult
    ensures (num.Some? && InvertNumber(num.value).Some? && InvertNumber(num.value).value != 0 &&
             InvertNumber(num.value).value in winning) ==> r == bet * mult
  {
    var inverted := if num.Some? then InvertNumber(num.value) else None;
    if Drawn(num, winning) || (inverted.Some? && inverted.value != 0 && inverted.value in winning) then
      bet * mult
    else 0
  }

  /** The bet type a ticket is settled as: an absent type is NAP2, an
      unknown identifier is none. */
  function EffectiveBetType(t: Ticket): Option<BetType>
  {
    BetTypeFromName(if t.betType == "" then "NAP2" else t.betType)
  }

  /** `calculateAdvancedWinAmount`: a ticket without a usable bet type wins
      nothing. */
  function WinAmount(t: Ticket, d: Draw): (r: int)
    ensures EffectiveBetType(t).None? ==> r == 0
  {
    match EffectiveBetType(t)
    case None => 0
    case Some(bt) =>
      var mult := MultiplierFor(d, bt);
      var winning := d.winningNumbers;
      match bt
      case Nap1 => NapPayout(ParseNumbers(t.numbers), winning, t.betAmount, mult)
      case Nap2 => NapPayout(ParseNumbers(t.numbers), winning, t.betAmount, mult)
      case Nap3 => NapPayout(ParseNumbers(t.numbers), winning, t.betAmount, mult)
      case Nap4 => NapPayout(ParseNumbers(t.numbers), winning, t.betAmount, mult)
      case Nap5 => NapPayout(ParseNumbers(t.numbers), winning, t.betAmount, mult)
      case Permutation => PermutationPayout(t.combinations, winning, t.betAmount, mult)
      case Banka => BankaPayout(t.baseNumber, t.associatedNumbers, winning, t.betAmount, mult)
      case ChancePlus => ChancePlusPayout(ParseInt(t.numbers), t.position, winning, t.betAmount, mult)
      case Anagramme => AnagrammePayout(ParseInt(t.numbers), winning, t.betAmount, mult)
  }

  /** For a non-negative stake times multiplier, the payout lies between
      zero and that product. */
  lemma WinAmountBounded(t: Ticket, d: Draw)
    ensures EffectiveBetType(t).Some? &&
            t.betAmount * MultiplierFor(d, EffectiveBetType(t).value) >= 0 ==>
              0 <= WinAmount(t, d) <= t.betAmount * MultiplierFor(d, EffectiveBetType(t).value)
  {
  }

  predicate IsNap(bt: BetType)
  {
    bt in {Nap1, Nap2, Nap3, Nap4, Nap5}
  }

  /** A ticket without a bet type is settled as NAP2, with the draw's NAP2
      multiplier or NAP2's default. */
  lemma MissingBetTypeIsNap2(t: Ticket, d: Draw)
    requires t.betType == ""
    ensures EffectiveBetType(t) == Some(Nap2)
    ensures WinAmount(t, d) ==
      if forall i :: 0 <= i < |ParseNumbers(t.numbers)| ==> Drawn(ParseNumbers(t.numbers)[i], d.winningNumbers)
      then t.betAmount * MultiplierFor(d, Nap2) else 0
  {
  }

  /** NAP tickets win stake times multiplier exactly when every chosen number
      was drawn. */
  lemma NapWinsIffAllDrawn(t: Ticket, d: Draw)
    requires EffectiveBetType(t).Some? && IsNap(EffectiveBetType(t).value)
    ensures var nums := ParseNumbers(t.numbers);
            WinAmount(t, d) ==
              if forall i :: 0 <= i < |nums| ==> Drawn(nums[i], d.winningNumbers)
              then t.betAmount * MultiplierFor(d, EffectiveBetType(t).value) else 0
  {
  }

  /** A NAP ticket made of selected numbers wins exactly when all of them
      are among the winning numbers. */
  lemma NapSelectionWins(t: Ticket, d: Draw, selected: seq<nat>)
    requires EffectiveBetType(t).Some? && IsNap(EffectiveBetType(t).value)
    requires |selected| >= 1 && t.numbers == FormatNumbers(selected)
    ensures WinAmount(t, d) ==
      if forall i :: 0 <= i < |selected| ==> selected[i] as int in d.winningNumbers
      then t.betAmount * MultiplierFor(d, EffectiveBetType(t).value) else 0
  {
    ParseFormatNumbers(selected);
    NapWinsIffAllDrawn(t, d);
    var nums := ParseNumbers(t.numbers);
    assert (forall i :: 0 <= i < |nums| ==> Drawn(nums[i], d.winningNumbers)) <==>
           (forall i :: 0 <= i < |selected| ==> selected[i] as int in d.winningNumbers);
  }
}

=== FILE: registration.dfy ===
/**
 * The registration screen of src/components/RegistrationScreen.tsx: the
 * identifier handed over by the login screen prefills the email or the
 * phone field, and `handleRegister` checks the form in a fixed order before
 * it asks for a player account.
 */
module Registration {
  import opened Common

  const DefaultCountryCode := "+228"
  const PlayerRole := "player"

  const UsernameMessage := "Le nom d'utilisateur doit contenir au moins 3 caractères."
  const EmailMessage := "Veuillez entrer une adresse email valide."
  const PhoneMessage := "Veuillez entrer un numéro de téléphone valide."
  const PasswordMessage := "Le mot de passe doit contenir au moins 6 caractères."
  const MismatchMessage := "Les mots de passe ne correspondent pas."

  /** The form fields as the screen holds them. */
  datatype Form = Form(
    username: string,
    email: string,
    phoneNumber: string,
    countryCode: string,
    password: string,
    confirmPassword: string)

  /** What `register` is called with. */
  datatype RegisterRequest = RegisterRequest(
    username: string,
    email: string,
    phoneNumber: string,
    password: string,
    role: string)

  /** The outcome of pressing the button: the first error shown in a toast,
      or the request sent to `register`. */
  datatype Submission = Rejected(message: string) | Submitted(request: RegisterRequest)

  /** The five checks of `handleRegister`, all passed. An empty field fails
      its length check, so `!field ||` adds no case. */
  predicate Acceptable(f: Form)
  {
    |f.username| >= 3 && '@' in f.email && |f.phoneNumber| >= 8 && |f.password| >= 6
    && f.password == f.confirmPassword
  }

  /** `handleRegister` up to the call: the first failing check wins. */
  function Submit(f: Form): (r: Submission)
    ensures r.Submitted? <==> Acceptable(f)
    ensures r == Rejected(UsernameMessage) <==> |f.username| < 3
    ensures r == Rejected(EmailMessage) <==> |f.username| >= 3 && '@' !in f.email
    ensures r == Rejected(PhoneMessage) <==> |f.username| >= 3 && '@' in f.email && |f.phoneNumber| < 8
    ensures r == Rejected(PasswordMessage) <==>
              |f.username| >= 3 && '@' in f.email && |f.phoneNumber| >= 8 && |f.password| < 6
    ensures r == Rejected(MismatchMessage) <==>
              |f.username| >= 3 && '@' in f.email && |f.phoneNumber| >= 8 && |f.password| >= 6
              && f.password != f.confirmPassword
    ensures r.Submitted? ==>
              r.request.username == f.username && r.request.email == f.email
              && r.request.password == f.password && r.request.role == PlayerRole
              && StartsWith(r.request.phoneNumber, f.countryCode)
              && r.request.phoneNumber[|f.countryCode|..] == f.phoneNumber
  {
    if |f.username| < 3 then Rejected(UsernameMessage)
    else if '@' !in f.email then Rejected(EmailMessage)
    else if |f.phoneNumber| < 8 then Rejected(PhoneMessage)
    else if |f.password| < 6 then Rejected(PasswordMessage)
    else if f.password != f.confirmPassword then Rejected(MismatchMessage)
    else Submitted(RegisterRequest(f.username, f.email, f.countryCode + f.phoneNumber,
                                   f.password, PlayerRole))
  }

  /** The submitted phone is never shorter than the country code plus the
      eight digits the check demands. */
  lemma SubmittedPhoneLength(f: Form)
    requires Submit(f).Submitted?
    ensures |Submit(f).request.phoneNumber| >= |f.countryCode| + 8
  {
  }

  /** Removing the first '+' of an identifier: everything before it stays,
      everything after it stays, the '+' goes. */
  lemma {:induction false} ReplaceFirstPlus(before: string, after: string)
    requires '+' !in before
    ensures ReplaceFirst(before + "+" + after, '+', "") == before + after
  {
    if before != [] {
      assert (before + "+" + after)[1..] == before[1..] + "+" + after;
      ReplaceFirstPlus(before[1..], after);
    }
  }

  /** The form right after the prefill effect has run on the identifier. */
  function PrefilledForm(identifier: string): (r: Form)
    ensures r.username == "" && r.password == "" && r.confirmPassword == ""
    ensures r.countryCode == DefaultCountryCode
    ensures '@' in identifier ==> r.email == identifier && r.phoneNumber == ""
    ensures '@' !in identifier ==> r.email == ""
    ensures '@' !in identifier && '+' !in identifier ==> r.phoneNumber == identifier
  {
    if '@' in identifier then Form("", identifier, "", DefaultCountryCode, "", "")
    else Form("", "", ReplaceFirst(identifier, '+', ""), DefaultCountryCode, "", "")
  }

  /** An international number typed at login loses exactly its leading '+';
      putting it back gives the identifier again. */
  lemma PrefillDropsLeadingPlus(identifier: string)
    requires |identifier| > 0 && identifier[0] == '+' && '@' !in identifier
    ensures "+" + PrefilledForm(identifier).phoneNumber == identifier
  {
    assert identifier == [] + "+" + identifier[1..];
    ReplaceFirstPlus([], identifier[1..]);
  }

  /** A prefilled email passes the email check, so such a form is refused
      at most for its username, phone or passwords. */
  lemma PrefilledEmailPassesCheck(identifier: string, f: Form)
    requires '@' in identifier
    requires f == PrefilledForm(identifier).(username := f.username, phoneNumber := f.phoneNumber,
                                             password := f.password, confirmPassword := f.confirmPassword)
    ensures Submit(f) != Rejected(EmailMessage)
  {
  }

  /** The registration screen's fields. */
  class Screen {
    var username: string
    var email: string
    var phoneNumber: string
    var countryCode: string
    var password: string
    var confirmPassword: string

    function Fields(): Form
      reads this
    {
      Form(username, email, phoneNumber, countryCode, password, confirmPassword)
    }

    /** Mounting the screen: empty fields, the default country code, then
        the prefill effect. */
    constructor(prefilledIdentifier: string)
      ensures Fields() == PrefilledForm(prefilledIdentifier)
    {
      username := "";
      email := "";
      phoneNumber := "";
      countryCode := DefaultCountryCode;
      password := "";
      confirmPassword := "";
      new;
      Prefill(prefilledIdentifier);
    }

    /** The mount effect: an identifier with '@' is an email, anything else
        a phone number without its first '+'. */
    method Prefill(identifier: string)
      modifies this
      ensures '@' in identifier ==> Fields() == old(Fields()).(email := identifier)
      ensures '@' !in identifier ==>
                Fields() == old(Fields()).(phoneNumber := ReplaceFirst(identifier, '+', ""))
    {
      if '@' in identifier {
        email := identifier;
      } else {
        phoneNumber := ReplaceFirst(identifier, '+', "");
      }
    }
  }
}

=== FILE: stats.dfy ===
/**
 * The read-side reports of src/utils/draws.ts: a player's bet history, the
 * risk level of a potential payout, and the grouping of the tickets of open
 * draws by combination that the administrators' risk screen shows.
 */
module DrawStats {
  import opened Common
  import opened Games
  import opened Payout
  import opened Draws

  // ---------------------------------------------------------------------
  // Bet history
  // ---------------------------------------------------------------------

  datatype BetStatus = BetUpcoming | BetPending | BetWon | BetLost

  datatype BetHistoryItem = BetHistoryItem(
    id: string,
    drawId: string,
    operatorName: string,
    numbers: string,
    betAmount: int,
    purchaseDate: string,
    drawDate: string,
    drawTime: string,
    status: BetStatus,
    winAmount: Option<int>,
    winningNumbers: seq<int>,
    betType: string)

  /** `draws.find(d => d.id === id)`. */
  function FindDraw(draws: seq<Draw>, id: string): (r: Option<Draw>)
    ensures r.Some? ==> r.value.id == id && r.value in draws
    ensures r.None? <==> forall k :: 0 <= k < |draws| ==> draws[k].id != id
  {
    match IndexOfDraw(draws, id)
    case None => None
    case Some(k) => Some(draws[k])
  }

  /** The status shown for a bet: won or lost once the draw is completed
      (won exactly when the ticket is marked won), the draw's own status
      before that. */
  function HistoryStatus(d: Draw, t: Ticket): (r: BetStatus)
    ensures r == BetWon <==> d.status == Completed && t.status == Won
    ensures r == BetLost <==> d.status == Completed && t.status != Won
    ensures r == BetUpcoming <==> d.status == Upcoming
    ensures r == BetPending <==> d.status == DrawStatus.Pending
  {
    match d.status
    case Completed => if t.status == Won then BetWon else BetLost
    case Upcoming => BetUpcoming
    case Pending => BetPending
  }

  /** The history entry of a ticket whose draw was found. */
  function HistoryItem(t: Ticket, d: Draw): BetHistoryItem
  {
    BetHistoryItem(t.id, t.drawId, OperatorName(d), t.numbers, t.betAmount, t.purchaseDate,
                   d.date, d.time, HistoryStatus(d, t), t.winAmount, d.winningNumbers, t.betType)
  }

  /** A ticket that appears in the user's history: theirs, with a known draw. */
  predicate Listed(t: Ticket, draws: seq<Draw>, userId: string)
  {
    t.userId == userId && FindDraw(draws, t.drawId).Some?
  }

  /** `getBetHistory`: the user's tickets in stored order, each joined with
      the first draw of its id; a ticket whose draw is gone is dropped. */
  function BetHistory(tickets: seq<Ticket>, draws: seq<Draw>, userId: string): (r: seq<BetHistoryItem>)
    ensures |r| == Count(tickets, (t: Ticket) => Listed(t, draws, userId))
  {
    if tickets == [] then []
    else
      var t := tickets[|tickets| - 1];
      BetHistory(tickets[..|tickets| - 1], draws, userId) +
        (if Listed(t, draws, userId) then [HistoryItem(t, FindDraw(draws, t.drawId).value)] else [])
  }

  /** A history entry made from one of the user's tickets whose draw exists. */
  ghost predicate FromListedTicket(item: BetHistoryItem, tickets: seq<Ticket>, draws: seq<Draw>, userId: string)
  {
    exists k :: 0 <= k < |tickets| && Listed(tickets[k], draws, userId) &&
      item == HistoryItem(tickets[k], FindDraw(draws, tickets[k].drawId).value)
  }

  /** Every entry is the entry of one of the user's tickets whose draw exists. */
  lemma {:induction false} BetHistorySources(tickets: seq<Ticket>, draws: seq<Draw>, userId: string)
    ensures forall i :: 0 <= i < |BetHistory(tickets, draws, userId)| ==>
      FromListedTicket(BetHistory(tickets, draws, userId)[i], tickets, draws, userId)
  {
    if tickets != [] {
      var init := tickets[..|tickets| - 1];
      var t := tickets[|tickets| - 1];
      BetHistorySources(init, draws, userId);
      var prev := BetHistory(init, draws, userId);
      var r := BetHistory(tickets, draws, userId);
      forall i | 0 <= i < |r|
        ensures FromListedTicket(r[i], tickets, draws, userId)
      {
        if i < |prev| {
          assert r[i] == prev[i];
          assert FromListedTicket(prev[i], init, draws, userId);
          var k :| 0 <= k < |init| && Listed(init[k], draws, userId) &&
            prev[i] == HistoryItem(init[k], FindDraw(draws, init[k].drawId).value);
          assert tickets[k] == init[k];
        } else {
          assert r[i] == HistoryItem(t, FindDraw(draws, t.drawId).value);
          assert tickets[|tickets| - 1] == t;
        }
      }
    }
  }

  /** Every ticket of the user whose draw exists has its entry. */
  lemma {:induction false} BetHistoryComplete(tickets: seq<Ticket>, draws: seq<Draw>, userId: string)
    ensures forall k :: 0 <= k < |tickets| && Listed(tickets[k], draws, userId) ==>
      HistoryItem(tickets[k], FindDraw(draws, tickets[k].drawId).value) in BetHistory(tickets, draws, userId)
  {
    if tickets != [] {
      var init := tickets[..|tickets| - 1];
      BetHistoryComplete(init, draws, userId);
      var prev := BetHistory(init, draws, userId);
      var r := BetHistory(tickets, draws, userId);
      forall k | 0 <= k < |tickets| && Listed(tickets[k], draws, userId)
        ensures HistoryItem(tickets[k], FindDraw(draws, tickets[k].drawId).value) in r
      {
        var item := HistoryItem(tickets[k], FindDraw(draws, tickets[k].drawId).value);
        if k < |init| {
          assert init[k] == tickets[k];
          assert item in prev;
          var w :| 0 <= w < |prev| && prev[w] == item;
          assert r[w] == item;
        } else {
          assert r[|r| - 1] == item;
        }
      }
    }
  }

  // ---------------------------------------------------------------------
  // Risk level
  // ---------------------------------------------------------------------

  datatype RiskLevel = Low | Medium | High | Critical

  function Rank(r: RiskLevel): nat
  {
    match r
    case Low => 0
    case Medium => 1
    case High => 2
    case Critical => 3
  }

  /** `calculateRiskLevel`: above five million critical, above two million
      high, above half a million medium, low otherwise. */
  function RiskLevelOf(potentialPayout: int): (r: RiskLevel)
    ensures r == Critical <==> potentialPayout > 5000000
    ensures r == High <==> 2000000 < potentialPayout <= 5000000
    ensures r == Medium <==> 500000 < potentialPayout <= 2000000
    ensures r == Low <==> potentialPayout <= 500000
  {
    if potentialPayout > 5000000 then Critical
    else if potentialPayout > 2000000 then High
    else if potentialPayout > 500000 then Medium
    else Low
  }

  /** A larger potential payout never has a lower risk level. */
  lemma RiskLevelMonotone(p: int, q: int)
    requires p <= q
    ensures Rank(RiskLevelOf(p)) <= Rank(RiskLevelOf(q))
  {
  }

  // ---------------------------------------------------------------------
  // String order
  // ---------------------------------------------------------------------

  /** JavaScript's `<` on strings: the first differing character decides,
      and a proper prefix comes first. */
  predicate LexLess(a: string, b: string)
  {
    if a == [] then b != []
    else if b == [] then false
    else if a[0] != b[0] then a[0] < b[0]
    else LexLess(a[1..], b[1..])
  }

  lemma {:induction false} LexLessIrreflexive(a: string)
    ensures !LexLess(a, a)
  {
    if a != [] {
      LexLessIrreflexive(a[1..]);
    }
  }

  lemma {:induction false} LexLessTransitive(a: string, b: string, c: string)
    requires LexLess(a, b) && LexLess(b, c)
    ensures LexLess(a, c)
  {
    if a != [] && b != [] && c != [] && a[0] == b[0] && b[0] == c[0] {
      LexLessTransitive(a[1..], b[1..], c[1..]);
    }
  }

  lemma {:induction false} LexLessTotal(a: string, b: string)
    ensures a == b || LexLess(a, b) || LexLess(b, a)
  {
    if a != [] && b != [] && a[0] == b[0] {
      LexLessTotal(a[1..], b[1..]);
      if a[1..] == b[1..] {
        assert a == [a[0]] + a[1..] && b == [b[0]] + b[1..];
      }
    }
  }

  /** The later of a stored date and a ticket's date, as the grouping keeps it. */
  function Latest(current: string, date: string): string
  {
    if LexLess(current, date) then date else current
  }

  // ---------------------------------------------------------------------
  // Sorting a combination
  // ---------------------------------------------------------------------

  /** The order `(a, b) => a - b` gives parsed numbers. An unparsable entry
      (NaN) is put first here; in JavaScript its place is left to the
      engine. */
  predicate NumLe(a: Option<int>, b: Option<int>)
  {
    a.None? || (b.Some? && a.value <= b.value)
  }

  predicate Ascending(s: seq<Option<int>>)
  {
    forall i, j :: 0 <= i < j < |s| ==> NumLe(s[i], s[j])
  }

  function InsertNumber(x: Option<int>, s: seq<Option<int>>): (r: seq<Option<int>>)
    ensures multiset(r) == multiset(s) + multiset{x}
  {
    if s == [] then [x]
    else if NumLe(x, s[0]) then [x] + s
    else
      assert s == [s[0]] + s[1..];
      [s[0]] + InsertNumber(x, s[1..])
  }

  lemma {:induction false} InsertNumberAscending(x: Option<int>, s: seq<Option<int>>)
    requires Ascending(s)
    ensures Ascending(InsertNumber(x, s))
  {
    if s != [] && !NumLe(x, s[0]) {
      var rest := InsertNumber(x, s[1..]);
      InsertNumberAscending(x, s[1..]);
      assert s == [s[0]] + s[1..];
      forall j | 0 <= j < |rest|
        ensures NumLe(s[0], rest[j])
      {
        assert rest[j] in multiset(rest);
        if rest[j] != x {
          assert rest[j] in multiset(s[1..]);
          var k :| 0 <= k < |s[1..]| && s[1..][k] == rest[j];
          assert s[k + 1] == rest[j];
        }
      }
    }
  }

  /** `sort((a, b) => a - b)`: ascending, the same numbers. */
  function SortNumbers(s: seq<Option<int>>): (r: seq<Option<int>>)
    ensures Ascending(r)
    ensures multiset(r) == multiset(s)
  {
    if s == [] then []
    else
      assert s == s[..|s| - 1] + [s[|s| - 1]];
      var sorted := SortNumbers(s[..|s| - 1]);
      InsertNumberAscending(s[|s| - 1], sorted);
      InsertNumber(s[|s| - 1], sorted)
  }

  /** The head of an ascending sequence is its least element. */
  lemma HeadIsLeast(a: seq<Option<int>>, x: Option<int>)
    requires Ascending(a) && x in multiset(a)
    ensures NumLe(a[0], x)
  {
    assert x in a;
    var i :| 0 <= i < |a| && a[i] == x;
    if i > 0 {
      assert NumLe(a[0], a[i]);
    }
  }

  lemma MultisetTail(a: seq<Option<int>>)
    requires a != []
    ensures multiset(a[1..]) == multiset(a) - multiset{a[0]}
  {
    assert a == [a[0]] + a[1..];
  }

  /** An ascending arrangement of given numbers is unique. */
  lemma {:induction false} AscendingUnique(a: seq<Option<int>>, b: seq<Option<int>>)
    requires Ascending(a) && Ascending(b) && multiset(a) == multiset(b)
    ensures a == b
  {
    if a == [] {
      assert |multiset(b)| == 0;
    } else {
      assert a[0] in multiset(a);
      assert b != [];
      assert b[0] in multiset(b);
      HeadIsLeast(a, b[0]);
      HeadIsLeast(b, a[0]);
      assert a[0] == b[0];
      MultisetTail(a);
      MultisetTail(b);
      assert Ascending(a[1..]) && Ascending(b[1..]);
      AscendingUnique(a[1..], b[1..]);
      assert a == [a[0]] + a[1..] && b == [b[0]] + b[1..];
    }
  }

  // ---------------------------------------------------------------------
  // Grouping the tickets of open draws by combination
  // ---------------------------------------------------------------------

  /** The key's numbers: the ticket's parsed numbers in ascending order. */
  function ComboNumbers(t: Ticket): seq<Option<int>>
  {
    SortNumbers(ParseNumbers(t.numbers))
  }

  /** The order the numbers are written in does not change the combination. */
  lemma ComboIgnoresOrder(t1: Ticket, t2: Ticket)
    requires multiset(ParseNumbers(t1.numbers)) == multiset(ParseNumbers(t2.numbers))
    ensures ComboNumbers(t1) == ComboNumbers(t2)
  {
    AscendingUnique(ComboNumbers(t1), ComboNumbers(t2));
  }

  /** One entry of the grouping map. The map's string key
      `<drawId>_<numbers joined by ','>` determines the draw and the sorted
      numbers and is determined by them (the joined numbers hold no `_`), so
      entries are looked up here by that pair. */
  datatype ComboGroup = ComboGroup(
    combination: seq<Option<int>>,
    count: nat,
    totalAmount: int,
    drawId: string,
    lastPlayed: string)

  /** The numbers a ticket is grouped under; `ComboNumbers` in the
      application. The grouping is stated for any such key. */
  type KeyOf = Ticket -> seq<Option<int>>

  predicate HasKey(g: ComboGroup, drawId: string, combo: seq<Option<int>>)
  {
    g.drawId == drawId && g.combination == combo
  }

  /** `combinationMap.get(key)`: the entry with that draw and combination. */
  function IndexOfGroup(gs: seq<ComboGroup>, drawId: string, combo: seq<Option<int>>): Option<nat>
  {
    FirstIndex(gs, (g: ComboGroup) => HasKey(g, drawId, combo))
  }

  /** The entry a ticket opens. */
  function NewGroup(t: Ticket, keyOf: KeyOf): ComboGroup
  {
    ComboGroup(keyOf(t), 1, t.betAmount, t.drawId, t.purchaseDate)
  }

  /** An existing entry taking one more ticket. */
  function Absorb(g: ComboGroup, t: Ticket): ComboGroup
  {
    g.(count := g.count + 1, totalAmount := g.totalAmount + t.betAmount,
       lastPlayed := Latest(g.lastPlayed, t.purchaseDate))
  }

  /** One step of the `forEach`: the ticket's entry grows, or a new entry is
      added at the end of the map. */
  function AddTicket(gs: seq<ComboGroup>, t: Ticket, keyOf: KeyOf): seq<ComboGroup>
  {
    match IndexOfGroup(gs, t.drawId, keyOf(t))
    case None => gs + [NewGroup(t, keyOf)]
    case Some(k) => gs[k := Absorb(gs[k], t)]
  }

  /** The map after the `forEach`, in insertion order. */
  function Groups(ts: seq<Ticket>, keyOf: KeyOf): seq<ComboGroup>
  {
    if ts == [] then [] else AddTicket(Groups(ts[..|ts| - 1], keyOf), ts[|ts| - 1], keyOf)
  }

  /** The tickets of one combination of one draw. */
  function Members(ts: seq<Ticket>, drawId: string, combo: seq<Option<int>>, keyOf: KeyOf): seq<Ticket>
  {
    Filter(ts, (t: Ticket) => t.drawId == drawId && keyOf(t) == combo)
  }

  /** How `AddTicket` moves the entry of a key. */
  lemma AddTicketIndex(gs: seq<ComboGroup>, t: Ticket, keyOf: KeyOf, drawId: string, combo: seq<Option<int>>)
    ensures var r := AddTicket(gs, t, keyOf);
      var i := IndexOfGroup(gs, drawId, combo);
      if t.drawId == drawId && keyOf(t) == combo then
        (i.None? ==> IndexOfGroup(r, drawId, combo) == Some(|gs|) && r[|gs|] == NewGroup(t, keyOf)) &&
        (i.Some? ==> IndexOfGroup(r, drawId, combo) == i && r[i.value] == Absorb(gs[i.value], t))
      else
        IndexOfGroup(r, drawId, combo) == i && (i.Some? ==> r[i.value] == gs[i.value])
  {
    var r := AddTicket(gs, t, keyOf);
    var p := (g: ComboGroup) => HasKey(g, drawId, combo);
    var i := IndexOfGroup(gs, drawId, combo);
    match IndexOfGroup(gs, t.drawId, keyOf(t))
    case None =>
      assert forall j :: 0 <= j < |gs| ==> r[j] == gs[j];
      if t.drawId == drawId && keyOf(t) == combo {
        FirstIndexAt(r, p, |gs|);
      } else if i.Some? {
        FirstIndexAt(r, p, i.value);
      }
    case Some(k) =>
      assert forall j :: 0 <= j < |gs| && j != k ==> r[j] == gs[j];
      assert HasKey(r[k], t.drawId, keyOf(t));
      if i.Some? {
        FirstIndexAt(r, p, i.value);
      }
  }

  /** The members of a key over one more ticket. */
  lemma MembersStep(ts: seq<Ticket>, drawId: string, combo: seq<Option<int>>, keyOf: KeyOf)
    requires ts != []
    ensures var t := ts[|ts| - 1];
      Members(ts, drawId, combo, keyOf) ==
        Members(ts[..|ts| - 1], drawId, combo, keyOf) + (if t.drawId == drawId && keyOf(t) == combo then [t] else [])
  {
  }

  /** Each entry counts the tickets of its draw and combination and sums
      their stakes; a key no ticket has gets no entry. */
  lemma {:induction false} GroupSummary(ts: seq<Ticket>, keyOf: KeyOf, drawId: string, combo: seq<Option<int>>)
    ensures var i := IndexOfGroup(Groups(ts, keyOf), drawId, combo);
      var ms := Members(ts, drawId, combo, keyOf);
      (i.None? <==> ms == []) &&
      (i.Some? ==> Groups(ts, keyOf)[i.value].count == |ms| &&
                   Groups(ts, keyOf)[i.value].totalAmount == TotalBets(ms))
  {
    if ts != [] {
      var init, t := ts[..|ts| - 1], ts[|ts| - 1];
      GroupSummary(init, keyOf, drawId, combo);
      AddTicketIndex(Groups(init, keyOf), t, keyOf, drawId, combo);
      MembersStep(ts, drawId, combo, keyOf);
      var ms0 := Members(init, drawId, combo, keyOf);
      if t.drawId == drawId && keyOf(t) == combo {
        var ms := ms0 + [t];
        assert ms[..|ms| - 1] == ms0;
        assert TotalBets(ms) == TotalBets(ms0) + t.betAmount;
      } else {
        assert ms0 + [] == ms0;
      }
    }
  }

  /** `date` is one of `dates` and no date comes after it. */
  ghost predicate LatestOf(date: string, dates: seq<string>)
  {
    (forall m :: 0 <= m < |dates| ==> !LexLess(date, dates[m])) &&
    exists m :: 0 <= m < |dates| && dates[m] == date
  }

  /** The date an entry keeps stays the latest when a ticket joins. */
  lemma LatestStep(dates: seq<string>, current: string, date: string)
    requires LatestOf(current, dates)
    ensures LatestOf(Latest(current, date), dates + [date])
  {
    var next := Latest(current, date);
    var all := dates + [date];
    LexLessIrreflexive(next);
    LexLessTotal(current, date);
    forall m | 0 <= m < |all|
      ensures !LexLess(next, all[m])
    {
      if m < |dates| && LexLess(next, dates[m]) && LexLess(current, date) {
        LexLessTransitive(current, date, dates[m]);
      }
    }
    if next == current {
      var w :| 0 <= w < |dates| && dates[w] == current;
      assert all[w] == next;
    } else {
      assert all[|dates|] == next;
    }
  }

  function Dates(ts: seq<Ticket>): seq<string>
  {
    seq(|ts|, m requires 0 <= m < |ts| => ts[m].purchaseDate)
  }

  /** An entry's `lastPlayed` is the latest purchase date of its tickets. */
  lemma {:induction false} GroupLastPlayed(ts: seq<Ticket>, keyOf: KeyOf, drawId: string, combo: seq<Option<int>>)
    ensures IndexOfGroup(Groups(ts, keyOf), drawId, combo).Some? ==>
      LatestOf(Groups(ts, keyOf)[IndexOfGroup(Groups(ts, keyOf), drawId, combo).value].lastPlayed,
               Dates(Members(ts, drawId, combo, keyOf)))
  {
    if ts != [] {
      var init, t := ts[..|ts| - 1], ts[|ts| - 1];
      GroupLastPlayed(init, keyOf, drawId, combo);
      GroupSummary(init, keyOf, drawId, combo);
      AddTicketIndex(Groups(init, keyOf), t, keyOf, drawId, combo);
      MembersStep(ts, drawId, combo, keyOf);
      var ms0 := Members(init, drawId, combo, keyOf);
      var i0 := IndexOfGroup(Groups(init, keyOf), drawId, combo);
      if t.drawId == drawId && keyOf(t) == combo {
        assert Dates(ms0 + [t]) == Dates(ms0) + [t.purchaseDate];
        if i0.None? {
          LexLessIrreflexive(t.purchaseDate);
          assert Dates(ms0 + [t]) == [t.purchaseDate];
          assert Dates(ms0 + [t])[0] == t.purchaseDate;
        } else {
          LatestStep(Dates(ms0), Groups(init, keyOf)[i0.value].lastPlayed, t.purchaseDate);
        }
      } else {
        assert ms0 + [] == ms0;
      }
    }
  }

  predicate DistinctKeys(gs: seq<ComboGroup>)
  {
    forall i, j :: 0 <= i < j < |gs| ==> !HasKey(gs[j], gs[i].drawId, gs[i].combination)
  }

  /** No two entries share a key. */
  lemma {:induction false} GroupKeysDistinct(ts: seq<Ticket>, keyOf: KeyOf)
    ensures DistinctKeys(Groups(ts, keyOf))
  {
    if ts != [] {
      var init, t := ts[..|ts| - 1], ts[|ts| - 1];
      GroupKeysDistinct(init, keyOf);
      var gs0 := Groups(init, keyOf);
      var gs := Groups(ts, keyOf);
      match IndexOfGroup(gs0, t.drawId, keyOf(t))
      case None =>
        forall i, j | 0 <= i < j < |gs|
          ensures !HasKey(gs[j], gs[i].drawId, gs[i].combination)
        {
          assert gs[i] == gs0[i];
          if j < |gs0| {
            assert gs[j] == gs0[j];
          } else {
            assert gs[j] == NewGroup(t, keyOf);
            assert !HasKey(gs0[i], t.drawId, keyOf(t));
          }
        }
      case Some(k) =>
        forall i, j | 0 <= i < j < |gs|
          ensures !HasKey(gs[j], gs[i].drawId, gs[i].combination)
        {
          assert HasKey(gs[i], gs0[i].drawId, gs0[i].combination);
          assert HasKey(gs[j], gs0[j].drawId, gs0[j].combination);
          assert !HasKey(gs0[j], gs0[i].drawId, gs0[i].combination);
        }
    }
  }

  /** Every ticket is counted once and every stake once: the entries' counts
      add up to the number of tickets and their amounts to the total stake. */
  lemma {:induction false} GroupTotals(ts: seq<Ticket>, keyOf: KeyOf)
    ensures Sum(Groups(ts, keyOf), (g: ComboGroup) => g.count) == |ts|
    ensures Sum(Groups(ts, keyOf), (g: ComboGroup) => g.totalAmount) == TotalBets(ts)
  {
    if ts != [] {
      var init, t := ts[..|ts| - 1], ts[|ts| - 1];
      GroupTotals(init, keyOf);
      var gs0 := Groups(init, keyOf);
      match IndexOfGroup(gs0, t.drawId, keyOf(t))
      case None =>
        SumAppend(gs0, [NewGroup(t, keyOf)], (g: ComboGroup) => g.count);
        SumAppend(gs0, [NewGroup(t, keyOf)], (g: ComboGroup) => g.totalAmount);
        assert [NewGroup(t, keyOf)][..0] == [];
      case Some(k) =>
        SumUpdate(gs0, k, Absorb(gs0[k], t), (g: ComboGroup) => g.count);
        SumUpdate(gs0, k, Absorb(gs0[k], t), (g: ComboGroup) => g.totalAmount);
    }
  }

  /** `tickets.forEach(...)` filling the map. */
  method GroupTickets(ts: seq<Ticket>, keyOf: KeyOf) returns (gs: seq<ComboGroup>)
    ensures gs == Groups(ts, keyOf)
  {
    gs := [];
    var i := 0;
    while i < |ts|
      invariant 0 <= i <= |ts|
      invariant gs == Groups(ts[..i], keyOf)
    {
      var t := ts[i];
      assert ts[..i + 1][..i] == ts[..i];
      var found := IndexOfGroup(gs, t.drawId, keyOf(t));
      if found.Some? {
        var k := found.value;
        gs := gs[k := Absorb(gs[k], t)];
      } else {
        gs := gs + [NewGroup(t, keyOf)];
      }
      i := i + 1;
    }
    assert ts[..i] == ts;
  }

  // ---------------------------------------------------------------------
  // The statistics
  // ---------------------------------------------------------------------

  /** The multiplier the estimate uses for every bet type. */
  const AverageMultiplier: int := 500

  datatype CombinationStat = CombinationStat(
    combination: seq<Option<int>>,
    combinationStr: string,
    count: nat,
    totalAmount: int,
    operatorId: string,
    operatorName: string,
    riskLevel: RiskLevel,
    lastPlayed: string,
    potentialPayout: int)

  /** A parsed number as `join` writes it; NaN for an unparsable one. */
  function NumberText(n: Option<int>): string
  {
    match n
    case None => "NaN"
    case Some(v) => IntToString(v)
  }

  /** `combination.join(', ')`. */
  function CombinationText(combo: seq<Option<int>>): string
  {
    Join(seq(|combo|, i requires 0 <= i < |combo| => NumberText(combo[i])), ", ")
  }

  function StatOperatorName(d: Draw): string
  {
    match Games.OperatorById(d.operatorId)
    case Some(o) => o.name
    case None => "Inconnu"
  }

  /** The statistic of one entry, with the first draw of its id. */
  function StatOf(g: ComboGroup, d: Draw): CombinationStat
  {
    var potentialPayout := g.totalAmount * AverageMultiplier;
    CombinationStat(g.combination, CombinationText(g.combination), g.count, g.totalAmount,
                    d.operatorId, StatOperatorName(d), RiskLevelOf(potentialPayout), g.lastPlayed,
                    potentialPayout)
  }

  /** A statistic that reports an entry: its numbers, count, amount and date,
      the estimate at the average multiplier, the matching risk level, and
      the operator of the entry's draw -- its name when the operator is
      known, 'Inconnu' otherwise. */
  predicate Reports(s: CombinationStat, g: ComboGroup, draws: seq<Draw>)
  {
    s.combination == g.combination && s.count == g.count && s.totalAmount == g.totalAmount &&
    s.lastPlayed == g.lastPlayed && s.potentialPayout == g.totalAmount * AverageMultiplier &&
    s.riskLevel == RiskLevelOf(s.potentialPayout) &&
    match FindDraw(draws, g.drawId)
    case None => false
    case Some(d) =>
      s.operatorId == d.operatorId &&
      s.operatorName == (if Games.OperatorById(d.operatorId).Some?
                         then Games.OperatorById(d.operatorId).value.name else "Inconnu")
  }

  /** `combinationMap.forEach(...)`: one statistic per entry whose draw is
      found, in map order. */
  function StatsOf(gs: seq<ComboGroup>, draws: seq<Draw>): (r: seq<CombinationStat>)
    ensures |r| == Count(gs, (g: ComboGroup) => FindDraw(draws, g.drawId).Some?)
    ensures forall i :: 0 <= i < |r| ==> exists k :: 0 <= k < |gs| && Reports(r[i], gs[k], draws)
  {
    if gs == [] then []
    else
      var g := gs[|gs| - 1];
      var prev := StatsOf(gs[..|gs| - 1], draws);
      var r := prev + match FindDraw(draws, g.drawId) {
        case None => []
        case Some(d) => [StatOf(g, d)]
      };
      assert forall i :: 0 <= i < |prev| ==> r[i] == prev[i];
      assert forall k :: 0 <= k < |gs| - 1 ==> gs[..|gs| - 1][k] == gs[k];
      r
  }

  /** No entry whose draw is found goes unreported. */
  lemma {:induction false} StatsOfComplete(gs: seq<ComboGroup>, draws: seq<Draw>, k: nat)
    requires k < |gs| && FindDraw(draws, gs[k].drawId).Some?
    ensures ReportedIn(StatsOf(gs, draws), gs[k], draws)
  {
    var init := gs[..|gs| - 1];
    var prev := StatsOf(init, draws);
    var r := StatsOf(gs, draws);
    assert forall i :: 0 <= i < |prev| ==> r[i] == prev[i];
    if k < |gs| - 1 {
      assert init[k] == gs[k];
      StatsOfComplete(init, draws, k);
      var i :| 0 <= i < |prev| && Reports(prev[i], gs[k], draws);
      assert Reports(r[i], gs[k], draws);
    } else {
      assert Reports(r[|prev|], gs[k], draws);
    }
  }

  predicate PayoutDescending(s: seq<CombinationStat>)
  {
    forall i, j :: 0 <= i < j < |s| ==> s[i].potentialPayout >= s[j].potentialPayout
  }

  /** Places a statistic after every one with at least its payout. */
  function InsertStat(x: CombinationStat, s: seq<CombinationStat>): (r: seq<CombinationStat>)
    ensures multiset(r) == multiset(s) + multiset{x}
  {
    if s == [] then [x]
    else if s[0].potentialPayout < x.potentialPayout then [x] + s
    else
      assert s == [s[0]] + s[1..];
      [s[0]] + InsertStat(x, s[1..])
  }

  lemma {:induction false} InsertStatDescending(x: CombinationStat, s: seq<CombinationStat>)
    requires PayoutDescending(s)
    ensures PayoutDescending(InsertStat(x, s))
  {
    if s != [] && s[0].potentialPayout >= x.potentialPayout {
      var rest := InsertStat(x, s[1..]);
      InsertStatDescending(x, s[1..]);
      assert s == [s[0]] + s[1..];
      forall j | 0 <= j < |rest|
        ensures s[0].potentialPayout >= rest[j].potentialPayout
      {
        assert rest[j] in multiset(rest);
        if rest[j] != x {
          assert rest[j] in multiset(s[1..]);
          var k :| 0 <= k < |s[1..]| && s[1..][k] == rest[j];
          assert s[k + 1] == rest[j];
        }
      }
    }
  }

  /** `stats.sort((a, b) => b.potentialPayout - a.potentialPayout)`, a
      stable sort: by decreasing payout, the same statistics. */
  function SortByPayout(s: seq<CombinationStat>): (r: seq<CombinationStat>)
    ensures PayoutDescending(r)
    ensures multiset(r) == multiset(s)
  {
    if s == [] then []
    else
      assert s == s[..|s| - 1] + [s[|s| - 1]];
      var sorted := SortByPayout(s[..|s| - 1]);
      InsertStatDescending(s[|s| - 1], sorted);
      InsertStat(s[|s| - 1], sorted)
  }

  /** A draw that is still open for bets. */
  predicate OpenDraw(draws: seq<Draw>, id: string)
  {
    exists k :: 0 <= k < |draws| && draws[k].id == id && draws[k].status != Completed
  }

  /** The tickets of upcoming or pending draws. */
  function OpenTickets(tickets: seq<Ticket>, draws: seq<Draw>): (r: seq<Ticket>)
    ensures forall i :: 0 <= i < |r| ==> r[i] in tickets && OpenDraw(draws, r[i].drawId)
    ensures forall i :: 0 <= i < |tickets| && OpenDraw(draws, tickets[i].drawId) ==> tickets[i] in r
  {
    Filter(tickets, (t: Ticket) => OpenDraw(draws, t.drawId))
  }

  /** `getCombinationStats` over all tickets: group the tickets of open
      draws by draw and sorted numbers, report each entry, most exposed
      first. */
  method GetCombinationStats(tickets: seq<Ticket>, draws: seq<Draw>) returns (stats: seq<CombinationStat>)
    ensures stats == SortByPayout(StatsOf(Groups(OpenTickets(tickets, draws), ComboNumbers), draws))
  {
    var open := OpenTickets(tickets, draws);
    var groups := GroupTickets(open, ComboNumbers);
    stats := SortByPayout(StatsOf(groups, draws));
  }

  /** Every entry's draw can be found. */
  predicate DrawsFound(gs: seq<ComboGroup>, draws: seq<Draw>)
  {
    forall k :: 0 <= k < |gs| ==> FindDraw(draws, gs[k].drawId).Some?
  }

  /** Sorting neither adds nor drops a statistic. */
  lemma SortKeepsStats(st: seq<CombinationStat>)
    ensures var stats := SortByPayout(st);
      |stats| == |st| &&
      (forall i :: 0 <= i < |stats| ==> stats[i] in st) &&
      (forall j :: 0 <= j < |st| ==> st[j] in stats)
  {
    var stats := SortByPayout(st);
    assert |multiset(stats)| == |multiset(st)|;
    forall i | 0 <= i < |stats|
      ensures stats[i] in st
    {
      assert stats[i] in multiset(st);
    }
    forall j | 0 <= j < |st|
      ensures st[j] in stats
    {
      assert st[j] in multiset(stats);
    }
  }

  /** Some statistic of the list reports the entry. */
  predicate ReportedIn(stats: seq<CombinationStat>, g: ComboGroup, draws: seq<Draw>)
  {
    exists i :: 0 <= i < |stats| && Reports(stats[i], g, draws)
  }

  /** Sorting keeps every statistic, so each still reports an entry. */
  lemma SortKeepsReports(st: seq<CombinationStat>, gs: seq<ComboGroup>, draws: seq<Draw>)
    requires forall j :: 0 <= j < |st| ==> exists k :: 0 <= k < |gs| && Reports(st[j], gs[k], draws)
    ensures var stats := SortByPayout(st);
      |stats| == |st| &&
      forall i :: 0 <= i < |stats| ==> exists k :: 0 <= k < |gs| && Reports(stats[i], gs[k], draws)
  {
    var stats := SortByPayout(st);
    SortKeepsStats(st);
    forall i | 0 <= i < |stats|
      ensures exists k :: 0 <= k < |gs| && Reports(stats[i], gs[k], draws)
    {
      var j :| 0 <= j < |st| && st[j] == stats[i];
    }
  }

  /** Sorting drops no statistic, so an entry reported before is reported after. */
  lemma SortKeepsReported(st: seq<CombinationStat>, g: ComboGroup, draws: seq<Draw>)
    requires ReportedIn(st, g, draws)
    ensures ReportedIn(SortByPayout(st), g, draws)
  {
    var stats := SortByPayout(st);
    SortKeepsStats(st);
    var j :| 0 <= j < |st| && Reports(st[j], g, draws);
    var i :| 0 <= i < |stats| && stats[i] == st[j];
  }

  /** Every entry of tickets of open draws has its draw. */
  lemma {:induction false} GroupsHaveDraws(ts: seq<Ticket>, draws: seq<Draw>, keyOf: KeyOf)
    requires forall i :: 0 <= i < |ts| ==> OpenDraw(draws, ts[i].drawId)
    ensures DrawsFound(Groups(ts, keyOf), draws)
  {
    if ts != [] {
      var init, t := ts[..|ts| - 1], ts[|ts| - 1];
      assert forall i :: 0 <= i < |init| ==> init[i] == ts[i];
      GroupsHaveDraws(init, draws, keyOf);
      var gs0 := Groups(init, keyOf);
      var gs := Groups(ts, keyOf);
      assert OpenDraw(draws, t.drawId);
      assert FindDraw(draws, t.drawId).Some?;
      forall j | 0 <= j < |gs|
        ensures FindDraw(draws, gs[j].drawId).Some?
      {
        if j < |gs0| {
          assert gs[j].drawId == gs0[j].drawId;
        } else {
          assert gs[j].drawId == t.drawId;
        }
      }
    }
  }

  /** What the statistics say: the entries come most exposed first, each
      reports the count, stake and latest date of one entry of the grouping
      -- which counts every open ticket once, under the sorted numbers it
      was written with -- and none is missing. */
  lemma CombinationStatsSpec(tickets: seq<Ticket>, draws: seq<Draw>)
    ensures var open := OpenTickets(tickets, draws);
      var gs := Groups(open, ComboNumbers);
      var stats := SortByPayout(StatsOf(gs, draws));
      PayoutDescending(stats) &&
      |stats| == |gs| &&
      (forall i :: 0 <= i < |stats| ==> exists k :: 0 <= k < |gs| && Reports(stats[i], gs[k], draws)) &&
      (forall k :: 0 <= k < |gs| ==> ReportedIn(stats, gs[k], draws)) &&
      Sum(gs, (g: ComboGroup) => g.count) == |open| &&
      Sum(gs, (g: ComboGroup) => g.totalAmount) == TotalBets(open)
  {
    var open := OpenTickets(tickets, draws);
    GroupTotals(open, ComboNumbers);
    var gs := Groups(open, ComboNumbers);
    GroupsHaveDraws(open, draws, ComboNumbers);
    CountAll(gs, (g: ComboGroup) => FindDraw(draws, g.drawId).Some?);
    SortKeepsReports(StatsOf(gs, draws), gs, draws);
    forall k | 0 <= k < |gs|
      ensures ReportedIn(SortByPayout(StatsOf(gs, draws)), gs[k], draws)
    {
      StatsOfComplete(gs, draws, k);
      SortKeepsReported(StatsOf(gs, draws), gs[k], draws);
    }
  }
}

=== FILE: win_notification.dfy ===
/**
 * The win notification panel of src/components/WinNotification.tsx: which
 * tickets are announced as new wins, how closing the panel records them in
 * the stored list of seen wins, and how "next" walks through them.
 */
module WinNotification {
  import opened Common
  import opened Payout

  /** `t.status === 'won' && t.winAmount && t.winAmount > 0`: an absent or
      zero amount is falsy. */
  predicate IsWin(t: Ticket)
  {
    t.status == Won && t.winAmount.Some? && t.winAmount.value > 0
  }

  /** The wins whose id is not in the stored seen list, in ticket order. */
  function UnreadWins(tickets: seq<Ticket>, seen: seq<string>): (r: seq<Ticket>)
    ensures forall i :: 0 <= i < |r| ==> r[i] in tickets && IsWin(r[i]) && r[i].id !in seen
    ensures forall i :: 0 <= i < |tickets| && IsWin(tickets[i]) && tickets[i].id !in seen ==> tickets[i] in r
  {
    Filter(Filter(tickets, IsWin), (t: Ticket) => t.id !in seen)
  }

  /** The seen list after walking `wins` in order and appending each id that
      is still missing. */
  function MarkSeen(seen: seq<string>, wins: seq<Ticket>): (r: seq<string>)
    ensures seen <= r
    ensures |r| <= |seen| + |wins|
    ensures forall i :: 0 <= i < |wins| ==> wins[i].id in r
    ensures forall k :: |seen| <= k < |r| ==> exists i :: 0 <= i < |wins| && wins[i].id == r[k]
  {
    if wins == [] then seen
    else
      var s := MarkSeen(seen, wins[..|wins| - 1]);
      var id := wins[|wins| - 1].id;
      if id in s then s else s + [id]
  }

  ghost predicate NoDuplicates(s: seq<string>)
  {
    forall i, j :: 0 <= i < j < |s| ==> s[i] != s[j]
  }

  /** Closing never stores an id twice. */
  lemma {:induction false} MarkSeenNoDuplicates(seen: seq<string>, wins: seq<Ticket>)
    requires NoDuplicates(seen)
    ensures NoDuplicates(MarkSeen(seen, wins))
  {
    if wins != [] {
      MarkSeenNoDuplicates(seen, wins[..|wins| - 1]);
    }
  }

  /** Closing the same wins a second time leaves the seen list as it is. */
  lemma MarkSeenIdempotent(seen: seq<string>, wins: seq<Ticket>)
    ensures MarkSeen(MarkSeen(seen, wins), wins) == MarkSeen(seen, wins)
  {
    MarkSeenAllPresent(MarkSeen(seen, wins), wins);
  }

  /** Walking wins whose ids are all present already adds nothing. */
  lemma {:induction false} MarkSeenAllPresent(seen: seq<string>, wins: seq<Ticket>)
    requires forall i :: 0 <= i < |wins| ==> wins[i].id in seen
    ensures MarkSeen(seen, wins) == seen
  {
    if wins != [] {
      MarkSeenAllPresent(seen, wins[..|wins| - 1]);
    }
  }

  /** A win that has been closed is never announced by a later check,
      whatever the tickets then are. */
  lemma ClosedWinsStayRead(tickets: seq<Ticket>, seen: seq<string>, wins: seq<Ticket>)
    ensures forall k, i :: 0 <= k < |UnreadWins(tickets, MarkSeen(seen, wins))| && 0 <= i < |wins| ==>
              UnreadWins(tickets, MarkSeen(seen, wins))[k].id != wins[i].id
  {
  }

  /** The panel's state and the stored seen list it reads and writes. */
  class Panel {
    var newWins: seq<Ticket>
    var currentIndex: nat
    var seenWins: seq<string>

    /** The index points at a pending win, or is 0. */
    ghost predicate Consistent()
      reads this
    {
      currentIndex == 0 || currentIndex < |newWins|
    }

    constructor(stored: seq<string>)
      ensures newWins == [] && currentIndex == 0 && seenWins == stored
      ensures Consistent()
    {
      newWins := [];
      currentIndex := 0;
      seenWins := stored;
    }

    /** `checkWins`: announces the unread wins, if there are any. */
    method CheckWins(tickets: seq<Ticket>)
      modifies this
      ensures var unread := UnreadWins(tickets, old(seenWins));
              newWins == (if |unread| > 0 then unread else old(newWins))
      ensures currentIndex == old(currentIndex) && seenWins == old(seenWins)
      ensures old(currentIndex) == 0 ==> Consistent()
    {
      var won := Filter(tickets, IsWin);
      if |won| > 0 {
        var unread := UnreadWins(tickets, seenWins);
        if |unread| > 0 {
          newWins := unread;
        }
      } else {
        assert UnreadWins(tickets, seenWins) == [];
      }
    }

    /** `handleClose`: records every pending win as seen and empties the
        panel. */
    method Close()
      modifies this
      ensures seenWins == MarkSeen(old(seenWins), old(newWins))
      ensures newWins == [] && currentIndex == 0
    {
      var seen := seenWins;
      var i := 0;
      while i < |newWins|
        invariant 0 <= i <= |newWins|
        invariant seen == MarkSeen(seenWins, newWins[..i])
      {
        assert newWins[..i + 1][..i] == newWins[..i];
        if newWins[i].id !in seen {
          seen := seen + [newWins[i].id];
        }
        i := i + 1;
      }
      assert newWins[..i] == newWins;
      seenWins := seen;
      newWins := [];
      currentIndex := 0;
    }

    /** `handleNext`: moves to the next win, or closes after the last. */
    method Next()
      modifies this
      ensures old(currentIndex) < |old(newWins)| - 1 ==>
                currentIndex == old(currentIndex) + 1 && newWins == old(newWins) && seenWins == old(seenWins)
      ensures old(currentIndex) >= |old(newWins)| - 1 ==>
                newWins == [] && currentIndex == 0 && seenWins == MarkSeen(old(seenWins), old(newWins))
      ensures Consistent()
    {
      if currentIndex < |newWins| - 1 {
        currentIndex := currentIndex + 1;
      } else {
        Close();
      }
    }

    /** `newWins[currentIndex]`; the panel renders nothing when it is absent. */
    function CurrentWin(): (r: Option<Ticket>)
      reads this
      ensures r.Some? <==> currentIndex < |newWins|
      ensures r.Some? ==> r.value in newWins
    {
      if currentIndex < |newWins| then Some(newWins[currentIndex]) else None
    }
  }
}

=== FILE: withdraw_modal.dfy ===
/**
 * The three-step withdrawal wizard (src/components/WithdrawModal.tsx):
 * step 1 takes the amount, step 2 the Mobile Money operator, step 3 the
 * payout phone number, each step guarded by its own check. The component's
 * state hooks are the fields of `Wizard`; the current user's stored phone
 * and the displayed balance are parameters.
 */
module WithdrawModal {
  import opened Common
  import opened Auth

  /** The quick-amount buttons. */
  const QuickAmounts: seq<int> := [1000, 5000, 10000, 25000, 50000]

  const DefaultCountryCode: string := "+228"

  /** The country code derived from the stored phone: `'+'` and its first
      three characters (fewer when the phone is shorter), `"+228"` when there
      is no stored phone. */
  function CountryCode(userPhone: string): (r: string)
    ensures userPhone == "" ==> r == DefaultCountryCode
    ensures userPhone != "" ==> |r| == 1 + Min(3, |userPhone|) && r[0] == '+'
    ensures userPhone != "" ==> StartsWith(userPhone, r[1..])
  {
    if userPhone == "" then DefaultCountryCode
    else "+" + userPhone[..Min(3, |userPhone|)]
  }

  function Min(a: int, b: int): int
  {
    if a < b then a else b
  }

  /** `phoneNumber.substring(3)`: the stored phone without its country code. */
  function LocalNumber(userPhone: string): (r: string)
    ensures |r| == if |userPhone| <= 3 then 0 else |userPhone| - 3
  {
    if |userPhone| <= 3 then "" else userPhone[3..]
  }

  /** The country code's digits followed by the local number give back the
      stored phone. */
  lemma SplitPhoneRoundTrip(userPhone: string)
    requires userPhone != ""
    ensures CountryCode(userPhone)[1..] + LocalNumber(userPhone) == userPhone
  {
    var code := CountryCode(userPhone);
    assert code[1..] == userPhone[..Min(3, |userPhone|)];
    if |userPhone| > 3 {
      assert userPhone[..3] + userPhone[3..] == userPhone;
    }
  }

  /** The quick amounts offered: those not above the balance, in order. */
  function AvailableQuickAmounts(balance: int): (r: seq<int>)
    ensures forall i :: 0 <= i < |r| ==> r[i] in QuickAmounts && r[i] <= balance
    ensures forall k :: 0 <= k < |QuickAmounts| && QuickAmounts[k] <= balance ==> QuickAmounts[k] in r
  {
    Filter(QuickAmounts, (qa: int) => qa <= balance)
  }

  const InvalidAmountMessage: string := "Veuillez entrer un montant valide"
  const MinimumAmountMessage: string := "Le montant minimum de retrait est 500 F CFA"
  const InsufficientBalanceMessage: string := "Solde insuffisant"
  const NoOperatorMessage: string := "Veuillez sélectionner un opérateur"
  const InvalidPhoneMessage: string := "Veuillez entrer un numéro valide"
  const WrongOperatorMessage: string := "Numéro invalide pour cet opérateur"

  const MinimumAmount: real := 500.0

  /** The step-1 check on the parsed amount (`None` for an empty field):
      an empty or non-positive amount, then one under 500, then one above the
      balance are refused, in that order. */
  function AmountError(amount: Option<real>, balance: int): (r: Option<string>)
    ensures r.None? <==> amount.Some? && MinimumAmount <= amount.value <= balance as real
    ensures amount.None? || amount.value <= 0.0 ==> r == Some(InvalidAmountMessage)
    ensures amount.Some? && 0.0 < amount.value < MinimumAmount ==> r == Some(MinimumAmountMessage)
  {
    if amount.None? || amount.value <= 0.0 then Some(InvalidAmountMessage)
    else if amount.value < MinimumAmount then Some(MinimumAmountMessage)
    else if amount.value > balance as real then Some(InsufficientBalanceMessage)
    else None
  }

  /** The step-3 check: at least eight characters, then the operator's own
      validation, whose message is shown when it has one. */
  function PhoneError(phoneNumber: string, countryCode: string, provider: string): (r: Option<string>)
    ensures r.None? <==> |phoneNumber| >= 8 && ValidateNumberForOperator(phoneNumber, countryCode, provider) == Valid
    ensures |phoneNumber| < 8 ==> r == Some(InvalidPhoneMessage)
  {
    if |phoneNumber| < 8 then Some(InvalidPhoneMessage)
    else match ValidateNumberForOperator(phoneNumber, countryCode, provider)
      case Valid => None
      case Invalid(message) => Some(if message == "" then WrongOperatorMessage else message)
  }

  /** The stored phone's local part is valid for the chosen operator. */
  predicate LocalNumberFits(userPhone: string, provider: string)
  {
    ValidateNumberForOperator(LocalNumber(userPhone), CountryCode(userPhone), provider) == Valid
  }

  /** A number the prefill keeps passes the step-3 check once it has the
      eight characters that check asks for. */
  lemma PrefillPassesPhoneCheck(userPhone: string, provider: string)
    requires LocalNumberFits(userPhone, provider) && |LocalNumber(userPhone)| >= 8
    ensures PhoneError(LocalNumber(userPhone), CountryCode(userPhone), provider) == None
  {
  }

  /** The phone field's `onChange`: only digits are kept. */
  function DigitsOnly(s: string): (r: string)
    ensures AllDigits(r)
    ensures AllDigits(s) ==> r == s
  {
    RemoveWhere(s, (c: char) => !IsDigit(c))
  }

  /** The `onWithdraw(amount, provider, phoneNumber)` call. */
  datatype Order = Order(amount: real, provider: string, phoneNumber: string)

  /** What pressing the main button did. */
  datatype StepOutcome = Moved | Refused(message: string) | Submitted(order: Order)

  class Wizard {
    var amount: Option<real>
    var provider: string
    var phoneNumber: string
    var step: int
    var detectedOperator: Option<string>
    var hasPreFilled: bool

    /** The step is one of the three, and past step 1 there is an amount. */
    ghost predicate Consistent()
      reads this
    {
      1 <= step <= 3 && (step >= 2 ==> amount.Some?)
    }

    constructor ()
      ensures amount == None && provider == "" && phoneNumber == "" && step == 1
      ensures detectedOperator == None && !hasPreFilled && Consistent()
    {
      amount := None;
      provider := "";
      phoneNumber := "";
      step := 1;
      detectedOperator := None;
      hasPreFilled := false;
    }

    /** Typing an amount or pressing a quick amount; the field is shown on
        step 1 only. */
    method EnterAmount(value: Option<real>)
      requires Consistent() && step == 1
      modifies this
      ensures amount == value && Consistent()
      ensures provider == old(provider) && phoneNumber == old(phoneNumber) && step == old(step)
      ensures detectedOperator == old(detectedOperator) && hasPreFilled == old(hasPreFilled)
    {
      amount := value;
    }

    method ChooseProvider(id: string)
      requires Consistent()
      modifies this
      ensures provider == id && Consistent()
      ensures amount == old(amount) && phoneNumber == old(phoneNumber) && step == old(step)
      ensures detectedOperator == old(detectedOperator) && hasPreFilled == old(hasPreFilled)
    {
      provider := id;
    }

    method EnterPhone(text: string)
      requires Consistent()
      modifies this
      ensures phoneNumber == DigitsOnly(text) && Consistent()
      ensures amount == old(amount) && provider == old(provider) && step == old(step)
      ensures detectedOperator == old(detectedOperator) && hasPreFilled == old(hasPreFilled)
    {
      phoneNumber := DigitsOnly(text);
    }

    /** `handleContinue`. Step 1 moves on only for an accepted amount, step 2
        only with an operator chosen; step 3 submits only a phone the
        operator accepts, then clears the form and returns to step 1. */
    method Continue(balance: int, userPhone: string) returns (outcome: StepOutcome)
      requires Consistent()
      modifies this
      ensures Consistent()
      ensures old(step) == 1 ==>
        (AmountError(old(amount), balance).None? ==> outcome == Moved && step == 2) &&
        (AmountError(old(amount), balance).Some? ==>
           outcome == Refused(AmountError(old(amount), balance).value) && step == 1)
      ensures old(step) == 2 ==>
        (old(provider) != "" ==> outcome == Moved && step == 3) &&
        (old(provider) == "" ==> outcome == Refused(NoOperatorMessage) && step == 2)
      ensures old(step) == 3 ==>
        var error := PhoneError(old(phoneNumber), CountryCode(userPhone), old(provider));
        (error.Some? ==> outcome == Refused(error.value) && step == 3) &&
        (error.None? ==> outcome == Submitted(Order(old(amount).value, old(provider), old(phoneNumber))) &&
                         Cleared())
      ensures outcome.Refused? ==> step == old(step)
      ensures !outcome.Submitted? ==>
        amount == old(amount) && provider == old(provider) &&
        phoneNumber == old(phoneNumber) && hasPreFilled == old(hasPreFilled)
      ensures detectedOperator == old(detectedOperator)
    {
      if step == 1 {
        var error := AmountError(amount, balance);
        if error.Some? {
          return Refused(error.value);
        }
        step := 2;
        outcome := Moved;
      } else if step == 2 {
        if provider == "" {
          return Refused(NoOperatorMessage);
        }
        step := 3;
        outcome := Moved;
      } else {
        var error := PhoneError(phoneNumber, CountryCode(userPhone), provider);
        if error.Some? {
          return Refused(error.value);
        }
        outcome := Submitted(Order(amount.value, provider, phoneNumber));
        Clear();
      }
    }

    /** The form after a submission: back at step 1 with every field empty. */
    predicate Cleared()
      reads this
    {
      step == 1 && amount == None && provider == "" && phoneNumber == "" && !hasPreFilled
    }

    method Clear()
      modifies this
      ensures Cleared() && detectedOperator == old(detectedOperator)
    {
      amount := None;
      provider := "";
      phoneNumber := "";
      step := 1;
      hasPreFilled := false;
    }

    /** `handleBack`: one step back, never below step 1. */
    method Back()
      requires Consistent()
      modifies this
      ensures step == if old(step) > 1 then old(step) - 1 else old(step)
      ensures amount == old(amount) && provider == old(provider) && phoneNumber == old(phoneNumber)
      ensures detectedOperator == old(detectedOperator) && hasPreFilled == old(hasPreFilled)
      ensures Consistent()
    {
      if step > 1 {
        step := step - 1;
      }
    }

    /** `handleClose`: the amount and operator are cleared and the wizard is
        back at step 1; the phone field and the prefill flag are kept. */
    method Close()
      requires Consistent()
      modifies this
      ensures amount == None && provider == "" && step == 1
      ensures phoneNumber == old(phoneNumber) && detectedOperator == old(detectedOperator)
      ensures hasPreFilled == old(hasPreFilled)
      ensures Consistent()
    {
      amount := None;
      provider := "";
      step := 1;
    }

    /** The prefill effect: on reaching step 3 with an operator chosen and a
        stored phone, once, the phone field gets the stored phone's local part when it fits the
        chosen operator and is emptied otherwise; before
        step 3 the once-flag is reset. */
    method PrefillEffect(userPhone: string)
      requires Consistent()
      modifies this
      ensures Consistent()
      ensures amount == old(amount) && provider == old(provider) && step == old(step)
      ensures old(step) == 3 && !old(hasPreFilled) && |userPhone| > 0 && |provider| > 0 ==> Prefilled(userPhone)
      ensures step < 3 ==> !hasPreFilled && phoneNumber == old(phoneNumber) && detectedOperator == old(detectedOperator)
      ensures old(step) == 3 && (old(hasPreFilled) || |userPhone| == 0 || |provider| == 0) ==>
        phoneNumber == old(phoneNumber) && hasPreFilled == old(hasPreFilled) &&
        detectedOperator == old(detectedOperator)
    {
      if step == 3 && !hasPreFilled && |userPhone| > 0 && |provider| > 0 {
        Prefill(userPhone, LocalNumberFits(userPhone, provider));
      }
      if step < 3 {
        hasPreFilled := false;
      }
    }

    /** The prefill is done: the phone field holds the stored phone's local
        part and the chosen operator is recorded when that part fits the
        operator; otherwise the field is empty and no operator is recorded. */
    predicate Prefilled(userPhone: string)
      reads this
    {
      PrefilledWith(userPhone, LocalNumberFits(userPhone, provider))
    }

    predicate PrefilledWith(userPhone: string, fits: bool)
      reads this
    {
      hasPreFilled &&
      if fits then phoneNumber == LocalNumber(userPhone) && detectedOperator == Some(provider)
      else phoneNumber == "" && detectedOperator == None
    }

    method Prefill(userPhone: string, fits: bool)
      modifies this
      ensures PrefilledWith(userPhone, fits)
      ensures amount == old(amount) && provider == old(provider) && step == old(step)
    {
      if fits {
        phoneNumber := LocalNumber(userPhone);
        detectedOperator := Some(provider);
      } else {
        phoneNumber := "";
        detectedOperator := None;
      }
      hasPreFilled := true;
    }
  }
}

=== FILE: withdrawals.dfy ===
/**
 * Withdrawal requests (src/utils/withdrawals.ts, with the request record
 * declared in src/utils/auth.ts): a list kept newest first, whose entries
 * move from pending to approved or rejected.
 */
module Withdrawals {
  import opened Common

  datatype RequestStatus = Pending | Approved | Rejected

  datatype WithdrawalRequest = WithdrawalRequest(
    id: string,
    userId: string,
    username: string,
    phoneNumber: string,
    amount: int,
    provider: string,
    withdrawalPhoneNumber: string,
    status: RequestStatus,
    requestDate: string,
    processedDate: Option<string>)

  function IndexOfRequest(rs: seq<WithdrawalRequest>, id: string): Option<nat>
  {
    FirstIndex(rs, (r: WithdrawalRequest) => r.id == id)
  }

  /** Approve or reject: the first request with the id gets the status and the
      processing date, whatever its status was; `None` when no request has
      the id. */
  function Process(rs: seq<WithdrawalRequest>, id: string, status: RequestStatus, now: string)
    : (r: Option<seq<WithdrawalRequest>>)
    ensures r.None? <==> forall k :: 0 <= k < |rs| ==> rs[k].id != id
    ensures r.Some? ==>
      |r.value| == |rs| &&
      exists k :: 0 <= k < |rs| && rs[k].id == id && (forall j :: 0 <= j < k ==> rs[j].id != id) &&
        r.value[k] == rs[k].(status := status, processedDate := Some(now)) &&
        forall j :: 0 <= j < |rs| && j != k ==> r.value[j] == rs[j]
  {
    match IndexOfRequest(rs, id)
    case None => None
    case Some(k) => Some(rs[k := rs[k].(status := status, processedDate := Some(now))])
  }

  function Statuses(rs: seq<WithdrawalRequest>): seq<RequestStatus>
  {
    seq(|rs|, i requires 0 <= i < |rs| => rs[i].status)
  }

  /** Processing twice with the same decision leaves the same statuses as
      processing once. */
  lemma ProcessIdempotent(rs: seq<WithdrawalRequest>, id: string, status: RequestStatus,
                          now1: string, now2: string)
    requires Process(rs, id, status, now1).Some?
    ensures Process(Process(rs, id, status, now1).value, id, status, now2).Some?
    ensures Statuses(Process(Process(rs, id, status, now1).value, id, status, now2).value) ==
            Statuses(Process(rs, id, status, now1).value)
  {
    var once := Process(rs, id, status, now1).value;
    var k := IndexOfRequest(rs, id).value;
    assert IndexOfRequest(once, id) == Some(k) by {
      assert forall j :: 0 <= j < |rs| ==> once[j].id == rs[j].id;
    }
  }

  /** Nothing guards on the current status: an approved request can be
      rejected afterwards, and the other way round. */
  lemma ProcessOverwrites(rs: seq<WithdrawalRequest>, id: string, first: RequestStatus,
                          second: RequestStatus, now1: string, now2: string)
    requires Process(rs, id, first, now1).Some?
    ensures var once := Process(rs, id, first, now1).value;
            var k := IndexOfRequest(rs, id).value;
            Process(once, id, second, now2).Some? &&
            Process(once, id, second, now2).value[k].status == second
  {
    var once := Process(rs, id, first, now1).value;
    assert forall j :: 0 <= j < |rs| ==> once[j].id == rs[j].id;
    assert IndexOfRequest(once, id) == IndexOfRequest(rs, id);
  }

  /** `getUserWithdrawalRequests`. */
  function UserRequests(rs: seq<WithdrawalRequest>, userId: string): (r: seq<WithdrawalRequest>)
    ensures forall i :: 0 <= i < |r| ==> r[i] in rs && r[i].userId == userId
    ensures forall i :: 0 <= i < |rs| && rs[i].userId == userId ==> rs[i] in r
  {
    Filter(rs, (q: WithdrawalRequest) => q.userId == userId)
  }

  /** `getPendingWithdrawalRequests`. */
  function PendingRequests(rs: seq<WithdrawalRequest>): (r: seq<WithdrawalRequest>)
    ensures forall i :: 0 <= i < |r| ==> r[i] in rs && r[i].status == Pending
    ensures forall i :: 0 <= i < |rs| && rs[i].status == Pending ==> rs[i] in r
  {
    Filter(rs, (q: WithdrawalRequest) => q.status == Pending)
  }

  /** The user's requests keep their stored order: selecting from a list
      with a new request in front puts that request in front. */
  lemma UserRequestsNewestFirst(req: WithdrawalRequest, rs: seq<WithdrawalRequest>)
    ensures UserRequests([req] + rs, req.userId) == [req] + UserRequests(rs, req.userId)
  {
    FilterAppend([req], rs, (q: WithdrawalRequest) => q.userId == req.userId);
    assert Filter([req], (q: WithdrawalRequest) => q.userId == req.userId) == [req] by {
      assert [req][..0] == [];
    }
  }

  /** The `loto_happy_withdrawal_requests` list, newest first. */
  class WithdrawalQueue {
    var requests: seq<WithdrawalRequest>

    constructor ()
      ensures requests == []
    {
      requests := [];
    }

    /** `createWithdrawalRequest`, with the generated id and the time passed in. */
    method CreateWithdrawalRequest(id: string, userId: string, username: string, phoneNumber: string,
                                   amount: int, provider: string, withdrawalPhoneNumber: string,
                                   now: string)
      returns (request: WithdrawalRequest)
      modifies this
      ensures request == WithdrawalRequest(id, userId, username, phoneNumber, amount, provider,
                                           withdrawalPhoneNumber, Pending, now, None)
      ensures requests == [request] + old(requests)
    {
      request := WithdrawalRequest(id, userId, username, phoneNumber, amount, provider,
                                   withdrawalPhoneNumber, Pending, now, None);
      requests := [request] + requests;
    }

    method ApproveWithdrawalRequest(requestId: string, now: string) returns (ok: bool)
      modifies this
      ensures ok <==> Process(old(requests), requestId, Approved, now).Some?
      ensures ok ==> requests == Process(old(requests), requestId, Approved, now).value
      ensures !ok ==> requests == old(requests)
    {
      var r := Process(requests, requestId, Approved, now);
      if r.Some? {
        requests := r.value;
      }
      ok := r.Some?;
    }

    method RejectWithdrawalRequest(requestId: string, now: string) returns (ok: bool)
      modifies this
      ensures ok <==> Process(old(requests), requestId, Rejected, now).Some?
      ensures ok ==> requests == Process(old(requests), requestId, Rejected, now).value
      ensures !ok ==> requests == old(requests)
    {
      var r := Process(requests, requestId, Rejected, now);
      if r.Some? {
        requests := r.value;
      }
      ok := r.Some?;
    }
  }
}
